=== FILE: README.md ===
# careerIDream, modelled in Dafny

careerIDream is a career assistant. A Django backend keeps user accounts,
one profile per user with five collections (skills, experiences, educations,
certifications, achievements), and saved resume and cover-letter drafts. A
Next.js front end holds the sign-up, password reset, Google sign-in,
onboarding, profile, generation, dashboard and pricing pages. The pages talk
to the backend through one authenticated gateway, `apiFetch`, which retries
once after refreshing the access token when the first answer is 401.

This project models that core in Dafny:

- The backend:
  - the user manager and its admin form;
  - cookie-or-header JWT authentication;
  - the Resend email backend;
  - the profile completeness score and the default row orders;
  - the profile and collection endpoints;
  - the draft slug, truncation and metadata extraction.
- The front end:
  - the request gateway;
  - the auth context and its initials;
  - every page's handlers, as classes whose fields are the page's React state.

Each handler is a method over the outcome of the request it makes. The
following become parameters, so every outcome is covered:

- network answers, which can be rejected, answer ok or answer with an error;
- body parsing;
- serializer validation;
- the LLM calls.

Module per source file:

| module | models |
|---|---|
| `Common` | optional values, JSON values, JS/Python truthiness, trimming, ASCII case, decimal printing |
| `UriEncoding` | `encodeURIComponent` and its percent-decoding inverse |
| `ApiGateway` | `frontend/lib/api.ts` |
| `PageCommon` | what a page sees of a request, JS object spread, `map`/`filter` by index |
| `AuthProvider` | `frontend/components/AuthProvider.tsx` |
| `Welcome` | `frontend/components/Welcome.tsx` |
| `Dashboard` | `frontend/app/dashboard/page.tsx` |
| `Pricing` | `frontend/app/pricing/page.tsx` |
| `HomePage` | `frontend/app/page.tsx` |
| `ProtectedRoute` | `frontend/components/ProtectedRoute.tsx` |
| `ObjectOrder` | the property order of `Object.values` on a parsed JSON object (used by the sign-up and password-reset pages) |
| `Signup` | `frontend/app/signup/page.tsx` |
| `ForgotPassword` | `frontend/app/forgot-password/page.tsx` |
| `GoogleAuth` | `frontend/app/auth/google/GoogleAuthClient.tsx` |
| `OnboardingPage` | `frontend/app/onboarding/page.tsx` |
| `ProfilePage` | `frontend/app/profile/page.tsx` |
| `GeneratePage` | `frontend/app/generate/page.tsx` |
| `UserAccounts` | `backend/users/models.py` |
| `UserAdmin` | `backend/users/admin.py` |
| `JwtAuth` | `backend/users/authentication.py` |
| `EmailBackend` | `backend/users/email_backends.py` |
| `ProfileModels` | `backend/profiles/models.py` |
| `ProfileViews` | `backend/profiles/views.py` |
| `Drafts` | `backend/drafts/views.py` |

`refreshAccessToken` has no `catch`, so a rejected refresh fetch propagates
out of `apiFetch`; `ApiGateway.ApiFetch` models that rejection.

## Model

| member | source | states |
|---|---|---|
| Common.Lookup | frontend/app/profile/page.tsx:210-218 | a key is absent exactly when no member carries it; a found value is the one stored with the last member carrying that key, as in `JSON.parse` |
| Common.PyGet | backend/profiles/views.py:248-253 | `dict.get(key, default)` fails exactly on a non-dict and gives the default for a missing key |
| Common.PyFirst | backend/profiles/views.py:249 | `v[0]` gives the first element of a non-empty list and raises on an empty list, a dict, a number, null or a boolean |
| Common.TrimEmptyIffAllSpace | frontend/components/AuthProvider.tsx:24-25 | a string trims to "" exactly when every character is whitespace |
| Common.TrimIdempotent | backend/drafts/views.py:90-93 | trimming twice equals trimming once |
| Common.TrimEdges | frontend/components/AuthProvider.tsx:24 | a non-empty trimmed string starts and ends with a non-space |
| Common.Lower | backend/users/models.py:16 | lower-casing keeps the length and leaves no ASCII capital |
| Common.NatToString | frontend/app/profile/page.tsx:283 | the decimal numeral is non-empty, all digits, without a leading zero |
| Common.NatToStringRoundTrip | frontend/app/profile/page.tsx:283 | reading the printed numeral gives the number back |
| Common.NatToStringInjective | frontend/app/profile/page.tsx:283 | two numbers with the same numeral are equal, so the ids of detail URLs never collide |
| Common.LeadingDigitPositive | frontend/app/signup/page.tsx:73 | a numeral whose first digit is not 0 has a positive value |
| Common.CanonicalNumeralPrinted | frontend/app/signup/page.tsx:73 | a numeral without a leading zero is the one printed for its value, so two distinct array-index keys have distinct values |
| UriEncoding.HexRoundTrip | frontend/app/signup/page.tsx:18-20 | the hex digit of a nibble reads back as that nibble |
| UriEncoding.Utf8 | frontend/app/signup/page.tsx:18-20 | each character becomes 1 to 4 bytes, exactly one byte (itself) for ASCII |
| UriEncoding.PercentBytes | frontend/app/signup/page.tsx:18-20 | each byte becomes three characters, `%` and two upper-case hex digits |
| UriEncoding.EncodeURIComponent | frontend/app/signup/page.tsx:18-20 | the output holds only unreserved characters, `%` and hex digits |
| UriEncoding.EncodedHasNoDelimiters | frontend/app/auth/google/GoogleAuthClient.tsx:31-33 | an encoded value contains none of `& = ? # / +` or a space |
| UriEncoding.EncodeUnreservedIdentity | frontend/app/signup/page.tsx:18-20 | a value of unreserved characters passes through unchanged |
| UriEncoding.DecodePercentBytes | frontend/app/signup/page.tsx:18-20 | percent-decoding undoes `PercentBytes` for any following text |
| UriEncoding.EncodeDecodeRoundTrip | frontend/app/signup/page.tsx:18-20 | decoding an encoded value yields exactly the value's UTF-8 bytes |
| ApiGateway.ApiBaseUrl | frontend/lib/api.ts:1-2 | only an unset variable falls back to `http://localhost:8000`; an empty one is kept |
| ApiGateway.BuildUrl | frontend/lib/api.ts:4-5 | every input starting with "http" is used as is (the test is textual, so a relative path such as "httpbin/get" is never resolved); any other is appended to the base |
| ApiGateway.BuildUrlIdempotent | frontend/lib/api.ts:4-5 | with an absolute base every built URL is absolute, and building it again changes nothing |
| ApiGateway.MergeInit | frontend/lib/api.ts:30-33 | credentials default to "include" unless the caller gave some; method and body are the caller's |
| ApiGateway.RefreshAccessToken | frontend/lib/api.ts:15-23 | one credentialed POST to the refresh path with the default timeout; ok iff the answer is 2xx; a network failure rejects |
| ApiGateway.ApiFetch | frontend/lib/api.ts:25-52 | the first request is the caller's; a non-401 answer returns at once; a 401 triggers exactly one refresh; a failed refresh returns the 401; a successful one triggers one identical retry whose outcome is returned; a rejected refresh propagates; at most three requests |
| PageCommon.JsonOf | frontend/app/generate/page.tsx:82-120 | a parsed body exists only for an answered request with a body the parser accepts |
| PageCommon.SetMember | frontend/app/generate/page.tsx:149-151 | after `{...o, [k]: v}` the key reads `v` and every other key reads as before |
| PageCommon.Overlay | frontend/app/onboarding/page.tsx:299-303 | after `{...prev, ...overlay}` each key reads the overlay's value if it has one, else the previous value |
| PageCommon.WithMember | frontend/app/generate/page.tsx:149-151 | spreading any parsed value and setting a key gives an object whose key is set and whose other keys are the spread's |
| PageCommon.MapAt | frontend/app/onboarding/page.tsx:221-225 | mapping by index changes only the element at the index, and keeps the length |
| PageCommon.RemoveAt | frontend/app/onboarding/page.tsx:579-581 | filtering by index drops exactly the element at an in-range index and nothing otherwise |
| PageCommon.AppendThenRemove | frontend/app/onboarding/page.tsx:579-581 | removing the element just appended gives the list back |
| PageCommon.MapAtUnchanged | frontend/app/onboarding/page.tsx:221-225 | writing an element back unchanged leaves the list as it was |
| AuthProvider.SplitSpace | frontend/components/AuthProvider.tsx:27 | `split(" ")` gives at least one piece, none holding a space |
| AuthProvider.SplitJoin | frontend/components/AuthProvider.tsx:27 | joining the pieces with spaces gives the text back |
| AuthProvider.NonEmpty | frontend/components/AuthProvider.tsx:28 | `filter(Boolean)` keeps only non-empty pieces, each from the input, and the first piece when it is non-empty |
| AuthProvider.NonEmptyCounts | frontend/components/AuthProvider.tsx:28 | every non-empty piece is kept as often as it occurs |
| AuthProvider.NonEmptyOrder | frontend/components/AuthProvider.tsx:28 | the kept pieces are a subsequence of the input, so its order is kept |
| AuthProvider.Words | frontend/components/AuthProvider.tsx:26-28 | the words are non-empty and space-free; text starting with a letter starts the first word |
| AuthProvider.ConcatNonEmpty | frontend/components/AuthProvider.tsx:28 | dropping empty pieces does not change what they spell |
| AuthProvider.WordsSpellName | frontend/components/AuthProvider.tsx:26-28 | the words of a name are its characters with only the spaces removed |
| AuthProvider.SplitSpellsName | frontend/components/AuthProvider.tsx:27 | the pieces of `split(" ")` spell the text without its spaces |
| AuthProvider.FirstLetters | frontend/components/AuthProvider.tsx:30-31 | one upper-cased first letter per word, in order |
| AuthProvider.BuildInitials | frontend/components/AuthProvider.tsx:22-32 | "U" without a user; the upper-cased first email letter (or "U") for a blank name; else the initials of the first two words; always 1 or 2 characters |
| AuthProvider.AuthContext.constructor | frontend/components/AuthProvider.tsx:35-36 | no user and loading at mount |
| AuthProvider.AuthContext.Refresh | frontend/components/AuthProvider.tsx:38-53 | authenticated iff the answer is ok with a readable body, with that body as the user; loading ends on every outcome |
| Welcome.BeforeAt | frontend/components/Welcome.tsx:21 | the part before the first '@' is a prefix without '@', ending at an '@' or at the end |
| Welcome.FirstName | frontend/components/Welcome.tsx:21 | a non-empty first name wins, else the email's local part |
| Welcome.NoAtGreetsWithEmail | frontend/components/Welcome.tsx:21 | an email without '@' greets with the whole address |
| Welcome.CompletenessOf | frontend/components/Welcome.tsx:61-65 | the completeness is known iff the body's `profile_completeness` is a number, and then it is that number |
| Welcome.CompletenessLabel | frontend/components/Welcome.tsx:77-78 | "--" exactly while unknown, else the number followed by "%" |
| Welcome.LabelReadsBack | frontend/components/Welcome.tsx:77-78 | the label of a non-negative completeness reads back as that number |
| Welcome.WelcomeScreen.constructor | frontend/components/Welcome.tsx:18-20 | the completeness starts unknown |
| Welcome.WelcomeScreen.Load | frontend/components/Welcome.tsx:51-75 | nothing changes after unmount; a non-ok answer keeps the value; a rejection or unreadable body clears it; an ok body sets it from `CompletenessOf` |
| Dashboard.DashboardPage.constructor | frontend/app/dashboard/page.tsx:69-70 | no user and loading at mount |
| Dashboard.DashboardPage.Load | frontend/app/dashboard/page.tsx:72-91 | the user is set only from an ok, readable answer while mounted; loading ends iff mounted; the effect's promise rejects iff the fetch or the body read rejects |
| Pricing.CallToActionFor | frontend/app/pricing/page.tsx:44-47 | the upgrade button and title iff signed in as strictly `true`; the unknown state shows "Start free" |
| Pricing.PricingPage.constructor | frontend/app/pricing/page.tsx:17-18 | the sign-in state starts unknown, with no user |
| Pricing.PricingPage.Load | frontend/app/pricing/page.tsx:20-42 | after mount, signed in iff the answer is ok with a readable body, and the page offers the upgrade exactly then |
| HomePage.NeedsOnboarding | frontend/app/page.tsx:41-45 | reading the flag fails exactly on a null body; it holds iff `needs_onboarding` is truthy |
| HomePage.RootPage.constructor | frontend/app/page.tsx:21-22 | no user, loading and no redirect at mount |
| HomePage.RootPage.Rendered | frontend/app/page.tsx:73-97 | the loading screen exactly while loading; the welcome screen exactly for a loaded user |
| HomePage.RootPage.FetchCurrentUser | frontend/app/page.tsx:25-71 | the onboarding check runs iff signed in; a user needing onboarding is redirected and not stored; otherwise the user is the answer's body or none, and loading ends while mounted |
| ProtectedRoute.Guard.constructor | frontend/components/ProtectedRoute.tsx:10-11 | not allowed and checking at mount |
| ProtectedRoute.Guard.Verify | frontend/components/ProtectedRoute.tsx:13-47 | after mount the check ends; an ok answer allows, any other outcome redirects to /login; the children render iff the answer was ok |
| Signup.IndexOf | frontend/app/signup/page.tsx:237 | the first position of a character, or none when it is absent |
| Signup.CheckEmailSound | frontend/app/signup/page.tsx:237 | every string the scan accepts matches the email pattern |
| Signup.CheckEmailComplete | frontend/app/signup/page.tsx:237 | every string matching the email pattern passes the scan |
| Signup.CheckEmailMatchesPattern | frontend/app/signup/page.tsx:237 | splitting at the first '@' and finding a dot with text on both sides accepts exactly the strings the email pattern matches |
| Signup.NameError | frontend/app/signup/page.tsx:185-190 | a name passes iff it is non-empty and at most 155 characters |
| Signup.EmailError | frontend/app/signup/page.tsx:234-239 | an email passes iff it is non-empty and matches the pattern; empty gives "Email is required." |
| Signup.PasswordError | frontend/app/signup/page.tsx:258-263 | a password passes iff it has at least 8 characters |
| Signup.RePasswordError | frontend/app/signup/page.tsx:282-287 | the confirmation passes iff it is non-empty and equal to the password |
| Signup.ValidForm | frontend/app/signup/page.tsx:185-287 | a form is submittable iff both names, the email, the password and the confirmation pass their rules |
| ObjectOrder.KeysInOrder | frontend/app/signup/page.tsx:72 | the distinct keys of a parsed object, each once, starting with the key written first |
| ObjectOrder.Select | frontend/app/signup/page.tsx:73 | the keys that are (or are not) array indices, each kept once |
| ObjectOrder.InsertIndex | frontend/app/signup/page.tsx:73 | inserting an array-index key adds exactly that key |
| ObjectOrder.HeadIsLeast | frontend/app/signup/page.tsx:73 | after inserting behind the head of an ascending list, the head is still the least |
| ObjectOrder.InsertAscending | frontend/app/signup/page.tsx:73 | inserting into an ascending list of array indices keeps it ascending |
| ObjectOrder.SortIndices | frontend/app/signup/page.tsx:73 | the array-index keys, the same ones, in ascending numeric order |
| ObjectOrder.SortDistinct | frontend/app/signup/page.tsx:73 | sorting keeps distinct keys distinct |
| ObjectOrder.InsertDistinct | frontend/app/signup/page.tsx:73 | inserting a new key into distinct keys keeps them distinct |
| ObjectOrder.PropertyKeysOrder | frontend/app/signup/page.tsx:73 | `Object.values` visits each key of the object once, array-index keys first and in ascending numeric order |
| ObjectOrder.PropertyKeysPresent | frontend/app/signup/page.tsx:73 | the property keys are exactly the object's keys |
| ObjectOrder.PropertyKeysDistinct | frontend/app/signup/page.tsx:73 | no key is visited twice |
| ObjectOrder.PropertyKeysIndicesFirst | frontend/app/signup/page.tsx:73 | array-index keys come before every other key, in ascending numeric order |
| ObjectOrder.IndicesThenOthers | frontend/app/signup/page.tsx:73 | ascending array indices followed by non-index keys keep the indices first and ascending, and stay distinct when both parts are |
| ObjectOrder.ValuesAt | frontend/app/signup/page.tsx:73 | one value per key, the one that key reads (the last one written) |
| ObjectOrder.ObjectValues | frontend/app/signup/page.tsx:73 | throws exactly on null; on an object, the value each property key reads, in property order |
| Signup.FirstListEntry | frontend/app/signup/page.tsx:73 | `Object.values(body)[0]?.[0]` throws exactly on null and is missing for an empty object |
| Signup.FirstEntryOfObject | frontend/app/signup/page.tsx:73 | on a non-empty object the entry is read from the first property key's value |
| Signup.FirstFieldWritten | frontend/app/signup/page.tsx:73 | without numeric keys the entry is the first error of the field written first, with the value given to it last |
| ObjectOrder.SelectAll | frontend/app/signup/page.tsx:73 | with no array-index key every key is kept in order |
| Signup.FirstIsLeastIndex | frontend/app/signup/page.tsx:73 | with numeric keys the entry comes from the smallest one, wherever it is written |
| ObjectOrder.LeastIndexFirst | frontend/app/signup/page.tsx:73 | the smallest array-index key is the first property key |
| Signup.NumericKeyFirst | frontend/app/signup/page.tsx:73 | `{"b":["c"],"1":["a"]}` gives "a" |
| Signup.RepeatedKeyLastValue | frontend/app/signup/page.tsx:73 | `{"a":["x"],"b":["y"],"a":["z"]}` gives "z" |
| Signup.SignupErrorMessage | frontend/app/signup/page.tsx:68-76 | an unparsable body is the message itself (or the fallback if empty); a parsed one gives `FirstListEntry` (the first error of the first property in `Object.values` order) or the fallback when that is missing |
| Signup.GoogleOAuthUrl | frontend/app/signup/page.tsx:13-20 | a configured URL wins; the default is the backend start URL with the encoded redirect URI |
| Signup.DefaultOAuthUrlCarriesRedirect | frontend/app/signup/page.tsx:16-20 | the query value after the start path decodes to the redirect URI's UTF-8 bytes |
| Signup.AuthorizationUrl | frontend/app/signup/page.tsx:119-120 | reading `authorization_url` fails exactly on null and is the member's value on an object |
| Signup.SignupPage.constructor | frontend/app/signup/page.tsx:31-53 | empty form, idle status, nothing in flight, no navigation |
| Signup.SignupPage.OnSubmit | frontend/app/signup/page.tsx:55-96 | POSTs the form to /auth/users/; ok shows success and resets the form; an error shows `SignupErrorMessage`; a rejection shows the network error |
| Signup.SignupPage.GoogleSignup | frontend/app/signup/page.tsx:98-137 | GETs the OAuth URL; navigates only to a truthy `authorization_url`; every other outcome shows its own error |
| ForgotPassword.ResetErrorStatus | frontend/app/forgot-password/page.tsx:49-55 | a body that is not JSON, or is JSON `null`, gives the network error; otherwise `FirstListEntry` or the fallback when that is missing |
| ForgotPassword.ForgotPasswordPage.constructor | frontend/app/forgot-password/page.tsx:19-23 | idle, not submitting |
| ForgotPassword.ForgotPasswordPage.OnSubmit | frontend/app/forgot-password/page.tsx:36-71 | POSTs the email to /auth/users/reset_password/; ok shows the sent message; not ok shows `ResetErrorStatus`; rejected shows the network error; submitting ends |
| GoogleAuth.CallbackUrlCarriesParams | frontend/app/auth/google/GoogleAuthClient.tsx:31-33 | the encoded state holds no '&', and both state and code decode back to their UTF-8 bytes |
| GoogleAuth.IsNewUser | frontend/app/auth/google/GoogleAuthClient.tsx:70-73 | throws exactly on null; new iff `is_new`, `new_user` or `first_time` is strictly `true` |
| GoogleAuth.OnlyStrictTrueCounts | frontend/app/auth/google/GoogleAuthClient.tsx:70-73 | on any object whose other two flags are not strictly `true`, the user is new iff `is_new` is exactly `true`; a truthy `1` or `"yes"` does not count |
| GoogleAuth.FailureMessageNamesStatus | frontend/app/auth/google/GoogleAuthClient.tsx:53-61 | the failure message contains the status code |
| GoogleAuth.Finalize | frontend/app/auth/google/GoogleAuthClient.tsx:16-85 | missing params send nothing; POST first, then GET iff POST is refused (404/405); the last answer decides between network error, failure message and success; a new user goes to /onboarding, others to / |
| OnboardingPage.ListEditor.constructor | frontend/app/onboarding/page.tsx:61-94 | an empty list with the empty record as draft, not editing |
| OnboardingPage.ListEditor.Save | frontend/app/onboarding/page.tsx:216-289 | with a required field blank nothing changes; otherwise the draft is appended (or written at the edited index only) and the editor resets |
| OnboardingPage.ListEditor.StartEdit | frontend/app/onboarding/page.tsx:570-573 | editing index `i` loads item `i` into the draft |
| OnboardingPage.ListEditor.Replace | frontend/app/onboarding/page.tsx:305-309 | an array from the parser replaces the list, anything else keeps it |
| OnboardingPage.ListEditor.Remove | frontend/app/onboarding/page.tsx:579-581 | removes exactly the item at the index; the draft and editing index stay |
| OnboardingPage.SaveEditRoundTrips | frontend/app/onboarding/page.tsx:216-229 | removing a just-added item restores the list; saving an unchanged edit changes nothing |
| OnboardingPage.ParsedList | frontend/app/onboarding/page.tsx:305-309 | a list is taken iff the member is an array, and then it is that array |
| OnboardingPage.ResumeLink | frontend/app/onboarding/page.tsx:199-204 | a link iff the stored resume is truthy, resolved against the API base |
| OnboardingPage.Onboarding.constructor | frontend/app/onboarding/page.tsx:61-94 | empty profile; each of the five lists empty, with its required fields, its empty form and nothing being edited; no file, idle |
| OnboardingPage.MergedProfile | frontend/app/onboarding/page.tsx:299-304 | each key reads as in the spread `profile` when that is truthy and holds the key, else as in the draft |
| OnboardingPage.Onboarding.ApplyParsedData | frontend/app/onboarding/page.tsx:291-310 | the draft becomes `MergedProfile`; each array replaces its list, anything else keeps it; nothing else changes |
| OnboardingPage.Onboarding.ParseResume | frontend/app/onboarding/page.tsx:312-351 | without a file or while parsing nothing is sent and nothing changes; otherwise the file is posted and the outcome message set; an ok answer with non-null JSON merges the profile (`MergedProfile`) and replaces each of the five lists given as an array, while every other answer leaves the draft and all five lists as they were; drafts and edit indices always stay; parsing ends |
| OnboardingPage.Onboarding.SubmitForm | frontend/app/onboarding/page.tsx:353-364 | the six JSON parts in order, plus `resume_file` iff a file is chosen |
| OnboardingPage.Onboarding.Submit | frontend/app/onboarding/page.tsx:353-380 | sends `SubmitForm`; ok redirects to / with the completion message; not ok shows the failure; a rejection leaves the cleared message |
| ProfilePage.EmptyEntry | frontend/app/profile/page.tsx:82-128 | the empty record of each kind has id 0 and order 0 |
| ProfilePage.DetailExtendsCollection | frontend/app/profile/page.tsx:281-284 | a detail URL extends its collection URL and differs from it |
| ProfilePage.SaveUrl | frontend/app/profile/page.tsx:281-284 | the detail URL iff the editing id is positive, else the collection |
| ProfilePage.SaveMethod | frontend/app/profile/page.tsx:285 | PATCH iff an editing id is set and non-zero, else POST |
| ProfilePage.SaveTargetAgrees | frontend/app/profile/page.tsx:281-285 | for non-negative ids, PATCH goes to the detail URL and POST to the collection |
| ProfilePage.NegativeIdPatchesCollection | frontend/app/profile/page.tsx:281-285 | a negative editing id sends PATCH to the collection URL |
| ProfilePage.OrderValue | frontend/app/profile/page.tsx:279 | `Number(order) \|\| 0` is 0 iff the order is NaN or 0, and otherwise the number |
| ProfilePage.Payload | frontend/app/profile/page.tsx:306-316 | the payload carries the normalised order and no id; an experience marked current is sent with a null end date, otherwise with its own end date (null when unset) |
| ProfilePage.ResumeUrl | frontend/app/profile/page.tsx:188-197 | a link iff the stored resume is truthy: the resolved URL plus the cache buster |
| ProfilePage.CacheBusterCarriesTimestamp | frontend/app/profile/page.tsx:193-195 | the buster is empty iff there is no timestamp, else `?v=` plus the encoded timestamp, which decodes back |
| ProfilePage.AfterLoad | frontend/app/profile/page.tsx:199-220 | a rejected request throws and changes nothing; otherwise each ok answer sets its state, and the profile answer refills the header draft |
| ProfilePage.ProfileScreen.constructor | frontend/app/profile/page.tsx:82-128 | empty state, and every kind's form closed with its empty record |
| ProfilePage.ProfileScreen.LoadProfile | frontend/app/profile/page.tsx:199-220 | the loaded state is `AfterLoad` of the previous one; forms and messages stay |
| ProfilePage.ProfileScreen.StartEdit | frontend/app/profile/page.tsx:636-640 | the kind's form opens on the entry with its id |
| ProfilePage.ProfileScreen.ToggleForm | frontend/app/profile/page.tsx:609-616 | an open form closes; a closed one opens blank |
| ProfilePage.ProfileScreen.Save | frontend/app/profile/page.tsx:275-297 | sends `Payload` to `SaveUrl` with `SaveMethod`; the form resets only after an ok answer and a reload that did not throw |
| ProfilePage.ProfileScreen.Delete | frontend/app/profile/page.tsx:299-304 | DELETEs the detail URL, then reloads whatever the answer was; a rejection aborts |
| ProfilePage.ProfileScreen.UpdateProfile | frontend/app/profile/page.tsx:238-255 | without a profile nothing happens; ok sets the message, reloads and ends editing; not ok sets the failure message |
| ProfilePage.ProfileScreen.UpdateResume | frontend/app/profile/page.tsx:257-273 | without a file nothing happens; ok sets the message, clears the file and reloads; not ok sets the failure message |
| GeneratePage.InitialMode | frontend/app/generate/page.tsx:59-63 | cover-letter mode iff the query says `cover-letter` |
| GeneratePage.Endpoint | frontend/app/generate/page.tsx:76-80 | each mode posts to its own endpoint |
| GeneratePage.EndpointFollowsQuery | frontend/app/generate/page.tsx:59-80 | the cover-letter endpoint is used iff the query asks for it |
| GeneratePage.UpdateResumeField | frontend/app/generate/page.tsx:149-151 | without a draft nothing changes; otherwise the field is set and all others keep their values |
| GeneratePage.ArraySet | frontend/app/generate/page.tsx:181-182 | `arr[i] = v` sets an in-range slot, pads with null past the end, and ignores a negative index |
| GeneratePage.UpdateSkill | frontend/app/generate/page.tsx:153-160 | without a skills array nothing changes; otherwise the skill at the index is replaced |
| GeneratePage.UpdateEntry | frontend/app/generate/page.tsx:162-174 | without the list nothing changes; otherwise only the entry at the index is rewritten |
| GeneratePage.UpdateExperienceField | frontend/app/generate/page.tsx:162-174 | sets one field of one experience; other fields and experiences stay |
| GeneratePage.UpdateEducationField | frontend/app/generate/page.tsx:189-201 | sets one field of one education entry; other fields and entries stay |
| GeneratePage.SetBullet | frontend/app/generate/page.tsx:179-184 | sets one bullet of an experience; its other members stay |
| GeneratePage.UpdateExperienceBullet | frontend/app/generate/page.tsx:176-187 | sets one bullet of one experience; other experiences stay |
| GeneratePage.Shown | frontend/app/generate/page.tsx:740 | at most the first two strengths or weaknesses are shown, in order |
| GeneratePage.Generator.constructor | frontend/app/generate/page.tsx:59-73 | mode from the query, modern template, empty fields and drafts |
| GeneratePage.Generator.Generate | frontend/app/generate/page.tsx:82-120 | a blank description only sets the prompt; otherwise the mode's draft is the parsed answer on success, and each failure shows its message |
| GeneratePage.Generator.SaveDraft | frontend/app/generate/page.tsx:122-147 | without a resume draft nothing is sent; otherwise `SaveBody` is posted and the outcome message set |
| UserAccounts.PasswordFor | backend/users/models.py:19 | no password gives an unusable one; a given one is hashed from that text |
| UserAccounts.SetDefault | backend/users/models.py:26-28 | the key keeps its value if present, else takes the default; other keys stay |
| UserAccounts.SuperuserFields | backend/users/models.py:26-28 | the three flags default to True; caller keys are kept; no other key appears |
| UserAccounts.LowerIdempotent | backend/users/models.py:16 | lower-casing a stored email again changes nothing |
| UserAccounts.UserTable.constructor | backend/users/models.py:9 | the table holds the given users |
| UserAccounts.UserTable.CreateUser | backend/users/models.py:11-22 | a falsy email raises and stores nothing; an email already stored (after normalising and lower-casing) raises `IntegrityError` and stores nothing; otherwise exactly one user is appended, lower-cased, with the hashed password and the extra fields; emails stay unique |
| UserAccounts.UserTable.CreateSuperuser | backend/users/models.py:24-36 | an explicit non-True staff or superuser flag raises before anything is stored; otherwise `create_user` with the defaulted flags |
| UserAdmin.CleanPassword2 | backend/users/admin.py:23-29 | a mismatch is reported iff both passwords are given and differ; otherwise the confirmation is returned |
| UserAdmin.ConfirmationAgrees | backend/users/admin.py:23-29 | a clean form with both fields filled has equal passwords; a missing field never raises |
| UserAdmin.Save | backend/users/admin.py:31-37 | the user has the form's fields and the hash of password1; it is stored iff `commit` |
| JwtAuth.RawToken | backend/users/authentication.py:7-17 | a header always decides; only without one is the cookie read |
| JwtAuth.Authenticate | backend/users/authentication.py:7-25 | authenticated iff a token is found, validates and its user loads, and then it is that user with that token |
| JwtAuth.HeaderShadowsCookie | backend/users/authentication.py:9-12 | with a header, the cookies make no difference |
| JwtAuth.NoTokenIsAnonymous | backend/users/authentication.py:13-15 | no header and no cookie is anonymous |
| JwtAuth.CookieAuthenticates | backend/users/authentication.py:13-25 | without a header, a valid cookie token authenticates as its user |
| EmailBackend.FirstHtml | backend/users/email_backends.py:20-25 | the first `text/html` alternative, or none iff there is none |
| EmailBackend.HtmlContent | backend/users/email_backends.py:20-28 | an html subtype without a non-empty alternative uses the body; otherwise the alternative |
| EmailBackend.PayloadHeaders | backend/users/email_backends.py:30-34 | sender (the message's own when set, else the default), recipients and subject are always present |
| EmailBackend.PayloadBody | backend/users/email_backends.py:36-41 | html iff there is a non-empty HTML part; text iff there is no HTML or the body is non-empty and differs from it |
| EmailBackend.PayloadLists | backend/users/email_backends.py:43-48 | cc, bcc and reply_to iff non-empty, each the message's list; no other key is sent |
| EmailBackend.PayloadHasBody | backend/users/email_backends.py:36-41 | every payload carries html or text |
| EmailBackend.FindHtmlAlternative | backend/users/email_backends.py:20-25 | the loop with `break` finds exactly the first html alternative (`FirstHtml`) |
| EmailBackend.BuildPayload | backend/users/email_backends.py:19-50 | builds exactly `PayloadOf`, whose contents the three payload lemmas state |
| EmailBackend.FirstHtmlAt | backend/users/email_backends.py:21-25 | the first html alternative is found where the loop stops |
| EmailBackend.SendMessages | backend/users/email_backends.py:52-71 | no messages returns 0 before the key is read; no key raises; call k carries message k's payload; success counts all and happens iff every send returns; a failure is the first failing send with its text |
| ProfileModels.ValidateResumeSize | backend/profiles/models.py:11-14 | rejected iff a file is present and larger than 5 MiB |
| ProfileModels.RowsOf | backend/profiles/models.py:55-61 | a profile's collection holds exactly its rows of that kind |
| ProfileModels.CapNeverBinds | backend/profiles/models.py:46-64 | the weights sum to 100, so `min(score, 100)` never changes the score |
| ProfileModels.ScoreExtremes | backend/profiles/models.py:46-64 | the score is 0 exactly when no check is met and 100 exactly when every check is met |
| ProfileModels.ScoreMonotone | backend/profiles/models.py:46-64 | meeting more checks never lowers the score |
| ProfileModels.SnocSharedKind | backend/profiles/models.py:55-62 | adding a certification or an achievement meets the shared check and leaves the other checks as they were |
| ProfileModels.SharedSlot | backend/profiles/models.py:61-62 | certifications and achievements share one 10-point slot: adding the second adds nothing |
| ProfileModels.KeyLessStrictTotal | backend/profiles/models.py:124-125 | the default ordering is irreflexive, asymmetric, transitive and total on distinct ids |
| ProfileModels.InsertOrdered | backend/profiles/models.py:124-125 | inserting keeps the rows sorted and adds exactly the one row |
| ProfileModels.HeadIdFresh | backend/profiles/models.py:124-125 | in a list with distinct ids, a later row's id differs from the first's |
| ProfileModels.OrderRowsCorrect | backend/profiles/models.py:124-125 | a listing is a sorted permutation of the stored rows |
| ProfileViews.ProfileOf | backend/profiles/views.py:42 | `.first()` is the first profile of the user, and none iff the user has none |
| ProfileViews.VisibleRows | backend/profiles/views.py:274-276 | a listing holds exactly the rows of that kind whose profile belongs to the user |
| ProfileViews.FindVisible | backend/profiles/views.py:274-276 | a lookup finds a visible row with that key, and misses only when no such row is visible |
| ProfileViews.Fresh | backend/profiles/views.py:111 | the saved rows get consecutive new keys, the profile and the submitted data |
| ProfileViews.RemoveRows | backend/profiles/views.py:110 | the delete keeps exactly the rows outside the profile's collection |
| ProfileViews.RowsOfRemove | backend/profiles/views.py:110 | deleting a collection empties it and leaves every other collection as it was |
| ProfileViews.RowsOfFresh | backend/profiles/views.py:111 | the new rows belong to exactly the replaced collection |
| ProfileViews.ReplaceExact | backend/profiles/views.py:107-111 | after a replacement the collection holds exactly the submitted items |
| ProfileViews.ReplaceFrame | backend/profiles/views.py:107-111 | a replacement touches no other collection and no profile |
| ProfileViews.RemoveRowsKeepsKeys | backend/profiles/views.py:110 | deleting keeps keys unique |
| ProfileViews.ReplaceKeepsValid | backend/profiles/views.py:107-111 | replacing keeps keys unique and below the next key |
| ProfileViews.ParsePayload | backend/profiles/views.py:80-88 | a missing or null value gives the fallback; a string is decoded, or the fallback if it is not JSON; anything else is kept |
| ProfileViews.ParsePayloadOfEncoded | backend/profiles/views.py:80-95 | a JSON text the page sent comes back as the value it encoded |
| ProfileViews.SubmitPayloads | backend/profiles/views.py:91-95 | the five collection payloads, in the view's order |
| ProfileViews.ApplyPatch | backend/profiles/views.py:54-56 | a partial update leaves the owner and the stored completeness alone |
| ProfileViews.CheckProfile | backend/profiles/views.py:97-104 | validation passes only if the fields validate; a truthy file is attached and must be within the size limit |
| ProfileViews.ReplaceAll | backend/profiles/views.py:107-143 | the blocks never touch profiles; a reported failure names one of the payloads |
| ProfileViews.Shift | backend/profiles/views.py:107-143 | a failure index in a suffix maps to the same payload in the whole list |
| ProfileViews.ReplaceAllFrame | backend/profiles/views.py:106-142 | a collection no payload names is left as it was |
| ProfileViews.ReplaceAllFailure | backend/profiles/views.py:106-142 | a reported failure is a truthy payload whose validation failed |
| ProfileViews.ReplaceAllEffect | backend/profiles/views.py:106-142 | a truthy payload the run got past leaves its collection holding exactly its validated rows; a falsy payload, the failing one and every later one leave their collection as it was |
| ProfileViews.Counts | backend/profiles/views.py:150-154 | the five counts are the sizes of the profile's collections |
| ProfileViews.RecomputeSettles | backend/profiles/models.py:64-66 | after recomputing, the stored completeness is the score of the profile's own checks and no row has changed |
| ProfileViews.SubmitForContract | backend/profiles/views.py:98-157 | the per-collection effect and the counts of a successful submission |
| ProfileViews.SubmitContract | backend/profiles/views.py:73-157 | no profile gives 404 and no change; a falsy payload never touches its collection; on 200 each truthy payload validated and its collection holds exactly its items |
| ProfileViews.ReplaceAllSucceeds | backend/profiles/views.py:106-143 | the blocks report no failure iff every truthy payload validates |
| ProfileViews.SubmitForOutcome | backend/profiles/views.py:97-157 | 500 iff a file comes with a non-object profile payload; 400 iff the profile or a truthy collection payload fails validation; else 200; a 500 or profile 400 changes nothing; the profile is saved with the validated fields before the collections; 200 reports the saved profile and the five counts |
| ProfileViews.SubmitReply | backend/profiles/views.py:73-157 | for a user with a profile: the same 500/400/200 split over the five parsed payloads, and on 200 the patched profile and the counts |
| ProfileViews.ParseResume | backend/profiles/views.py:159-266 | the checks run in order (file 400, key 501, size 400); 200 only after all pass and the model answered below 400 |
| ProfileViews.ParseResumeAnswered | backend/profiles/views.py:247-266 | a well-formed answer whose text is JSON is returned as that JSON |
| ProfileViews.ParseResumeNoCandidates | backend/profiles/views.py:247-264 | an answer without candidates falls through to the empty text, which is not JSON: 502 |
| ProfileViews.ParseResumeEmptyCandidates | backend/profiles/views.py:248-253 | an empty candidates list raises an IndexError: 500 |
| ProfileViews.TallyCriteria | backend/profiles/models.py:46-64 | the checks in order add up to the weighted sum `RawScore` |
| ProfileViews.ProfileStore.UpdateProfileCompleteness | backend/profiles/models.py:44-66 | the score is that of the profile's current checks, stored in its column only; keys stay unique |
| ProfileViews.ProfileStore.ReplaceCollection | backend/profiles/views.py:107-111 | the state becomes `ReplaceRows`, and the created rows are `Fresh`; keys stay unique |
| ProfileViews.ProfileStore.ReplaceIfGiven | backend/profiles/views.py:107-111 | valid iff the payload is falsy or validates; only a truthy valid payload replaces; keys stay unique |
| ProfileViews.ProfileStore.Me | backend/profiles/views.py:39-46 | 404 iff the user has no profile; otherwise 200 with that profile and five collections, each holding exactly that profile's rows of its kind, sorted in the default order when keys are unique |
| ProfileViews.ProfileStore.Onboarding | backend/profiles/views.py:60-71 | 404 without a profile; otherwise the stored completeness and whether it is below 30 |
| ProfileViews.ProfileStore.SaveProfile | backend/profiles/views.py:54-57 | an invalid payload gives 400 and no change; a valid one patches and recomputes the completeness; keys stay unique |
| ProfileViews.ProfileStore.UpdateMe | backend/profiles/views.py:48-58 | 404 and no change without a profile; otherwise `SaveProfile`; keys stay unique |
| ProfileViews.ProfileStore.UpdateProfile | backend/profiles/views.py:30-37 | a key outside the user's profiles gives 404 and no change; an invalid payload 400 and no change; a valid one patches, recomputes the completeness and replies 200 with the saved profile; keys stay unique |
| ProfileViews.ProfileStore.ReplaceCollections | backend/profiles/views.py:107-143 | the blocks in order, as `ReplaceAll`; keys stay unique |
| ProfileViews.ProfileStore.OnboardingSubmit | backend/profiles/views.py:73-157 | the step-by-step handler equals `Submit`; keys stay unique |
| ProfileViews.ProfileStore.List | backend/profiles/views.py:274-276 | exactly the rows of the kind on the user's profiles, each once, sorted in the default order when keys are unique |
| ProfileViews.ProfileStore.CreateRow | backend/profiles/views.py:278-282 | invalid data gives 400; a user without a profile gives 500; otherwise one new row on the user's profile and a recomputed score; keys stay unique |
| ProfileViews.ProfileStore.UpdateRow | backend/profiles/views.py:284-287 | an invisible row gives 404; invalid data gives 400; otherwise the row keeps its key, takes the data and the score is recomputed; keys stay unique |
| ProfileViews.ProfileStore.DestroyRow | backend/profiles/views.py:289-293 | an invisible row gives 404; otherwise exactly that row is deleted and the score recomputed; keys stay unique |
| ProfileViews.ProfileStore.Bulk | backend/profiles/views.py:295-304 | no profile gives 500; invalid data gives 400; otherwise the collection is replaced and 201 returned; keys stay unique |
| ProfileViews.OrderRowsPermutes | backend/profiles/models.py:124-125 | ordering a listing neither adds nor drops a row |
| ProfileViews.ConsDistinct | backend/profiles/views.py:274-276 | a row with a new key can be put in front of rows with unique keys |
| ProfileViews.VisibleRowsDistinct | backend/profiles/views.py:274-276 | a user's listing has unique keys when the table does |
| ProfileViews.RowsOfDistinct | backend/profiles/views.py:39-46 | a collection has unique keys when the table does |
| ProfileViews.Collections | backend/profiles/views.py:39-46 | the five collections of `me`, each the profile's rows of its kind, sorted when keys are unique |
| ProfileViews.VisibleListing | backend/profiles/views.py:274-276 | a listing holds exactly the visible rows of its kind, sorted when keys are unique |
| ProfileViews.ListingsCorrect | backend/profiles/models.py:124-125 | each collection listed in default order holds the same rows, sorted when keys are unique |
| ProfileViews.AppendKeepsValid | backend/profiles/views.py:278-282 | a row saved under the next key keeps keys unique |
| ProfileViews.ReplaceRowKeepsValid | backend/profiles/views.py:284-287 | an update under the same key keeps keys unique |
| ProfileViews.DeleteRowKeepsValid | backend/profiles/views.py:289-293 | a delete keeps keys unique |
| ProfileViews.ReplaceRow | backend/profiles/views.py:284-287 | an update replaces the row with that key and nothing else |
| ProfileViews.DeleteRow | backend/profiles/views.py:292 | a delete removes exactly the rows with that key |
| ProfileViews.Isolation | backend/profiles/views.py:274-276 | a user's listing and lookups never reach another user's rows |
| ProfileViews.BulkExact | backend/profiles/views.py:295-304 | after `bulk` the collection is exactly the submitted list |
| Drafts.ReplaceRuns | backend/drafts/views.py:16 | the result has only `[a-z0-9_]`, never two underscores in a row, and has a slug character iff the input had one |
| Drafts.SlugIsSlug | backend/drafts/views.py:15-17 | every slug is well formed: `[a-z0-9_]`, no doubled and no edge underscore |
| Drafts.SlugFixpoint | backend/drafts/views.py:15-17 | a well-formed slug is its own slug |
| Drafts.SlugIdempotent | backend/drafts/views.py:15-17 | slugifying twice equals slugifying once |
| Drafts.SlugEmptyIff | backend/drafts/views.py:15-17 | the slug is empty iff the value has no ASCII letter or digit |
| Drafts.LastSpace | backend/drafts/views.py:23 | the index of the last space, or none iff there is none |
| Drafts.TruncateText | backend/drafts/views.py:20-23 | a text within the limit is kept; a longer one is cut to a prefix within the limit, at the last space when there is one |
| Drafts.ExtractJobMetadata | backend/drafts/views.py:26-78 | no key, a raised call or an error status gives `{}`; otherwise an unparsable body, or a `content` that is missing or not a string, raises; a string `content` gives its JSON, or `{}` when it is not JSON |
| Drafts.ExtractAnswered | backend/drafts/views.py:68-76 | a well-formed answer whose content is JSON is returned as that JSON |
| Drafts.ExtractedField | backend/drafts/views.py:98-102 | a missing key reads as ""; a non-dict raises |
| Drafts.PerformCreate | backend/drafts/views.py:88-112 | the extraction runs iff the description is non-blank and a field is blank; only blank fields are filled; the filename is `<slug>_resume` from the company, only for a resume without a filename |
| Drafts.FillableBlanks | backend/drafts/views.py:97-102 | exactly the blank metadata fields |
| Drafts.FillBlanks | backend/drafts/views.py:96-102 | fills exactly the blank fields from the extraction, and fails iff a blank field's lookup raises |
| Drafts.Saved | backend/drafts/views.py:112 | an `extra` value wins over the submitted one |
| Drafts.NoKeyBlanksMissing | backend/drafts/views.py:27-28 | without an API key every blank field is filled with "" |

## Left out

- Network transport, timers (`AbortSignal.timeout`, the 1.2 s redirect delay), `Promise.all` ordering and concurrency are not modelled. Each request is an outcome passed in, and a page's state is updated as if its awaits ran in order.
- React effects keep one `mounted` flag per effect. An unmount between two awaits of the same effect is not modelled.
- The dashboard's status badges (`statusBadge` and the sample applications) are styling and fixed sample data, and are not modelled.
- Rendering, styling, the Header and Footer, routing beyond the redirect targets, and configuration files are not modelled.
- JSON numbers are integers. Floating-point values, `Math.round` of scores and `JSON.stringify` text encoding are not modelled. Form parts carry the JSON value itself, not its text.
- `ProfilePage.OrderValue` reads the order as an integer or NaN. Fractional and infinite numbers are not modelled.
- Case mapping covers ASCII only (`toUpperCase`, `lower()`). String lengths count code points, not UTF-16 units, for the 155-character and 8-character rules.
- JavaScript object key order after a spread is only kept where it does not matter. The contracts speak about what each key reads, and the key order of the Resend payload dictionary is not modelled.
- `GeneratePage.UpdateSkill` treats a truthy `skills` member that is not an array as absent. In the source, `[...prev.skills]` turns a string into an array of its characters and throws on a number, boolean or object.
- `GeneratePage.UpdateExperienceBullet` treats a truthy `bullets` member that is not an array as absent; the source's `[...exp.bullets]` spreads a string into characters and throws on other values. It also treats a truthy `experiences` member that is not an array as absent, where the source's `map` throws.
- `GeneratePage.UpdateExperienceField` and `GeneratePage.UpdateEducationField` treat a truthy `experiences` or `education` member that is not an array as absent. In the source, calling `map` on such a value throws.
- `GeneratePage.SetBullet` does not model the TypeError of reading `exp.bullets` on a null experience.
- The onboarding page's initial load effect is left out. Only the resume link it computes (`OnboardingPage.ResumeLink`) is modelled. On the profile page, `loadProfile` is modelled and its surrounding loading effect is not.
- `OnboardingPage.ListEditor.Remove` keeps the editing index, as the source does. An index that no longer points at the edited item is not flagged.
- The ORM, serializers, password hashing and `normalize_email` are modelled only as far as the views and managers use them:
  - the unique-email constraint is the `IntegrityError` of `UserAccounts.UserTable.CreateUser`; the 255-character limit on the email column is not enforced;
  - validation is a function parameter;
  - hashing is a `HashOf(raw)` value;
  - `normalize_email` is not modelled beyond lower-casing.
- Where the database sorts NULL dates is a parameter (`nullsLargest`) of `ProfileViews.ProfileStore`.
- The prompt texts, base64 file encoding, the Gemini and Groq request bodies and their HTTP headers are not modelled. The LLM calls are outcomes passed in.
- PDF and DOCX export on the generate page is not modelled. Neither are the templates, upgrade, activation and password-reset confirmation pages, which are outside this model.

=== FILE: api_gateway.dfy ===
/** The browser's authenticated request gateway: URL resolution against the
    configured API base, the credentials default, and the three-step protocol
    of `apiFetch` (dispatch, refresh the access cookie on a 401, retry once).
    The network is an oracle: `net(k)` is the outcome of the k-th request the
    gateway dispatches. A timeout or abort is a `Fail` outcome like any other
    rejected `fetch`. */
module ApiGateway {
  import opened Common

  /** What an awaited `fetch` settles to: a response with a status code, or a
      rejection (network error, abort on timeout). */
  datatype FetchOutcome = Resp(status: int) | Fail

  /** `response.ok`. */
  predicate Ok(status: int) { 200 <= status <= 299 }

  datatype Credentials = Omit | SameOrigin | Include

  datatype HttpMethod = GET | POST | PUT | PATCH | DELETE

  /** A file the user picked in a file input. */
  datatype FileRef = FileRef(name: string, size: nat)

  datatype FormValue = Text(text: string) | Upload(file: FileRef)

  datatype Body =
    | NoBody
    | JsonBody(value: Json)
    | Form(fields: seq<(string, FormValue)>)

  /** The part of `RequestInit` the pages use. The field `verb` is the `method` option; absent means GET. */
  datatype RequestInit = RequestInit(
    verb: Option<HttpMethod>,
    credentials: Option<Credentials>,
    body: Body)

  const EmptyInit := RequestInit(None, None, NoBody)

  /** One dispatched request: where it went, with which options, and the
      timeout of the abort signal attached to it (if any). */
  datatype Request = Request(url: string, init: RequestInit, signalTimeoutMs: Option<nat>)

  const DEFAULT_API_BASE_URL := "http://localhost:8000"
  const DEFAULT_TIMEOUT_MS: nat := 10000
  const REFRESH_PATH := "/auth/jwt/refresh/"

  /** `NEXT_PUBLIC_API_BASE_URL ?? "http://localhost:8000"`: only an unset
      variable falls back; a set but empty one is used as it is. */
  function ApiBaseUrl(env: Option<string>): (base: string)
    ensures env.Some? ==> base == env.value
    ensures env.None? ==> base == DEFAULT_API_BASE_URL
  {
    env.GetOr(DEFAULT_API_BASE_URL)
  }

  /** `buildUrl`: any input beginning with the four letters "http" is taken as
      absolute; everything else is appended to the base. */
  function BuildUrl(base: string, input: string): (url: string)
    ensures StartsWith(input, "http") ==> url == input
    ensures !StartsWith(input, "http") ==> url == base + input
  {
    if StartsWith(input, "http") then input else base + input
  }

  /** With an absolute base, every built URL is absolute and resolving it a
      second time changes nothing. */
  lemma BuildUrlIdempotent(base: string, input: string)
    requires StartsWith(base, "http")
    ensures StartsWith(BuildUrl(base, input), "http")
    ensures BuildUrl(base, BuildUrl(base, input)) == BuildUrl(base, input)
  {
    if !StartsWith(input, "http") {
      assert (base + input)[..4] == base[..4];
    }
  }

  /** `{ credentials: "include", ...init }`: the caller's `credentials` wins
      because the spread comes last; every other option is the caller's. */
  function MergeInit(init: RequestInit): (merged: RequestInit)
    ensures merged.credentials == if init.credentials.Some? then init.credentials else Some(Include)
    ensures merged.verb == init.verb && merged.body == init.body
  {
    init.(credentials := Some(init.credentials.GetOr(Include)))
  }

  /** The request `refreshAccessToken` sends. */
  function RefreshRequest(base: string): Request {
    Request(BuildUrl(base, REFRESH_PATH), RequestInit(Some(POST), Some(Include), NoBody),
            Some(DEFAULT_TIMEOUT_MS))
  }

  /** The settled state of a promise: resolved with a value, or rejected. */
  datatype Settled<T> = Resolved(value: T) | Rejected

  /** `refreshAccessToken`: one POST with credentials and the default timeout;
      it resolves to `response.ok` and rejects when the fetch rejects (there
      is no catch). */
  method RefreshAccessToken(base: string, outcome: FetchOutcome)
    returns (refreshed: Settled<bool>, sent: Request)
    ensures sent == RefreshRequest(base) && sent.url == BuildUrl(base, REFRESH_PATH)
    ensures sent.init.verb == Some(POST) && sent.init.credentials == Some(Include)
    ensures sent.signalTimeoutMs == Some(DEFAULT_TIMEOUT_MS)
    ensures outcome.Fail? <==> refreshed.Rejected?
    ensures outcome.Resp? ==> refreshed == Resolved(Ok(outcome.status))
  {
    sent := RefreshRequest(base);
    match outcome
    case Fail =>
      refreshed := Rejected;
    case Resp(status) =>
      refreshed := Resolved(Ok(status));
  }

  /** `apiFetch(input, init, timeoutMs)`. Returns what the caller's await
      settles to, and the requests dispatched, in order. */
  method ApiFetch(base: string, input: string, init: RequestInit, net: nat -> FetchOutcome,
                  timeoutMs: nat := DEFAULT_TIMEOUT_MS)
    returns (result: FetchOutcome, calls: seq<Request>)
    // never more than three requests; the first always carries the abort signal
    ensures 1 <= |calls| <= 3
    ensures calls[0] == Request(BuildUrl(base, input), MergeInit(init), Some(timeoutMs))
    // anything but a 401 (including a rejection) is passed straight through
    ensures net(0) != Resp(401) ==> |calls| == 1 && result == net(0)
    // on a 401 the second request is always the refresh
    ensures net(0) == Resp(401) ==> |calls| >= 2 && calls[1] == RefreshRequest(base)
    // a rejected refresh rejects the whole call
    ensures net(0) == Resp(401) && net(1).Fail? ==> |calls| == 2 && result == Fail
    // a refresh that answers not-ok hands back the original 401
    ensures net(0) == Resp(401) && net(1).Resp? && !Ok(net(1).status) ==>
      |calls| == 2 && result == Resp(401)
    // a successful refresh leads to exactly one retry, without a signal,
    // whose outcome is returned whatever it is
    ensures net(0) == Resp(401) && net(1).Resp? && Ok(net(1).status) ==>
      |calls| == 3 && result == net(2)
      && calls[2] == Request(calls[0].url, calls[0].init, None)
  {
    var requestInit := MergeInit(init);
    var url := BuildUrl(base, input);
    calls := [Request(url, requestInit, Some(timeoutMs))];
    var response := net(0);
    if response != Resp(401) {
      return response, calls;
    }
    var refreshed, refreshCall := RefreshAccessToken(base, net(1));
    calls := calls + [refreshCall];
    if refreshed.Rejected? {
      return Fail, calls;
    }
    if !refreshed.value {
      return response, calls;
    }
    calls := calls + [Request(url, requestInit, None)];
    response := net(2);
    return response, calls;
  }
}

=== FILE: auth_provider.dfy ===
/** The browser's notion of the signed-in user: the initials algorithm that
    the auth context, the welcome screen, the dashboard and the pricing page
    all use, and the auth context's `refresh`. */
module AuthProvider {
  import opened Common
  import opened PageCommon

  /** The `/auth/users/me/` body as the pages read it; the two names may be
      missing or null. */
  datatype CurrentUser = CurrentUser(email: string, firstName: Option<string>, lastName: Option<string>)

  // ---------------------------------------------------------------------------
  // Words of a name

  /** `s.split(" ")`: the pieces between single spaces, empty ones included. */
  function SplitSpace(s: string): (parts: seq<string>)
    ensures |parts| >= 1
    ensures forall i :: 0 <= i < |parts| ==> ' ' !in parts[i]
    ensures s != [] && s[0] != ' ' ==> parts[0] != "" && parts[0][0] == s[0]
    decreases |s|
  {
    if s == [] then [""]
    else
      var rest := SplitSpace(s[1..]);
      if s[0] == ' ' then [""] + rest else [[s[0]] + rest[0]] + rest[1..]
  }

  /** `parts.join(" ")`. */
  function JoinSpace(parts: seq<string>): string
    requires |parts| >= 1
  {
    if |parts| == 1 then parts[0] else parts[0] + " " + JoinSpace(parts[1..])
  }

  /** Splitting on spaces loses nothing: joining the pieces gives the text back. */
  lemma {:induction false} SplitJoin(s: string)
    ensures JoinSpace(SplitSpace(s)) == s
    decreases |s|
  {
    if s != [] {
      SplitJoin(s[1..]);
      var rest := SplitSpace(s[1..]);
      if s[0] == ' ' {
        assert s == [' '] + s[1..];
      } else {
        if |rest| == 1 {
          assert s == [s[0]] + rest[0];
        } else {
          assert JoinSpace(rest) == rest[0] + " " + JoinSpace(rest[1..]);
          assert s == [s[0]] + s[1..];
        }
      }
    }
  }

  /** `a` can be read off `b` left to right, skipping some of `b`. */
  predicate Subsequence(a: seq<string>, b: seq<string>)
    decreases |b|
  {
    a == [] || (b != [] && if a[0] == b[0] then Subsequence(a[1..], b[1..]) else Subsequence(a, b[1..]))
  }

  /** `.filter(Boolean)` on strings: the non-empty ones, in order (see
      `NonEmptyCounts` and `NonEmptyOrder`). */
  function NonEmpty(parts: seq<string>): (r: seq<string>)
    ensures forall i :: 0 <= i < |r| ==> r[i] != ""
    ensures forall i :: 0 <= i < |r| ==> r[i] in parts
    ensures parts != [] && parts[0] != "" ==> r != [] && r[0] == parts[0]
  {
    if parts == [] then []
    else if parts[0] == "" then NonEmpty(parts[1..])
    else [parts[0]] + NonEmpty(parts[1..])
  }

  /** Every non-empty piece is kept as often as it occurs. */
  lemma {:induction false} NonEmptyCounts(parts: seq<string>)
    ensures forall x :: x != "" ==> multiset(NonEmpty(parts))[x] == multiset(parts)[x]
  {
    if parts != [] {
      NonEmptyCounts(parts[1..]);
      assert parts == [parts[0]] + parts[1..];
    }
  }

  /** The kept pieces appear in the input's order. */
  lemma {:induction false} NonEmptyOrder(parts: seq<string>)
    ensures Subsequence(NonEmpty(parts), parts)
  {
    if parts != [] {
      NonEmptyOrder(parts[1..]);
    }
  }

  /** The space-separated words of a name. */
  function Words(s: string): (w: seq<string>)
    ensures forall i :: 0 <= i < |w| ==> w[i] != "" && ' ' !in w[i]
    ensures s != [] && s[0] != ' ' ==> w != [] && w[0][0] == s[0]
  {
    var parts := SplitSpace(s);
    var w := NonEmpty(parts);
    assert forall i :: 0 <= i < |w| ==> ' ' !in w[i] by {
      forall i | 0 <= i < |w| ensures ' ' !in w[i] {
        assert w[i] in parts;
      }
    }
    w
  }

  function Concat(parts: seq<string>): string {
    if parts == [] then "" else parts[0] + Concat(parts[1..])
  }

  function RemoveSpaces(s: string): string {
    if s == [] then "" else (if s[0] == ' ' then "" else [s[0]]) + RemoveSpaces(s[1..])
  }

  /** Dropping empty pieces does not change what they spell. */
  lemma {:induction false} ConcatNonEmpty(parts: seq<string>)
    ensures Concat(NonEmpty(parts)) == Concat(parts)
  {
    if parts != [] {
      var tail := NonEmpty(parts[1..]);
      ConcatNonEmpty(parts[1..]);
      assert Concat(parts) == parts[0] + Concat(parts[1..]);
      if parts[0] == "" {
        assert NonEmpty(parts) == tail;
        assert parts[0] + Concat(parts[1..]) == Concat(parts[1..]);
      } else {
        var r := [parts[0]] + tail;
        assert NonEmpty(parts) == r;
        assert r[0] == parts[0] && r[1..] == tail;
        assert Concat(r) == parts[0] + Concat(tail);
      }
    }
  }

  /** The words of a name are its letters with only the spaces removed. */
  lemma {:induction false} WordsSpellName(s: string)
    ensures Concat(Words(s)) == RemoveSpaces(s)
  {
    SplitSpellsName(s);
    ConcatNonEmpty(SplitSpace(s));
  }

  lemma {:induction false} SplitSpellsName(s: string)
    ensures Concat(SplitSpace(s)) == RemoveSpaces(s)
    decreases |s|
  {
    if s != [] {
      SplitSpellsName(s[1..]);
      var rest := SplitSpace(s[1..]);
      if s[0] == ' ' {
        assert ([""] + rest)[1..] == rest;
      } else {
        var parts := [[s[0]] + rest[0]] + rest[1..];
        assert parts[1..] == rest[1..];
        assert Concat(rest) == rest[0] + Concat(rest[1..]);
      }
    }
  }

  // ---------------------------------------------------------------------------
  // buildInitials

  /** `${first_name ?? ""} ${last_name ?? ""}`. */
  function NameSource(u: CurrentUser): string {
    u.firstName.GetOr("") + " " + u.lastName.GetOr("")
  }

  /** `.map(part => part[0]?.toUpperCase()).join("")` over words. */
  function FirstLetters(words: seq<string>): (r: string)
    requires forall i :: 0 <= i < |words| ==> words[i] != ""
    ensures |r| == |words|
    ensures forall i :: 0 <= i < |words| ==> r[i] == AsciiUpper(words[i][0])
  {
    if words == [] then "" else [AsciiUpper(words[0][0])] + FirstLetters(words[1..])
  }

  function Take2(words: seq<string>): seq<string> {
    if |words| <= 2 then words else words[..2]
  }

  /** `buildInitials(user)`: "U" without a user; the upper-cased first email
      character (or "U") when both names are blank; else the upper-cased
      first letters of the first two words of "first last". */
  function BuildInitials(user: Option<CurrentUser>): (r: string)
    ensures user.None? ==> r == "U"
    ensures user.Some? && JsTrim(NameSource(user.value)) == "" ==>
      r == (if user.value.email == "" then "U" else [AsciiUpper(user.value.email[0])])
    ensures user.Some? && JsTrim(NameSource(user.value)) != "" ==>
      var w := Words(JsTrim(NameSource(user.value)));
      |r| == (if |w| < 2 then |w| else 2) && forall i :: 0 <= i < |r| ==> r[i] == AsciiUpper(w[i][0])
    ensures 1 <= |r| <= 2
  {
    match user
    case None => "U"
    case Some(u) =>
      var source := JsTrim(NameSource(u));
      if source == "" then
        if u.email == "" then "U" else [AsciiUpper(u.email[0])]
      else
        TrimEdges(NameSource(u), JsSpace);
        assert !JsSpace(source[0]);
        FirstLetters(Take2(Words(source)))
  }

  // ---------------------------------------------------------------------------
  // AuthProvider state

  /** The auth context's state. */
  class AuthContext {
    var user: Option<CurrentUser>
    var isLoading: bool

    constructor ()
      ensures user.None? && isLoading
    {
      user := None;
      isLoading := true;
    }

    /** `isAuthenticated: Boolean(user)`. */
    predicate IsAuthenticated()
      reads this
    {
      user.Some?
    }

    /** `refresh()`: the user is the body of an ok response and null on
        every other outcome (not ok, rejected fetch, unreadable body);
        loading is over when it settles. */
    method Refresh(me: Reply<CurrentUser>)
      modifies this
      ensures !isLoading
      ensures user == (if OkWithBody(me) then me.json else None)
      ensures IsAuthenticated() <==> OkWithBody(me)
    {
      isLoading := true;
      if me.Thrown? {
        user := None;
      } else if IsOk(me) {
        if me.json.None? {
          user := None;
        } else {
          user := me.json;
        }
      } else {
        user := None;
      }
      isLoading := false;
    }
  }
}

=== FILE: common.dfy ===
/** Shared vocabulary of the model: optional values, JSON values as they cross
    the wire between the browser and the server, and the string primitives that
    the TypeScript pages and the Django views lean on (trimming, ASCII case
    mapping, decimal printing). */
module Common {

  datatype Option<+T> = None | Some(value: T) {
    function GetOr(default: T): T {
      match this
      case Some(v) => v
      case None => default
    }
  }

  /** A JSON value as `JSON.parse` or `json.loads` produces it. Numbers are
      integers in this model; object members keep the order of the text. */
  datatype Json =
    | JNull
    | JBool(b: bool)
    | JNum(n: int)
    | JStr(s: string)
    | JArr(items: seq<Json>)
    | JObj(members: seq<(string, Json)>)

  /** Python truthiness, as in `if value:`. Empty containers are false. */
  predicate PyTruthy(v: Json) {
    match v
    case JNull => false
    case JBool(b) => b
    case JNum(n) => n != 0
    case JStr(s) => s != ""
    case JArr(xs) => xs != []
    case JObj(ms) => ms != []
  }

  /** JavaScript truthiness of a parsed JSON value, as in `if (value)`:
      unlike Python, every array and object is true. */
  predicate JsTruthy(v: Json) {
    match v
    case JNull => false
    case JBool(b) => b
    case JNum(n) => n != 0
    case JStr(s) => s != ""
    case JArr(_) => true
    case JObj(_) => true
  }

  /** An optional string in a Python `if` (a nullable column, an
      environment variable): neither None nor "". */
  predicate TextTruthy(s: Option<string>) { s.Some? && s.value != "" }

  /** The value stored under `key`; when a key repeats, the last one wins, as
      in both `JSON.parse` and `json.loads`. */
  function Lookup(members: seq<(string, Json)>, key: string): (r: Option<Json>)
    ensures r.None? <==> forall i :: 0 <= i < |members| ==> members[i].0 != key
    ensures r.Some? ==>
      exists i :: 0 <= i < |members| && members[i] == (key, r.value)
                  && forall j :: i < j < |members| ==> members[j].0 != key
  {
    if |members| == 0 then None
    else if members[|members| - 1].0 == key then Some(members[|members| - 1].1)
    else
      var r := Lookup(members[..|members| - 1], key);
      assert forall i :: 0 <= i < |members| - 1 ==> members[..|members| - 1][i] == members[i];
      r
  }

  /** A key that occurs once reads as the value stored with it. */
  lemma LookupSingle(members: seq<(string, Json)>, i: nat)
    requires i < |members|
    requires forall j :: 0 <= j < |members| && j != i ==> members[j].0 != members[i].0
    ensures Lookup(members, members[i].0) == Some(members[i].1)
  {
  }

  /** `dict.get(key)` / `obj[key]` on a JSON value that is not an object
      yields nothing in this helper; callers decide what that means. */
  function Member(v: Json, key: string): Option<Json> {
    if v.JObj? then Lookup(v.members, key) else None
  }

  /** `v.get(key, default)` in Python; `None` stands for the AttributeError
      raised when `v` is not a dict. */
  function PyGet(v: Json, key: string, default: Json): (r: Option<Json>)
    ensures r.None? <==> !v.JObj?
    ensures v.JObj? && Lookup(v.members, key).None? ==> r == Some(default)
  {
    if v.JObj? then Some(Lookup(v.members, key).GetOr(default)) else None
  }

  /** `v[0]` in Python; `None` stands for the IndexError, KeyError or
      TypeError it raises on an empty list, a dict or a number. */
  function PyFirst(v: Json): (r: Option<Json>)
    ensures v.JArr? && v.items != [] ==> r == Some(v.items[0])
    ensures (v.JArr? && v.items == []) || v.JObj? || v.JNum? || v.JNull? || v.JBool? ==> r.None?
  {
    match v
    case JArr(items) => if items != [] then Some(items[0]) else None
    case JStr(s) => if s != "" then Some(JStr([s[0]])) else None
    case _ => None
  }

  // ---------------------------------------------------------------------------
  // Whitespace and trimming

  /** The characters `String.prototype.trim` removes and the regular
      expression class `\s` matches (WhiteSpace and LineTerminator of
      ECMAScript). */
  predicate JsSpace(c: char) {
    var k := c as int;
    (0x09 <= k <= 0x0D) || k == 0x20 || k == 0xA0 || k == 0x1680
    || (0x2000 <= k <= 0x200A) || k == 0x2028 || k == 0x2029
    || k == 0x202F || k == 0x205F || k == 0x3000 || k == 0xFEFF
  }

  /** The characters Python's `str.strip()` removes (`str.isspace`). It differs
      from `JsSpace` on U+001C..U+001F, U+0085 and U+FEFF. */
  predicate PySpace(c: char) {
    var k := c as int;
    (0x09 <= k <= 0x0D) || (0x1C <= k <= 0x1F) || k == 0x20 || k == 0x85
    || k == 0xA0 || k == 0x1680 || (0x2000 <= k <= 0x200A) || k == 0x2028
    || k == 0x2029 || k == 0x202F || k == 0x205F || k == 0x3000
  }

  /** Drops the leading run of `ws` characters (see `TrimStartShape`). */
  function TrimStart(s: string, ws: char -> bool): (r: string)
    ensures |r| <= |s|
  {
    if s != [] && ws(s[0]) then TrimStart(s[1..], ws) else s
  }

  /** Drops the trailing run of `ws` characters (see `TrimEndShape`). */
  function TrimEnd(s: string, ws: char -> bool): (r: string)
    ensures |r| <= |s|
  {
    if s != [] && ws(s[|s| - 1]) then TrimEnd(s[..|s| - 1], ws) else s
  }

  /** `TrimStart` keeps the suffix of `s` that starts at its first non-`ws`
      character. */
  lemma {:induction false} TrimStartShape(s: string, ws: char -> bool)
    ensures var r := TrimStart(s, ws);
      r == s[|s| - |r|..] && (r != [] ==> !ws(r[0])) && forall i :: 0 <= i < |s| - |r| ==> ws(s[i])
  {
    if s != [] && ws(s[0]) {
      TrimStartShape(s[1..], ws);
      var r := TrimStart(s, ws);
      assert s[1..][|s| - 1 - |r|..] == s[|s| - |r|..];
      forall i | 0 <= i < |s| - |r| ensures ws(s[i]) {
        if i > 0 {
          assert s[i] == s[1..][i - 1];
        }
      }
    }
  }

  /** `TrimEnd` keeps the prefix of `s` that ends at its last non-`ws`
      character. */
  lemma {:induction false} TrimEndShape(s: string, ws: char -> bool)
    ensures var r := TrimEnd(s, ws);
      r == s[..|r|] && (r != [] ==> !ws(r[|r| - 1])) && forall i :: |r| <= i < |s| ==> ws(s[i])
  {
    if s != [] && ws(s[|s| - 1]) {
      var t := s[..|s| - 1];
      TrimEndShape(t, ws);
      var r := TrimEnd(s, ws);
      assert t[..|r|] == s[..|r|];
      forall i | |r| <= i < |s| ensures ws(s[i]) {
        if i < |s| - 1 {
          assert s[i] == t[i];
        }
      }
    }
  }

  function Trim(s: string, ws: char -> bool): string {
    TrimEnd(TrimStart(s, ws), ws)
  }

  /** `s.trim()` in JavaScript. */
  function JsTrim(s: string): string { Trim(s, JsSpace) }

  /** `s.strip()` in Python. */
  function PyStrip(s: string): string { Trim(s, PySpace) }

  /** A string trims to nothing exactly when every character is whitespace;
      this is the "blank" test behind `!x.trim()` and `not x.strip()`. */
  lemma TrimEmptyIffAllSpace(s: string, ws: char -> bool)
    ensures Trim(s, ws) == "" <==> forall i :: 0 <= i < |s| ==> ws(s[i])
  {
    var t := TrimStart(s, ws);
    var r := TrimEnd(t, ws);
    TrimStartShape(s, ws);
    TrimEndShape(t, ws);
    if r == "" {
      assert t == [];
    } else {
      assert r[0] == t[0] == s[|s| - |t|];
    }
  }

  /** Trimming twice changes nothing more. */
  lemma TrimIdempotent(s: string, ws: char -> bool)
    ensures Trim(Trim(s, ws), ws) == Trim(s, ws)
  {
    var t := TrimStart(s, ws);
    var r := TrimEnd(t, ws);
    TrimStartShape(s, ws);
    TrimEndShape(t, ws);
    if r != [] {
      assert r[0] == t[0];
      assert TrimStart(r, ws) == r;
    }
  }

  /** A trimmed string that is not empty starts and ends with a character
      that is not whitespace. */
  lemma TrimEdges(s: string, ws: char -> bool)
    ensures var r := Trim(s, ws); r != [] ==> !ws(r[0]) && !ws(r[|r| - 1])
  {
    var t := TrimStart(s, ws);
    var r := TrimEnd(t, ws);
    TrimStartShape(s, ws);
    TrimEndShape(t, ws);
    if r != [] {
      assert r[0] == t[0];
    }
  }

  predicate JsBlank(s: string) { JsTrim(s) == "" }

  predicate PyBlank(s: string) { PyStrip(s) == "" }

  // ---------------------------------------------------------------------------
  // Prefixes, ASCII case, decimal numerals

  predicate StartsWith(s: string, prefix: string) {
    |prefix| <= |s| && s[..|prefix|] == prefix
  }

  function AsciiLower(c: char): char {
    if 'A' <= c <= 'Z' then (c as int + 32) as char else c
  }

  function AsciiUpper(c: char): char {
    if 'a' <= c <= 'z' then (c as int - 32) as char else c
  }

  /** `str.lower()` restricted to ASCII letters. */
  function Lower(s: string): (r: string)
    ensures |r| == |s| && forall i :: 0 <= i < |s| ==> r[i] == AsciiLower(s[i])
    ensures forall i :: 0 <= i < |r| ==> !('A' <= r[i] <= 'Z')
  {
    seq(|s|, i requires 0 <= i < |s| => AsciiLower(s[i]))
  }

  predicate IsDigit(c: char) { '0' <= c <= '9' }

  function DigitChar(d: nat): (c: char)
    requires d < 10
    ensures IsDigit(c) && c as int - '0' as int == d
  {
    (d + '0' as int) as char
  }

  /** The decimal numeral of `n`, as `str(n)` and template literals print it. */
  function NatToString(n: nat): (r: string)
    ensures |r| >= 1 && forall i :: 0 <= i < |r| ==> IsDigit(r[i])
    ensures |r| > 1 ==> r[0] != '0'
    decreases n
  {
    if n < 10 then [DigitChar(n)] else NatToString(n / 10) + [DigitChar(n % 10)]
  }

  function IntToString(i: int): (r: string)
    ensures r != ""
  {
    if i < 0 then "-" + NatToString(-i) else NatToString(i)
  }

  /** The value of a decimal numeral (the inverse of `NatToString`). */
  function DigitsValue(s: string): nat
    requires forall i :: 0 <= i < |s| ==> IsDigit(s[i])
  {
    if s == [] then 0
    else
      var last := s[|s| - 1];
      assert IsDigit(last);
      DigitsValue(s[..|s| - 1]) * 10 + (last as int - '0' as int)
  }

  /** Printing then reading a number gives it back, so a numeral names one
      number only. */
  lemma {:induction false} NatToStringRoundTrip(n: nat)
    ensures DigitsValue(NatToString(n)) == n
    decreases n
  {
    var r := NatToString(n);
    if n >= 10 {
      NatToStringRoundTrip(n / 10);
      assert r[..|r| - 1] == NatToString(n / 10);
    }
  }

  /** A decimal numeral as `NatToString` prints one: digits only, and no
      leading zero unless the numeral is "0". */
  predicate CanonicalNumeral(s: string) {
    s != [] && (forall i :: 0 <= i < |s| ==> IsDigit(s[i])) && (s[0] != '0' || |s| == 1)
  }

  lemma {:induction false} LeadingDigitPositive(s: string)
    requires s != [] && (forall i :: 0 <= i < |s| ==> IsDigit(s[i])) && s[0] != '0'
    ensures DigitsValue(s) >= 1
    decreases |s|
  {
    if |s| > 1 {
      LeadingDigitPositive(s[..|s| - 1]);
    }
  }

  /** A canonical numeral is the one printed for its value, so two distinct
      canonical numerals have distinct values. */
  lemma {:induction false} CanonicalNumeralPrinted(s: string)
    requires CanonicalNumeral(s)
    ensures NatToString(DigitsValue(s)) == s
    decreases |s|
  {
    var n := DigitsValue(s);
    var last := s[|s| - 1];
    if |s| == 1 {
      assert s[..0] == [] && DigitsValue(s[..0]) == 0;
      assert n == DigitsValue(s[..0]) * 10 + (last as int - '0' as int);
    } else {
      var init := s[..|s| - 1];
      assert init[0] == s[0];
      CanonicalNumeralPrinted(init);
      LeadingDigitPositive(init);
      assert n / 10 == DigitsValue(init) && n % 10 == last as int - '0' as int;
      assert NatToString(n) == NatToString(DigitsValue(init)) + [DigitChar(n % 10)];
      assert s == init + [last];
    }
  }

  lemma NatToStringInjective(m: nat, n: nat)
    requires NatToString(m) == NatToString(n)
    ensures m == n
  {
    NatToStringRoundTrip(m);
    NatToStringRoundTrip(n);
  }
}

=== FILE: dashboard.dfy ===
/** The dashboard: the effect that loads the signed-in user. Its initials are `AuthProvider.BuildInitials`. */
module Dashboard {
  import opened Common
  import opened PageCommon
  import opened AuthProvider

  class DashboardPage {
    var user: Option<CurrentUser>
    var isLoading: bool

    constructor ()
      ensures user.None? && isLoading
    {
      user := None;
      isLoading := true;
    }

    /** The load effect. The user is set only from an ok response whose body
        reads; loading ends only if the page is still mounted. The effect
        has no `catch`: `rejected` says whether its promise rejects (a
        rejected fetch, or an unreadable ok body). */
    method Load(me: Reply<CurrentUser>, mounted: bool) returns (rejected: bool)
      modifies this
      ensures user == (if mounted && OkWithBody(me) then me.json else old(user))
      ensures isLoading == !mounted
      ensures rejected <==> me.Thrown? || (mounted && IsOk(me) && me.json.None?)
    {
      isLoading := true;
      rejected := false;
      if me.Thrown? {
        rejected := true;
      } else if mounted && IsOk(me) {
        if me.json.None? {
          rejected := true;
        } else {
          user := me.json;
        }
      }
      if mounted {
        isLoading := false;
      }
    }
  }
}

=== FILE: drafts.dfy ===
/** Saved drafts: the filename slug, the prompt truncation, the Groq
    job-metadata extraction (its HTTP call is an oracle) and the metadata
    that `SavedDraftViewSet.perform_create` fills in before saving. */
module Drafts {
  import opened Common

  // ---------------------------------------------------------------------------
  // _slugify_filename

  /** The characters of the class `[a-z0-9]`. */
  predicate SlugChar(c: char) { ('a' <= c <= 'z') || ('0' <= c <= '9') }

  predicate NotSlugChar(c: char) { !SlugChar(c) }

  predicate IsUnderscore(c: char) { c == '_' }

  predicate NoSlugChar(s: string) { forall i :: 0 <= i < |s| ==> !SlugChar(s[i]) }

  /** `re.sub(r'[^a-z0-9]+', '_', s)`: every maximal run of characters outside
      `[a-z0-9]` becomes one underscore. */
  function ReplaceRuns(s: string): (r: string)
    ensures forall i :: 0 <= i < |r| ==> SlugChar(r[i]) || r[i] == '_'
    ensures forall i :: 0 <= i < |r| - 1 && r[i] == '_' ==> r[i + 1] != '_'
    ensures s != [] && SlugChar(s[0]) ==> r != [] && r[0] == s[0]
    ensures NoSlugChar(r) <==> NoSlugChar(s)
    decreases |s|
  {
    if s == [] then []
    else if SlugChar(s[0]) then [s[0]] + ReplaceRuns(s[1..])
    else
      var rest := TrimStart(s[1..], NotSlugChar);
      TrimStartShape(s[1..], NotSlugChar);
      var tail := ReplaceRuns(rest);
      var r := "_" + tail;
      assert NoSlugChar(rest) <==> NoSlugChar(s) by { DroppedRunHasNoSlugChar(s, rest); }
      assert NoSlugChar(r) <==> NoSlugChar(tail) by {
        forall i | 0 <= i < |tail| ensures r[i + 1] == tail[i] { }
      }
      r
  }

  /** Dropping a run of non-slug characters keeps whether a slug character
      occurs. */
  lemma DroppedRunHasNoSlugChar(s: string, rest: string)
    requires s != [] && !SlugChar(s[0]) && rest == TrimStart(s[1..], NotSlugChar)
    ensures NoSlugChar(rest) <==> NoSlugChar(s)
  {
    var tail := s[1..];
    TrimStartShape(tail, NotSlugChar);
    var k := |tail| - |rest|;
    assert rest == tail[k..];
    if rest == [] {
      forall i | 1 <= i < |s| ensures !SlugChar(s[i]) {
        assert NotSlugChar(tail[i - 1]);
      }
    } else {
      assert SlugChar(rest[0]);
      assert s[1 + k] == rest[0];
    }
  }

  /** `_slugify_filename`: lower-case, replace runs, strip underscores. */
  function Slugify(value: string): string {
    Trim(ReplaceRuns(Lower(value)), IsUnderscore)
  }

  /** What a slug looks like: only `[a-z0-9_]`, no doubled underscore, no
      underscore at either end. */
  predicate IsSlug(t: string) {
    SlugBody(t) && (t != [] ==> t[0] != '_' && t[|t| - 1] != '_')
  }

  predicate AsciiAlnum(c: char) { ('a' <= c <= 'z') || ('A' <= c <= 'Z') || ('0' <= c <= '9') }

  /** The two inner properties of a slug, which every slice keeps. */
  predicate SlugBody(t: string) {
    (forall i :: 0 <= i < |t| ==> SlugChar(t[i]) || t[i] == '_')
    && (forall i :: 0 <= i < |t| - 1 && t[i] == '_' ==> t[i + 1] != '_')
  }

  lemma SlugBodySlice(u: string, a: nat, b: nat)
    requires a <= b <= |u| && SlugBody(u)
    ensures SlugBody(u[a..b])
  {
    var t := u[a..b];
    forall i | 0 <= i < |t| ensures t[i] == u[a + i] { }
  }

  /** Stripping the underscores of a slug body leaves a slug. */
  lemma TrimUnderscoresIsSlug(u: string)
    requires SlugBody(u)
    ensures IsSlug(Trim(u, IsUnderscore))
  {
    var t := TrimStart(u, IsUnderscore);
    var r := TrimEnd(t, IsUnderscore);
    TrimStartShape(u, IsUnderscore);
    TrimEndShape(t, IsUnderscore);
    var a := |u| - |t|;
    assert r == u[a..a + |r|] by {
      assert t == u[a..];
      assert r == t[..|r|];
    }
    SlugBodySlice(u, a, a + |r|);
    if r != [] {
      assert r[0] == t[0];
    }
  }

  /** Every slug is well formed. */
  lemma SlugIsSlug(value: string)
    ensures IsSlug(Slugify(value))
  {
    TrimUnderscoresIsSlug(ReplaceRuns(Lower(value)));
  }

  /** A well-formed slug is its own slug. */
  lemma {:induction false} SlugFixpoint(t: string)
    requires IsSlug(t)
    ensures Slugify(t) == t
  {
    assert Lower(t) == t;
    ReplaceRunsFixpoint(t);
    if t != [] {
      assert TrimStart(t, IsUnderscore) == t;
      assert TrimEnd(t, IsUnderscore) == t;
    }
  }

  lemma {:induction false} ReplaceRunsFixpoint(t: string)
    requires SlugBody(t)
    ensures ReplaceRuns(t) == t
    decreases |t|
  {
    if t != [] {
      var rest := t[1..];
      SlugBodySlice(t, 1, |t|);
      ReplaceRunsFixpoint(rest);
      if !SlugChar(t[0]) {
        if rest != [] {
          assert rest[0] == t[1];
        }
        assert TrimStart(rest, NotSlugChar) == rest;
      }
    }
  }

  /** Slugifying twice gives the same slug. */
  lemma SlugIdempotent(value: string)
    ensures Slugify(Slugify(value)) == Slugify(value)
  {
    SlugIsSlug(value);
    SlugFixpoint(Slugify(value));
  }

  /** The slug is empty exactly when the value has no ASCII letter or digit. */
  lemma SlugEmptyIff(value: string)
    ensures Slugify(value) == "" <==> forall i :: 0 <= i < |value| ==> !AsciiAlnum(value[i])
  {
    var low := Lower(value);
    var u := ReplaceRuns(low);
    TrimEmptyIffAllSpace(u, IsUnderscore);
    assert NoSlugChar(low) <==> forall i :: 0 <= i < |value| ==> !AsciiAlnum(value[i]) by {
      forall i | 0 <= i < |value| ensures SlugChar(low[i]) <==> AsciiAlnum(value[i]) {
      }
    }
    assert NoSlugChar(u) <==> forall i :: 0 <= i < |u| ==> IsUnderscore(u[i]);
  }

  // ---------------------------------------------------------------------------
  // _truncate_text

  const DEFAULT_TRUNCATE_LIMIT: nat := 2000

  /** The index of the last space, if any. */
  function LastSpace(s: string): (r: Option<nat>)
    ensures r.Some? ==> r.value < |s| && s[r.value] == ' ' && forall j :: r.value < j < |s| ==> s[j] != ' '
    ensures r.None? ==> forall j :: 0 <= j < |s| ==> s[j] != ' '
  {
    if s == [] then None
    else if s[|s| - 1] == ' ' then Some(|s| - 1)
    else LastSpace(s[..|s| - 1])
  }

  /** `_truncate_text`: a text within the limit is kept; a longer one is cut
      to its first `limit` characters and then, when those contain a space,
      back to the last such space (`rsplit(' ', 1)[0]`). */
  function TruncateText(text: string, limit: nat := DEFAULT_TRUNCATE_LIMIT): (r: string)
    ensures |text| <= limit ==> r == text
    ensures |text| > limit ==> |r| <= limit && r == text[..|r|]
    ensures |text| > limit ==>
      (r == text[..limit] && forall j :: 0 <= j < limit ==> text[j] != ' ')
      || (|r| < limit && text[|r|] == ' ' && forall j :: |r| < j < limit ==> text[j] != ' ')
  {
    if |text| <= limit then text
    else
      var head := text[..limit];
      match LastSpace(head)
      case None => head
      case Some(k) => head[..k]
  }

  // ---------------------------------------------------------------------------
  // _extract_job_metadata

  /** What the chat-completion request did: raised, or answered. */
  datatype ChatOutcome = ChatRaised | ChatAnswered(statusCode: int, text: string)

  /** `_extract_job_metadata`. `groq(content)` is the outcome of posting the
      job description `content`; `decode` is `json.loads`. `None` stands for
      an exception that escapes (a body that is not JSON, a missing choice, a
      non-string content). */
  function ExtractJobMetadata(apiKey: Option<string>, jobDescription: string, groq: string -> ChatOutcome,
                              decode: string -> Option<Json>): (r: Option<Json>)
    ensures !TextTruthy(apiKey) ==> r == Some(JObj([]))
    ensures TextTruthy(apiKey) && groq(TruncateText(jobDescription)).ChatRaised? ==> r == Some(JObj([]))
    ensures TextTruthy(apiKey) && groq(TruncateText(jobDescription)).ChatAnswered? ==>
      var answer := groq(TruncateText(jobDescription));
      (answer.statusCode >= 400 ==> r == Some(JObj([])))
      && (answer.statusCode < 400 && decode(answer.text).None? ==> r.None?)
      && (answer.statusCode < 400 && decode(answer.text).Some? ==>
            var content := ChoiceContent(decode(answer.text).value);
            (content.Some? && content.value.JStr? ==> r == Some(decode(content.value.s).GetOr(JObj([]))))
            && (!(content.Some? && content.value.JStr?) ==> r.None?))
  {
    if !TextTruthy(apiKey) then Some(JObj([]))
    else match groq(TruncateText(jobDescription))
      case ChatRaised => Some(JObj([]))
      case ChatAnswered(code, body) =>
        if code >= 400 then Some(JObj([]))
        else match decode(body)
          case None => None
          case Some(data) =>
            match ChoiceContent(data)
            case Some(JStr(content)) => Some(decode(content).GetOr(JObj([])))
            case _ => None
  }

  /** `data.get('choices', [{}])[0].get('message', {}).get('content', '')`. */
  function ChoiceContent(data: Json): Option<Json> {
    var choices := PyGet(data, "choices", JArr([JObj([])]));
    if choices.None? then None else
    var first := PyFirst(choices.value);
    if first.None? then None else
    var message := PyGet(first.value, "message", JObj([]));
    if message.None? then None else
    PyGet(message.value, "content", JStr(""))
  }

  /** A model answer whose content is JSON is returned as that JSON. */
  lemma ExtractAnswered(apiKey: Option<string>, jobDescription: string, groq: string -> ChatOutcome,
                        decode: string -> Option<Json>, body: string, content: string, metadata: Json)
    requires TextTruthy(apiKey) && groq(TruncateText(jobDescription)) == ChatAnswered(200, body)
    requires decode(body) == Some(JObj([("choices", JArr([JObj([("message", JObj([("content", JStr(content))]))])]))]))
    requires decode(content) == Some(metadata)
    ensures ExtractJobMetadata(apiKey, jobDescription, groq, decode) == Some(metadata)
  {
  }

  // ---------------------------------------------------------------------------
  // perform_create

  datatype DraftType = Resume | CoverLetter

  /** The validated fields `perform_create` reads; `None` is a field the
      request did not send. */
  datatype DraftInput = DraftInput(
    draftType: DraftType,
    jobTitle: Option<string>,
    company: Option<string>,
    summaryLine: Option<string>,
    jobDescription: Option<string>,
    resumeFilename: Option<string>)

  /** `validated_data.get(key, '').strip()`. */
  function Given(field: Option<string>): string {
    PyStrip(field.GetOr(""))
  }

  /** Whether the extraction is consulted: a non-blank description and at
      least one blank metadata field. */
  predicate NeedsExtraction(d: DraftInput) {
    Given(d.jobDescription) != ""
    && (Given(d.jobTitle) == "" || Given(d.company) == "" || Given(d.summaryLine) == "")
  }

  /** The metadata columns `perform_create` may fill. */
  datatype Field = JobTitle | Company | SummaryLine | ResumeFilename

  function FieldName(f: Field): string {
    match f
    case JobTitle => "job_title"
    case Company => "company"
    case SummaryLine => "summary_line"
    case ResumeFilename => "resume_filename"
  }

  /** The submitted value of a column. */
  function Submitted(d: DraftInput, f: Field): Option<string> {
    match f
    case JobTitle => d.jobTitle
    case Company => d.company
    case SummaryLine => d.summaryLine
    case ResumeFilename => d.resumeFilename
  }

  /** `extracted.get(key, '').strip()`; `None` when that raises (the
      extraction is not a dict, or the value is not a string). */
  function ExtractedField(extracted: Json, f: Field): (r: Option<string>)
    ensures extracted.JObj? && Lookup(extracted.members, FieldName(f)).None? ==> r == Some("")
    ensures !extracted.JObj? ==> r.None?
  {
    match PyGet(extracted, FieldName(f), JStr(""))
    case Some(JStr(s)) => Some(PyStrip(s))
    case _ => None
  }

  /** `not field` after stripping the submitted value. */
  predicate Blank(d: DraftInput, f: Field) {
    Given(Submitted(d, f)) == ""
  }

  /** The `name_source` of the filename rule: `extra.get('company') or company`. */
  function NameSource(d: DraftInput, extra: map<Field, string>): string {
    if Company in extra && extra[Company] != "" then extra[Company] else Given(d.company)
  }

  /** `perform_create`: builds the `extra` fields passed to `save`. `extract`
      is `_extract_job_metadata` applied to the stripped description (`None`
      when it raises). Returns `None` when an exception escapes (the request
      then fails with 500), and whether the extraction was consulted. */
  method PerformCreate(d: DraftInput, extract: string -> Option<Json>)
    returns (extra: Option<map<Field, string>>, consulted: bool)
    ensures consulted <==> NeedsExtraction(d)
    // the request fails only when the extraction, or reading one of the needed fields, raises
    ensures extra.None? <==>
      consulted && (extract(Given(d.jobDescription)).None?
        || exists f :: f != ResumeFilename && Blank(d, f)
             && ExtractedField(extract(Given(d.jobDescription)).value, f).None?)
    // a provided value is never overwritten; a blank one is filled from the extraction
    ensures extra.Some? ==> forall f :: f != ResumeFilename ==>
      (f in extra.value <==> consulted && Blank(d, f))
    ensures extra.Some? && consulted ==>
      extract(Given(d.jobDescription)).Some?
      && forall f :: f != ResumeFilename && f in extra.value ==>
           Some(extra.value[f]) == ExtractedField(extract(Given(d.jobDescription)).value, f)
    // a blank resume filename is derived from the (possibly extracted) company
    ensures extra.Some? ==>
      (ResumeFilename in extra.value <==>
         d.draftType == Resume && Given(d.resumeFilename) == "" && NameSource(d, extra.value) != "")
    ensures extra.Some? && ResumeFilename in extra.value ==>
      extra.value[ResumeFilename] == Slugify(NameSource(d, extra.value)) + "_resume"
  {
    var e: map<Field, string> := map[];
    var jobDescription := Given(d.jobDescription);
    consulted := NeedsExtraction(d);
    if consulted {
      var extracted := extract(jobDescription);
      if extracted.None? {
        return None, consulted;
      }
      var filled := FillBlanks(f => Blank(d, f), f => ExtractedField(extracted.value, f));
      if filled.None? {
        return None, consulted;
      }
      e := filled.value;
    }
    if d.draftType == Resume && Given(d.resumeFilename) == "" {
      var nameSource := if Company in e && e[Company] != "" then e[Company] else Given(d.company);
      if nameSource != "" {
        e := e[ResumeFilename := Slugify(nameSource) + "_resume"];
      }
    }
    extra := Some(e);
  }

  lemma FieldCases(f: Field)
    ensures f == JobTitle || f == Company || f == SummaryLine || f == ResumeFilename
  {
  }

  /** The blank fields among the three the extraction can fill. */
  function FillableBlanks(blank: Field -> bool): (r: set<Field>)
    ensures forall f :: f in r <==> f != ResumeFilename && blank(f)
  {
    var r := (if blank(JobTitle) then {JobTitle} else {}) + (if blank(Company) then {Company} else {})
      + (if blank(SummaryLine) then {SummaryLine} else {});
    assert forall f :: f in r <==> f != ResumeFilename && blank(f) by {
      forall f ensures f in r <==> f != ResumeFilename && blank(f) {
        FieldCases(f);
      }
    }
    r
  }

  /** The three `if not field: extra[field] = ...` steps, in order, given
      which fields are blank and what `extracted.get(field, '').strip()`
      gives for each (`None` when it raises); `None` when a step raises. */
  method FillBlanks(blank: Field -> bool, extractedValue: Field -> Option<string>)
    returns (extra: Option<map<Field, string>>)
    ensures extra.Some? ==> extra.value.Keys == FillableBlanks(blank)
    ensures extra.Some? ==> forall f :: f in extra.value ==> Some(extra.value[f]) == extractedValue(f)
    ensures extra.None? <==> exists f :: f in FillableBlanks(blank) && extractedValue(f).None?
  {
    var e: map<Field, string> := map[];
    if blank(JobTitle) {
      var v := extractedValue(JobTitle);
      if v.None? {
        return None;
      }
      e := e[JobTitle := v.value];
    }
    if blank(Company) {
      var v := extractedValue(Company);
      if v.None? {
        return None;
      }
      e := e[Company := v.value];
    }
    if blank(SummaryLine) {
      var v := extractedValue(SummaryLine);
      if v.None? {
        return None;
      }
      e := e[SummaryLine := v.value];
    }
    forall f ensures (f in e <==> f in FillableBlanks(blank)) && (f in e ==> Some(e[f]) == extractedValue(f)) {
      FieldCases(f);
    }
    extra := Some(e);
  }

  /** The metadata `save(**extra)` stores: an `extra` value wins, otherwise
      the value as submitted (unstripped), otherwise the model default `""`. */
  function Saved(d: DraftInput, extra: map<Field, string>, f: Field): (v: string)
    ensures f !in extra ==> v == Submitted(d, f).GetOr("")
    ensures f in extra ==> v == extra[f]
  {
    if f in extra then extra[f] else Submitted(d, f).GetOr("")
  }

  /** Without an API key the extraction yields `{}`, so every blank metadata
      field is saved as the empty string. */
  lemma NoKeyBlanksMissing(f: Field, jobDescription: string, groq: string -> ChatOutcome,
                           decode: string -> Option<Json>)
    ensures ExtractJobMetadata(None, jobDescription, groq, decode) == Some(JObj([]))
    ensures ExtractedField(JObj([]), f) == Some("")
  {
  }
}

=== FILE: email_backend.dfy ===
/** `ResendEmailBackend`: the request payload built from a Django email
    message, and the send loop that counts delivered messages. The Resend
    SDK call is a function parameter: `send(k)` is `None` when the k-th call
    returns and `Some(error)` when it raises with that error text. */
module EmailBackend {
  import opened Common

  /** The parts of an `EmailMessage` the backend reads. `alternatives` holds
      `(content, mime_type)` pairs; a message without the attribute has none. */
  datatype EmailMessage = EmailMessage(
    subject: string,
    body: string,
    fromEmail: Option<string>,
    to: seq<string>,
    cc: seq<string>,
    bcc: seq<string>,
    replyTo: seq<string>,
    contentSubtype: string,
    alternatives: seq<(string, string)>)

  /** A payload value: one string, or a list of addresses. */
  datatype Value = Text(text: string) | Addresses(list: seq<string>)

  type Payload = map<string, Value>

  const HTML_MIME := "text/html"

  /** The content of the first alternative whose mime type is `text/html`. */
  function FirstHtml(alternatives: seq<(string, string)>): (r: Option<string>)
    ensures r.None? <==> forall i :: 0 <= i < |alternatives| ==> alternatives[i].1 != HTML_MIME
    ensures r.Some? ==>
      exists i :: (0 <= i < |alternatives| && alternatives[i] == (r.value, HTML_MIME) &&
                   forall j :: 0 <= j < i ==> alternatives[j].1 != HTML_MIME)
  {
    if alternatives == [] then None
    else if alternatives[0].1 == HTML_MIME then Some(alternatives[0].0)
    else
      var r := FirstHtml(alternatives[1..]);
      if r.Some? then
        var i :| 0 <= i < |alternatives[1..]| && alternatives[1..][i] == (r.value, HTML_MIME)
          && forall j :: 0 <= j < i ==> alternatives[1..][j].1 != HTML_MIME;
        assert alternatives[i + 1] == (r.value, HTML_MIME);
        assert forall j :: 0 <= j < i + 1 ==> alternatives[j].1 != HTML_MIME by {
          forall j | 0 <= j < i + 1 ensures alternatives[j].1 != HTML_MIME {
            if j > 0 { assert alternatives[j] == alternatives[1..][j - 1]; }
          }
        }
        r
      else
        assert forall i :: 1 <= i < |alternatives| ==> alternatives[i] == alternatives[1..][i - 1];
        r
  }

  /** The HTML part: the first `text/html` alternative, or the body when the
      message's own subtype is `html` and no alternative supplied a non-empty one. */
  function HtmlContent(m: EmailMessage): (html: Option<string>)
    ensures !TextTruthy(FirstHtml(m.alternatives)) && m.contentSubtype == "html" ==> html == Some(m.body)
    ensures TextTruthy(FirstHtml(m.alternatives)) || m.contentSubtype != "html" ==> html == FirstHtml(m.alternatives)
  {
    var alt := FirstHtml(m.alternatives);
    if m.contentSubtype == "html" && !TextTruthy(alt) then Some(m.body) else alt
  }

  /** The three keys every payload starts with. */
  function Headers(m: EmailMessage, defaultFrom: string): Payload {
    map[
      "from" := Text(if TextTruthy(m.fromEmail) then m.fromEmail.value else defaultFrom),
      "to" := Addresses(m.to),
      "subject" := Text(m.subject)]
  }

  /** The body keys: `html` for a non-empty HTML part, and `text` when there is
      none or the body is non-empty and differs from it. */
  function WithBody(p: Payload, html: Option<string>, body: string): Payload {
    if TextTruthy(html) then
      if body != "" && body != html.value then p["html" := Text(html.value)]["text" := Text(body)]
      else p["html" := Text(html.value)]
    else p["text" := Text(body)]
  }

  /** An optional recipient list, sent only when non-empty. */
  function WithList(p: Payload, key: string, list: seq<string>): Payload {
    if list != [] then p[key := Addresses(list)] else p
  }

  /** The payload `_build_payload` produces; `PayloadHeaders`, `PayloadBody`
      and `PayloadLists` say what it holds. */
  function PayloadOf(m: EmailMessage, defaultFrom: string): Payload {
    var withBody := WithBody(Headers(m, defaultFrom), HtmlContent(m), m.body);
    WithList(WithList(WithList(withBody, "cc", m.cc), "bcc", m.bcc), "reply_to", m.replyTo)
  }

  /** `WithBody` touches only `html` and `text`. */
  lemma WithBodyElsewhere(p: Payload, html: Option<string>, body: string, k: string)
    requires k != "html" && k != "text"
    ensures (k in WithBody(p, html, body) <==> k in p) && (k in p ==> WithBody(p, html, body)[k] == p[k])
  {
  }

  /** `WithList` touches only its own key. */
  lemma WithListElsewhere(p: Payload, key: string, list: seq<string>, k: string)
    requires k != key
    ensures (k in WithList(p, key, list) <==> k in p) && (k in p ==> WithList(p, key, list)[k] == p[k])
  {
  }

  /** What `PayloadOf` holds under a key that none of the recipient lists
      uses is what the body step left there. */
  lemma BeforeLists(m: EmailMessage, defaultFrom: string, k: string)
    requires k != "cc" && k != "bcc" && k != "reply_to"
    ensures var withBody := WithBody(Headers(m, defaultFrom), HtmlContent(m), m.body);
      var p := PayloadOf(m, defaultFrom);
      (k in p <==> k in withBody) && (k in p ==> p[k] == withBody[k])
  {
    var withBody := WithBody(Headers(m, defaultFrom), HtmlContent(m), m.body);
    var withCc := WithList(withBody, "cc", m.cc);
    var withBcc := WithList(withCc, "bcc", m.bcc);
    WithListElsewhere(withBody, "cc", m.cc, k);
    WithListElsewhere(withCc, "bcc", m.bcc, k);
    WithListElsewhere(withBcc, "reply_to", m.replyTo, k);
  }

  /** The sender (the message's own when set, else the default), the
      recipients and the subject are always there. */
  lemma PayloadHeaders(m: EmailMessage, defaultFrom: string)
    ensures var p := PayloadOf(m, defaultFrom);
      && "from" in p && p["from"] == Text(if TextTruthy(m.fromEmail) then m.fromEmail.value else defaultFrom)
      && "to" in p && p["to"] == Addresses(m.to)
      && "subject" in p && p["subject"] == Text(m.subject)
  {
    var h := Headers(m, defaultFrom);
    var html := HtmlContent(m);
    WithBodyElsewhere(h, html, m.body, "from");
    WithBodyElsewhere(h, html, m.body, "to");
    WithBodyElsewhere(h, html, m.body, "subject");
    BeforeLists(m, defaultFrom, "from");
    BeforeLists(m, defaultFrom, "to");
    BeforeLists(m, defaultFrom, "subject");
  }

  /** The HTML part is sent when there is a non-empty one; the plain body goes
      along unless it is empty or repeats the HTML. */
  lemma PayloadBody(m: EmailMessage, defaultFrom: string)
    ensures var p := PayloadOf(m, defaultFrom); var html := HtmlContent(m);
      && ("html" in p <==> TextTruthy(html))
      && ("html" in p ==> p["html"] == Text(html.value))
      && ("text" in p <==> !TextTruthy(html) || (m.body != "" && m.body != html.value))
      && ("text" in p ==> p["text"] == Text(m.body))
  {
    BeforeLists(m, defaultFrom, "html");
    BeforeLists(m, defaultFrom, "text");
  }

  /** The optional recipient lists appear only when non-empty, and no other
      key is ever sent. */
  lemma PayloadLists(m: EmailMessage, defaultFrom: string)
    ensures var p := PayloadOf(m, defaultFrom);
      && ("cc" in p <==> m.cc != []) && ("cc" in p ==> p["cc"] == Addresses(m.cc))
      && ("bcc" in p <==> m.bcc != []) && ("bcc" in p ==> p["bcc"] == Addresses(m.bcc))
      && ("reply_to" in p <==> m.replyTo != []) && ("reply_to" in p ==> p["reply_to"] == Addresses(m.replyTo))
      && p.Keys <= {"from", "to", "subject", "html", "text", "cc", "bcc", "reply_to"}
  {
    var withBody := WithBody(Headers(m, defaultFrom), HtmlContent(m), m.body);
    var withCc := WithList(withBody, "cc", m.cc);
    var withBcc := WithList(withCc, "bcc", m.bcc);
    assert withBody.Keys <= {"from", "to", "subject", "html", "text"};
    WithBodyElsewhere(Headers(m, defaultFrom), HtmlContent(m), m.body, "cc");
    WithBodyElsewhere(Headers(m, defaultFrom), HtmlContent(m), m.body, "bcc");
    WithBodyElsewhere(Headers(m, defaultFrom), HtmlContent(m), m.body, "reply_to");
    WithListElsewhere(withBody, "cc", m.cc, "bcc");
    WithListElsewhere(withBody, "cc", m.cc, "reply_to");
    WithListElsewhere(withCc, "bcc", m.bcc, "cc");
    WithListElsewhere(withCc, "bcc", m.bcc, "reply_to");
    WithListElsewhere(withBcc, "reply_to", m.replyTo, "cc");
    WithListElsewhere(withBcc, "reply_to", m.replyTo, "bcc");
  }

  /** Every payload has a body: HTML, text or both. */
  lemma PayloadHasBody(m: EmailMessage, defaultFrom: string)
    ensures "html" in PayloadOf(m, defaultFrom) || "text" in PayloadOf(m, defaultFrom)
  {
  }

  /** The `for`/`break` search of `_build_payload` for the first `text/html`
      alternative. */
  method FindHtmlAlternative(alternatives: seq<(string, string)>) returns (html: Option<string>)
    ensures html == FirstHtml(alternatives)
  {
    html := None;
    var i := 0;
    while i < |alternatives|
      invariant 0 <= i <= |alternatives|
      invariant forall j :: 0 <= j < i ==> alternatives[j].1 != HTML_MIME
      invariant html.None?
    {
      if alternatives[i].1 == HTML_MIME {
        html := Some(alternatives[i].0);
        FirstHtmlAt(alternatives, i);
        return;
      }
      i := i + 1;
    }
  }

  /** `_build_payload(message)`, key by key. */
  method BuildPayload(m: EmailMessage, defaultFrom: string) returns (payload: Payload)
    ensures payload == PayloadOf(m, defaultFrom)
  {
    var htmlContent: Option<string> := None;
    if m.alternatives != [] {
      htmlContent := FindHtmlAlternative(m.alternatives);
    }
    if m.contentSubtype == "html" && !TextTruthy(htmlContent) {
      htmlContent := Some(m.body);
    }
    assert htmlContent == HtmlContent(m);
    payload := map[
      "from" := Text(if TextTruthy(m.fromEmail) then m.fromEmail.value else defaultFrom),
      "to" := Addresses(m.to),
      "subject" := Text(m.subject)];
    ghost var stage := payload;
    if TextTruthy(htmlContent) {
      payload := payload["html" := Text(htmlContent.value)];
      if m.body != "" && m.body != htmlContent.value {
        payload := payload["text" := Text(m.body)];
      }
    } else {
      payload := payload["text" := Text(m.body)];
    }
    assert payload == WithBody(stage, htmlContent, m.body);
    stage := payload;
    if m.cc != [] {
      payload := payload["cc" := Addresses(m.cc)];
    }
    assert payload == WithList(stage, "cc", m.cc);
    stage := payload;
    if m.bcc != [] {
      payload := payload["bcc" := Addresses(m.bcc)];
    }
    assert payload == WithList(stage, "bcc", m.bcc);
    stage := payload;
    if m.replyTo != [] {
      payload := payload["reply_to" := Addresses(m.replyTo)];
    }
    assert payload == WithList(stage, "reply_to", m.replyTo);
  }

  /** The alternative at `i` is the first HTML one when none before it is. */
  lemma {:induction false} FirstHtmlAt(alternatives: seq<(string, string)>, i: nat)
    requires i < |alternatives| && alternatives[i].1 == HTML_MIME
    requires forall j :: 0 <= j < i ==> alternatives[j].1 != HTML_MIME
    ensures FirstHtml(alternatives) == Some(alternatives[i].0)
    decreases i
  {
    if i > 0 {
      FirstHtmlAt(alternatives[1..], i - 1);
    }
  }

  /** How `send_messages` ends. */
  datatype SendResult = Sent(count: nat) | ValueError(message: string) | RuntimeError(message: string)

  const NO_API_KEY := "EMAIL_API_KEY is not configured."

  /** `send_messages`: an empty list returns 0 before the key is looked at; a
      missing key raises; otherwise each message is built and sent in order,
      and the first failure raises and stops the loop. `calls` are the
      payloads handed to the SDK, in order. */
  method SendMessages(messages: seq<EmailMessage>, apiKey: Option<string>, defaultFrom: string,
                      send: nat -> Option<string>)
    returns (r: SendResult, calls: seq<Payload>)
    ensures messages == [] ==> r == Sent(0) && calls == []
    ensures messages != [] && !TextTruthy(apiKey) ==> r == ValueError(NO_API_KEY) && calls == []
    // every call carries the payload of the message at the same position
    ensures |calls| <= |messages|
    ensures forall k :: 0 <= k < |calls| ==> calls[k] == PayloadOf(messages[k], defaultFrom)
    // success counts every message, and happens exactly when every send returns
    ensures r.Sent? ==> r.count == |messages| && |calls| == |messages|
    ensures messages != [] && TextTruthy(apiKey) ==>
      (r.Sent? <==> forall k :: 0 <= k < |messages| ==> send(k).None?)
    // a failure is the first failing send, reported with its error text
    ensures r.RuntimeError? ==>
      |calls| >= 1 && send(|calls| - 1).Some?
      && r.message == "Resend send failed: " + send(|calls| - 1).value
      && forall k :: 0 <= k < |calls| - 1 ==> send(k).None?
  {
    calls := [];
    if messages == [] {
      return Sent(0), calls;
    }
    if !TextTruthy(apiKey) {
      return ValueError(NO_API_KEY), calls;
    }
    var sentCount := 0;
    var k := 0;
    while k < |messages|
      invariant 0 <= k <= |messages| && |calls| == k && sentCount == k
      invariant forall j :: 0 <= j < k ==> calls[j] == PayloadOf(messages[j], defaultFrom)
      invariant forall j :: 0 <= j < k ==> send(j).None?
    {
      var payload := BuildPayload(messages[k], defaultFrom);
      calls := calls + [payload];
      var failure := send(k);
      if failure.Some? {
        return RuntimeError("Resend send failed: " + failure.value), calls;
      }
      sentCount := sentCount + 1;
      k := k + 1;
    }
    r := Sent(sentCount);
  }
}

=== FILE: forgot_password.dfy ===
/** The password-reset request page: the same email rule as sign-up, and
    the submit handler that reports the server's first field error. */
module ForgotPassword {
  import opened Common
  import opened ApiGateway
  import opened PageCommon
  import opened Signup

  const RESET_FALLBACK := "Unable to send reset email. Please try again later."
  const RESET_SENT := "If an account exists for this email, you will receive a reset link shortly."
  const RESET_NETWORK_ERROR := "Network error. Please try again."

  /** The banner after a request that did not answer ok. The body is read
      with `response.json()`, so a body that is not JSON (or is `null`)
      throws and ends in the network-error banner. */
  function ResetErrorStatus(answer: Answer, parse: string -> Option<Json>): (s: FormStatus)
    requires answer.Answered?
    ensures s.ErrorStatus?
    ensures JsonOf(answer, parse).None? ==> s == ErrorStatus(JStr(RESET_NETWORK_ERROR))
    ensures JsonOf(answer, parse) == Some(JNull) ==> s == ErrorStatus(JStr(RESET_NETWORK_ERROR))
    ensures JsonOf(answer, parse).Some? && FirstListEntry(JsonOf(answer, parse).value) == Some(None) ==>
      s == ErrorStatus(JStr(RESET_FALLBACK))
    ensures (JsonOf(answer, parse).Some? && FirstListEntry(JsonOf(answer, parse).value).Some?
             && FirstListEntry(JsonOf(answer, parse).value).value.Some?) ==>
      s == ErrorStatus(FirstListEntry(JsonOf(answer, parse).value).value.value)
  {
    match JsonOf(answer, parse)
    case None => ErrorStatus(JStr(RESET_NETWORK_ERROR))
    case Some(v) =>
      match FirstListEntry(v)
      case None => ErrorStatus(JStr(RESET_NETWORK_ERROR))
      case Some(None) => ErrorStatus(JStr(RESET_FALLBACK))
      case Some(Some(x)) => ErrorStatus(x)
  }

  class ForgotPasswordPage {
    var status: FormStatus
    var isSubmitting: bool

    constructor ()
      ensures status == Idle && !isSubmitting
    {
      status := Idle;
      isSubmitting := false;
    }

    /** `onSubmit({email})`: POSTs to `/auth/users/reset_password/`. Any ok
        answer shows the same notice, so the page never reveals whether an
        account exists. */
    method OnSubmit(email: string, base: string, answer: Answer, parse: string -> Option<Json>)
      returns (url: string, sentEmail: string)
      requires EmailError(email).None?
      modifies this
      ensures url == base + "/auth/users/reset_password/" && sentEmail == email
      ensures !isSubmitting
      ensures answer.Answered? && Ok(answer.status) ==> status == SuccessStatus(RESET_SENT)
      ensures answer.Answered? && !Ok(answer.status) ==> status == ResetErrorStatus(answer, parse)
      ensures answer.Rejected? ==> status == ErrorStatus(JStr(RESET_NETWORK_ERROR))
    {
      isSubmitting := true;
      status := Idle;
      url, sentEmail := base + "/auth/users/reset_password/", email;
      if answer.Rejected? {
        status := ErrorStatus(JStr(RESET_NETWORK_ERROR));
      } else if !Ok(answer.status) {
        status := ResetErrorStatus(answer, parse);
      } else {
        status := SuccessStatus(RESET_SENT);
      }
      isSubmitting := false;
    }
  }
}

=== FILE: generate_page.dfy ===
/** The generator page: it asks the backend for a tailored resume or cover
    letter, lets the user edit the returned resume draft in place, and saves
    it as a draft. Drafts are the parsed JSON the backend returned. */
module GeneratePage {
  import opened Common
  import opened ApiGateway
  import opened PageCommon

  datatype Mode = Resume | CoverLetter

  const RESUME_ENDPOINT := "/profiles/profile/generate_resume/"
  const COVER_LETTER_ENDPOINT := "/profiles/profile/generate_cover_letter/"
  const NEED_DESCRIPTION := "Please paste a job description."
  const GENERATION_FAILED := "Generation failed. Please try again."
  const GENERATION_FAILED_EMPTY := "Generation failed. Try again."
  const GENERATED := "Draft generated. Review and edit below."
  const SAVE_FAILED := "Unable to save draft."
  const SAVED := "Draft saved."
  const DRAFTS_PATH := "/drafts/drafts/"

  /** The mode the page opens in, from the `type` query parameter. */
  function InitialMode(typeParam: Option<string>): (m: Mode)
    ensures m == CoverLetter <==> typeParam == Some("cover-letter")
  {
    if typeParam == Some("cover-letter") then CoverLetter else Resume
  }

  function Endpoint(m: Mode): (path: string)
    ensures m == Resume ==> path == RESUME_ENDPOINT
    ensures m == CoverLetter ==> path == COVER_LETTER_ENDPOINT
  {
    if m == Resume then RESUME_ENDPOINT else COVER_LETTER_ENDPOINT
  }

  /** The page posts to the cover-letter endpoint exactly when it was opened
      with `?type=cover-letter` (and the mode was not switched since). */
  lemma EndpointFollowsQuery(typeParam: Option<string>)
    ensures Endpoint(InitialMode(typeParam)) == COVER_LETTER_ENDPOINT <==> typeParam == Some("cover-letter")
  {
    assert RESUME_ENDPOINT[27] != COVER_LETTER_ENDPOINT[27];
  }

  // ---------------------------------------------------------------------------
  // Draft updaters

  /** `updateResumeField(key, value)`: a falsy draft stays as it is; otherwise
      the draft gets `key` set to the text and every other key reads as
      before. */
  function UpdateResumeField(prev: Json, key: string, value: string): (r: Json)
    ensures !JsTruthy(prev) ==> r == prev
    ensures JsTruthy(prev) ==> r.JObj? && Lookup(r.members, key) == Some(JStr(value))
    ensures JsTruthy(prev) && prev.JObj? ==> forall k :: k != key ==> Lookup(r.members, k) == Lookup(prev.members, k)
  {
    if JsTruthy(prev) then WithMember(prev, key, JStr(value)) else prev
  }

  /** `copy[index] = value` on a copy of an array: an index inside the array
      replaces that element; one past the end grows the array (the gap holds
      `null`, as `JSON.stringify` writes a hole); a negative index sets a
      property the array's elements do not include. */
  function ArraySet(items: seq<Json>, index: int, value: Json): (r: seq<Json>)
    ensures 0 <= index < |items| ==>
      (|r| == |items| && r[index] == value && forall i :: 0 <= i < |items| && i != index ==> r[i] == items[i])
    ensures index >= |items| ==>
      (|r| == index + 1 && r[..|items|] == items && r[index] == value && forall i :: |items| <= i < index ==> r[i] == JNull)
    ensures index < 0 ==> r == items
  {
    if index < 0 then items
    else if index < |items| then items[index := value]
    else items + seq(index - |items|, _ => JNull) + [value]
  }

  /** The array under `key` when it is one; `None` for a missing or falsy
      value (the updaters then return the draft untouched). */
  function ArrayMember(prev: Json, key: string): Option<seq<Json>> {
    match Member(prev, key)
    case Some(JArr(items)) => Some(items)
    case _ => None
  }

  /** `updateSkill(index, value)`: without a skills array the draft is
      returned as it is; otherwise only `skills[index]` changes. */
  function UpdateSkill(prev: Json, index: int, value: string): (r: Json)
    ensures ArrayMember(prev, "skills").None? ==> r == prev
    ensures ArrayMember(prev, "skills").Some? ==>
      r.JObj? && Lookup(r.members, "skills") == Some(JArr(ArraySet(ArrayMember(prev, "skills").value, index, JStr(value))))
      && forall k :: k != "skills" ==> Lookup(r.members, k) == Lookup(prev.members, k)
  {
    match ArrayMember(prev, "skills")
    case None => prev
    case Some(skills) => WithMember(prev, "skills", JArr(ArraySet(skills, index, JStr(value))))
  }

  /** Apply `f` to the entry at `index` of the array under `listKey`,
      leaving every other entry, every other key and the length alone. */
  function UpdateEntry(prev: Json, listKey: string, index: int, f: Json -> Json): (r: Json)
    ensures ArrayMember(prev, listKey).None? ==> r == prev
    ensures ArrayMember(prev, listKey).Some? ==>
      var items := ArrayMember(prev, listKey).value;
      r.JObj? && Lookup(r.members, listKey) == Some(JArr(MapAt(items, index, f)))
      && forall k :: k != listKey ==> Lookup(r.members, k) == Lookup(prev.members, k)
  {
    match ArrayMember(prev, listKey)
    case None => prev
    case Some(items) =>
      assert prev.JObj? && JsSpread(prev) == prev.members;
      WithMember(prev, listKey, JArr(MapAt(items, index, f)))
  }

  /** `updateExperienceField(index, key, value)`. */
  function UpdateExperienceField(prev: Json, index: int, key: string, value: string): (r: Json)
    ensures ArrayMember(prev, "experiences").None? ==> r == prev
    ensures ArrayMember(prev, "experiences").Some? ==>
      var items := ArrayMember(prev, "experiences").value;
      r.JObj? && var updated := Lookup(r.members, "experiences");
      updated.Some? && updated.value.JArr? && |updated.value.items| == |items|
      && (forall i :: 0 <= i < |items| && i != index ==> updated.value.items[i] == items[i])
      && (0 <= index < |items| ==> updated.value.items[index] == WithMember(items[index], key, JStr(value)))
  {
    UpdateEntry(prev, "experiences", index, exp => WithMember(exp, key, JStr(value)))
  }

  /** `updateEducationField(index, key, value)`: the same on `education`. */
  function UpdateEducationField(prev: Json, index: int, key: string, value: string): (r: Json)
    ensures ArrayMember(prev, "education").None? ==> r == prev
    ensures ArrayMember(prev, "education").Some? ==>
      var items := ArrayMember(prev, "education").value;
      r.JObj? && var updated := Lookup(r.members, "education");
      updated.Some? && updated.value.JArr? && |updated.value.items| == |items|
      && (forall i :: 0 <= i < |items| && i != index ==> updated.value.items[i] == items[i])
      && (0 <= index < |items| ==> updated.value.items[index] == WithMember(items[index], key, JStr(value)))
  {
    UpdateEntry(prev, "education", index, edu => WithMember(edu, key, JStr(value)))
  }

  /** An experience's bullets, a missing or falsy list read as empty. */
  function Bullets(exp: Json): seq<Json> {
    ArrayMember(exp, "bullets").GetOr([])
  }

  /** One experience with one bullet set: `bullets` is the old list (empty
      if missing) with the entry written, every other key reads as before. */
  function SetBullet(exp: Json, bulletIndex: int, value: string): (e: Json)
    ensures e.JObj? && Lookup(e.members, "bullets") == Some(JArr(ArraySet(Bullets(exp), bulletIndex, JStr(value))))
    ensures forall k :: k != "bullets" ==> Lookup(e.members, k) == Lookup(JsSpread(exp), k)
  {
    WithMember(exp, "bullets", JArr(ArraySet(Bullets(exp), bulletIndex, JStr(value))))
  }

  /** `updateExperienceBullet(expIndex, bulletIndex, value)`: only the
      target experience changes, by `SetBullet`. */
  function UpdateExperienceBullet(prev: Json, expIndex: int, bulletIndex: int, value: string): (r: Json)
    ensures ArrayMember(prev, "experiences").None? ==> r == prev
    ensures ArrayMember(prev, "experiences").Some? ==>
      var items := ArrayMember(prev, "experiences").value;
      r.JObj? && var updated := Lookup(r.members, "experiences");
      updated.Some? && updated.value.JArr? && |updated.value.items| == |items|
      && (forall i :: 0 <= i < |items| && i != expIndex ==> updated.value.items[i] == items[i])
      && (0 <= expIndex < |items| ==> updated.value.items[expIndex] == SetBullet(items[expIndex], bulletIndex, value))
  {
    UpdateEntry(prev, "experiences", expIndex, exp => SetBullet(exp, bulletIndex, value))
  }

  /** `(list ?? []).slice(0, 2)`: the strengths or weak points shown. */
  function Shown(draft: Json, key: string): (r: seq<Json>)
    ensures |r| <= 2
    ensures var all := ArrayMember(draft, key).GetOr([]); |r| <= |all| && r == all[..|r|] && (|all| >= 2 ==> |r| == 2) && (|all| < 2 ==> r == all)
  {
    var all := ArrayMember(draft, key).GetOr([]);
    if |all| <= 2 then all else all[..2]
  }

  // ---------------------------------------------------------------------------
  // Page state

  class Generator {
    var mode: Mode
    var templateStyle: string
    var jobTitle: string
    var company: string
    var jobDescription: string
    var isGenerating: bool
    var statusMessage: string
    var saveMessage: string
    var resumeDraft: Json
    var coverLetterDraft: Json
    var isResumeModalOpen: bool

    constructor (typeParam: Option<string>)
      ensures mode == InitialMode(typeParam) && templateStyle == "modern"
      ensures jobTitle == "" && company == "" && jobDescription == ""
      ensures !isGenerating && statusMessage == "" && saveMessage == ""
      ensures resumeDraft == JNull && coverLetterDraft == JNull && !isResumeModalOpen
    {
      mode := InitialMode(typeParam);
      templateStyle := "modern";
      jobTitle, company, jobDescription := "", "", "";
      isGenerating, statusMessage, saveMessage := false, "", "";
      resumeDraft, coverLetterDraft, isResumeModalOpen := JNull, JNull, false;
    }

    /** `handleGenerate()`: a blank job description only shows a hint and
        sends nothing. Otherwise the description and template go to the
        mode's endpoint; an ok answer stores the parsed draft for the mode
        (and opens the resume preview); a failure shows the answer's text or
        a fallback; `isGenerating` is cleared at the end. */
    method Generate(answer: Answer, parse: string -> Option<Json>)
      returns (request: Option<(string, Json)>)
      modifies this
      ensures JsBlank(old(jobDescription)) ==>
        request.None? && statusMessage == NEED_DESCRIPTION && isGenerating == old(isGenerating)
        && resumeDraft == old(resumeDraft) && coverLetterDraft == old(coverLetterDraft)
      ensures !JsBlank(old(jobDescription)) ==>
        request == Some((Endpoint(mode), JObj([("job_description", JStr(jobDescription)),
                                              ("template_style", JStr(templateStyle))])))
        && !isGenerating
      ensures !JsBlank(old(jobDescription)) && answer.Answered? && Ok(answer.status) && JsonOf(answer, parse).Some? ==>
        statusMessage == GENERATED
        && (mode == Resume ==>
              (resumeDraft == JsonOf(answer, parse).value && isResumeModalOpen && coverLetterDraft == old(coverLetterDraft)))
        && (mode == CoverLetter ==>
              (coverLetterDraft == JsonOf(answer, parse).value && resumeDraft == old(resumeDraft)
               && isResumeModalOpen == old(isResumeModalOpen)))
      ensures !JsBlank(old(jobDescription)) && (answer.Rejected? || (Ok(answer.status) && JsonOf(answer, parse).None?)) ==>
        statusMessage == GENERATION_FAILED && resumeDraft == old(resumeDraft) && coverLetterDraft == old(coverLetterDraft)
      ensures !JsBlank(old(jobDescription)) && answer.Answered? && !Ok(answer.status) ==>
        statusMessage == (if answer.body.None? then GENERATION_FAILED
                          else if answer.body.value == "" then GENERATION_FAILED_EMPTY
                          else answer.body.value)
        && resumeDraft == old(resumeDraft) && coverLetterDraft == old(coverLetterDraft)
      ensures mode == old(mode) && jobDescription == old(jobDescription) && templateStyle == old(templateStyle)
      ensures saveMessage == old(saveMessage)
    {
      request := None;
      if JsBlank(jobDescription) {
        statusMessage := NEED_DESCRIPTION;
        return;
      }
      isGenerating := true;
      statusMessage := "";
      request := Some((Endpoint(mode), JObj([("job_description", JStr(jobDescription)),
                                            ("template_style", JStr(templateStyle))])));
      if answer.Rejected? {
        statusMessage := GENERATION_FAILED;
      } else if !Ok(answer.status) {
        if answer.body.None? {
          statusMessage := GENERATION_FAILED;
        } else {
          statusMessage := if answer.body.value != "" then answer.body.value else GENERATION_FAILED_EMPTY;
        }
      } else {
        var data := JsonOf(answer, parse);
        if data.None? {
          statusMessage := GENERATION_FAILED;
        } else {
          if mode == Resume {
            resumeDraft := data.value;
            isResumeModalOpen := true;
          } else {
            coverLetterDraft := data.value;
          }
          statusMessage := GENERATED;
        }
      }
      isGenerating := false;
    }

    /** The body `handleSaveDraft` posts: always a resume draft. */
    function SaveBody(): Json
      reads this
    {
      JObj([("draft_type", JStr("resume")), ("job_title", JStr(jobTitle)), ("company", JStr(company)),
            ("job_description", JStr(jobDescription)), ("template_style", JStr(templateStyle)),
            ("content", resumeDraft)])
    }

    /** `handleSaveDraft()`: nothing without a resume draft; otherwise the
        draft is posted and the outcome reported. */
    method SaveDraft(answer: Answer) returns (request: Option<(string, Json)>)
      modifies this
      ensures !JsTruthy(old(resumeDraft)) ==> request.None? && saveMessage == old(saveMessage)
      ensures JsTruthy(old(resumeDraft)) ==> request == Some((DRAFTS_PATH, old(SaveBody())))
      ensures JsTruthy(old(resumeDraft)) && answer.Answered? && Ok(answer.status) ==> saveMessage == SAVED
      ensures JsTruthy(old(resumeDraft)) && answer.Answered? && !Ok(answer.status) ==>
        saveMessage == if answer.body.Some? && answer.body.value != "" then answer.body.value else SAVE_FAILED
      ensures JsTruthy(old(resumeDraft)) && answer.Rejected? ==> saveMessage == SAVE_FAILED
      ensures resumeDraft == old(resumeDraft) && statusMessage == old(statusMessage) && mode == old(mode)
    {
      request := None;
      if !JsTruthy(resumeDraft) {
        return;
      }
      saveMessage := "";
      request := Some((DRAFTS_PATH, SaveBody()));
      if answer.Rejected? {
        saveMessage := SAVE_FAILED;
      } else if !Ok(answer.status) {
        saveMessage := if answer.body.Some? && answer.body.value != "" then answer.body.value else SAVE_FAILED;
      } else {
        saveMessage := SAVED;
      }
    }
  }
}

=== FILE: google_auth.dfy ===
/** The Google sign-in callback: it sends the `state` and `code` query
    parameters to the backend, falling back from POST to GET when the
    endpoint refuses the method, and then redirects new users to onboarding
    and everyone else home. The backend's answers are a function parameter:
    `answer(k)` is what the k-th request gets. */
module GoogleAuth {
  import opened Common
  import opened ApiGateway
  import opened PageCommon
  import opened UriEncoding

  datatype StatusKind = Loading | Failure | Success

  datatype Status = Status(kind: StatusKind, message: string)

  const INITIAL_STATUS := Status(Loading, "Finalizing Google sign-in...")
  const SUCCESS_STATUS := Status(Success, "Success! Redirecting you now...")
  const NETWORK_STATUS := Status(Failure, "Network error. Please try again.")
  const CALLBACK_PATH := "/auth/o/google-oauth2/?state="

  /** `!stateParam || !codeParam`. */
  predicate MissingParams(state: Option<string>, code: Option<string>) {
    !TextTruthy(state) || !TextTruthy(code)
  }

  /** The backend URL with both values percent-encoded. */
  function CallbackUrl(base: string, state: string, code: string): string {
    base + CALLBACK_PATH + EncodeURIComponent(state) + "&code=" + EncodeURIComponent(code)
  }

  /** The two values survive the trip: the encoded state holds no '&', so
      the query splits back at the first "&code=", and each part decodes to
      the UTF-8 bytes of the original. */
  lemma CallbackUrlCarriesParams(base: string, state: string, code: string)
    ensures var e := EncodeURIComponent(state);
      CallbackUrl(base, state, code) == base + CALLBACK_PATH + e + "&code=" + EncodeURIComponent(code)
      && '&' !in e
      && DecodeBytes(e) == Some(Utf8String(state))
      && DecodeBytes(EncodeURIComponent(code)) == Some(Utf8String(code))
  {
    EncodedHasNoDelimiters(state);
    EncodeDecodeRoundTrip(state);
    EncodeDecodeRoundTrip(code);
  }

  /** `data.x === true` for one flag; `None` is the TypeError of reading a
      property of a `null` body. An unreadable body was replaced by `{}`. */
  function Flag(data: Json, key: string): Option<bool> {
    match data
    case JNull => None
    case JObj(members) => Some(Lookup(members, key) == Some(JBool(true)))
    case _ => Some(false)
  }

  /** `isNewUser`: any of the three flags is strictly `true`. */
  function IsNewUser(data: Json): (r: Option<bool>)
    ensures r.None? <==> data.JNull?
    ensures data.JObj? ==> r == Some(Lookup(data.members, "is_new") == Some(JBool(true))
                                     || Lookup(data.members, "new_user") == Some(JBool(true))
                                     || Lookup(data.members, "first_time") == Some(JBool(true)))
  {
    if data.JNull? then None
    else Some(Flag(data, "is_new").value || Flag(data, "new_user").value || Flag(data, "first_time").value)
  }

  /** On any object whose other two flags are not strictly `true`, the user
      is new exactly when `is_new` is the boolean `true`: a truthy value such
      as `1` or `"yes"` does not count. */
  lemma OnlyStrictTrueCounts(v: Json)
    requires v.JObj?
    requires Lookup(v.members, "new_user") != Some(JBool(true)) && Lookup(v.members, "first_time") != Some(JBool(true))
    ensures IsNewUser(v) == Some(true) <==> Lookup(v.members, "is_new") == Some(JBool(true))
  {
  }

  /** The message for a final response that is not ok. */
  function FailureMessage(status: int, text: string): string {
    "Unable to complete Google sign-in (HTTP " + IntToString(status) + "). "
      + (if text != "" then "Server response: " + text else "Please try again.")
  }

  /** The status code is part of the message. */
  lemma FailureMessageNamesStatus(status: int, text: string)
    ensures var m := FailureMessage(status, text);
      var k := |"Unable to complete Google sign-in (HTTP "|;
      k + |IntToString(status)| <= |m| && m[k..k + |IntToString(status)|] == IntToString(status)
  {
  }

  /** The method is refused, so the GET fallback runs. */
  predicate MethodRefused(a: Answer) {
    a.Answered? && !Ok(a.status) && (a.status == 404 || a.status == 405)
  }

  /** `finalize()`. `requests` are the methods tried against `url`, in
      order; `redirect` is where the router was sent. */
  method Finalize(base: string, state: Option<string>, code: Option<string>,
                  answer: nat -> Answer, parse: string -> Option<Json>)
    returns (status: Status, url: string, requests: seq<HttpMethod>, redirect: Option<string>)
    // without both parameters nothing is requested and the initial status stays
    ensures MissingParams(state, code) ==> requests == [] && status == INITIAL_STATUS && redirect.None?
    ensures !MissingParams(state, code) ==> url == CallbackUrl(base, state.value, code.value)
    // POST first; GET only after a 404 or 405
    ensures !MissingParams(state, code) ==>
      requests == if MethodRefused(answer(0)) then [POST, GET] else [POST]
    // the final answer decides
    ensures !MissingParams(state, code) ==>
      var last := answer(|requests| - 1);
      (last.Rejected? ==> status == NETWORK_STATUS && redirect.None?)
      && (last.Answered? && !Ok(last.status) ==>
            redirect.None?
            && status == if last.body.None? then NETWORK_STATUS
                         else Status(Failure, FailureMessage(last.status, last.body.value)))
      && (last.Answered? && Ok(last.status) ==>
            var data := JsonOf(last, parse).GetOr(JObj([]));
            if data.JNull? then status == NETWORK_STATUS && redirect.None?
            else status == SUCCESS_STATUS
                 && redirect == Some(if IsNewUser(data) == Some(true) then "/onboarding" else "/"))
  {
    status, url, requests, redirect := INITIAL_STATUS, "", [], None;
    if MissingParams(state, code) {
      return;
    }
    url := CallbackUrl(base, state.value, code.value);
    requests := [POST];
    var response := answer(0);
    if response.Rejected? {
      status := NETWORK_STATUS;
      return;
    }
    if !Ok(response.status) && (response.status == 404 || response.status == 405) {
      requests := requests + [GET];
      response := answer(1);
      if response.Rejected? {
        status := NETWORK_STATUS;
        return;
      }
    }
    if !Ok(response.status) {
      if response.body.None? {
        status := NETWORK_STATUS;
      } else {
        status := Status(Failure, FailureMessage(response.status, response.body.value));
      }
      return;
    }
    var data := JsonOf(response, parse).GetOr(JObj([]));
    var isNewUser := IsNewUser(data);
    if isNewUser.None? {
      status := NETWORK_STATUS;
      return;
    }
    status := SUCCESS_STATUS;
    redirect := Some(if isNewUser.value then "/onboarding" else "/");
  }
}

=== FILE: home_page.dfy ===
/** The root page: it loads the current user, sends a user who still needs
    onboarding to `/onboarding`, and otherwise shows the welcome screen to a
    signed-in user and the marketing home to everyone else. */
module HomePage {
  import opened Common
  import opened PageCommon
  import opened AuthProvider

  /** `onboardingData.needs_onboarding` in an `if`: `None` is the TypeError
      of reading a property of `null`; any other body that is not an object
      has no such property, which is falsy. */
  function NeedsOnboarding(body: Json): (r: Option<bool>)
    ensures r.None? <==> body.JNull?
    ensures r == Some(true) <==> Member(body, "needs_onboarding").Some? && JsTruthy(Member(body, "needs_onboarding").value)
  {
    if body.JNull? then None
    else
      match Member(body, "needs_onboarding")
      case None => Some(false)
      case Some(v) => Some(JsTruthy(v))
  }

  /** The onboarding check sends the user to `/onboarding`. */
  predicate Redirects(me: Reply<CurrentUser>, onboarding: Reply<Json>) {
    OkWithBody(me) && OkWithBody(onboarding) && NeedsOnboarding(onboarding.json.value) == Some(true)
  }

  /** The onboarding check lets the signed-in user through: the check
      answered not ok, or answered ok that no onboarding is needed. */
  predicate PassesOnboarding(onboarding: Reply<Json>) {
    onboarding.Replied?
    && (!IsOk(onboarding) || (onboarding.json.Some? && NeedsOnboarding(onboarding.json.value) == Some(false)))
  }

  datatype View = Loading | WelcomeScreen(user: CurrentUser) | MarketingHome

  class RootPage {
    var user: Option<CurrentUser>
    var isLoading: bool
    var redirect: Option<string>

    constructor ()
      ensures user.None? && isLoading && redirect.None?
    {
      user := None;
      isLoading := true;
      redirect := None;
    }

    /** What the page renders. */
    function Rendered(): (v: View)
      reads this
      ensures isLoading <==> v.Loading?
      ensures v.WelcomeScreen? <==> !isLoading && user.Some?
    {
      if isLoading then Loading else if user.Some? then WelcomeScreen(user.value) else MarketingHome
    }

    /** `fetchCurrentUser`. `onboardingCalled` says whether the onboarding
        check was requested. */
    method FetchCurrentUser(me: Reply<CurrentUser>, onboarding: Reply<Json>, mounted: bool)
      returns (onboardingCalled: bool)
      modifies this
      ensures !mounted ==> user == old(user) && isLoading == old(isLoading) && redirect == old(redirect)
      ensures onboardingCalled <==> mounted && OkWithBody(me)
      // loading ends on every path, the redirect included
      ensures mounted ==> !isLoading
      ensures mounted ==> redirect == if Redirects(me, onboarding) then Some("/onboarding") else old(redirect)
      // a redirected user is never stored
      ensures mounted && Redirects(me, onboarding) ==> user == old(user)
      // the welcome screen needs an ok `/me` and an onboarding check that lets the user through
      ensures mounted && !Redirects(me, onboarding) ==>
        user == if OkWithBody(me) && PassesOnboarding(onboarding) then me.json else None
      ensures mounted && !Redirects(me, onboarding) && !OkWithBody(me) ==> Rendered() == MarketingHome
    {
      onboardingCalled := false;
      if !mounted {
        return;
      }
      if me.Thrown? || (IsOk(me) && me.json.None?) {
        user := None;
      } else if !IsOk(me) {
        user := None;
      } else {
        var data := me.json.value;
        onboardingCalled := true;
        if onboarding.Thrown? {
          user := None;
        } else if IsOk(onboarding) {
          if onboarding.json.None? {
            user := None;
          } else {
            var needs := NeedsOnboarding(onboarding.json.value);
            if needs.None? {
              user := None;
            } else if needs.value {
              redirect := Some("/onboarding");
            } else {
              user := Some(data);
            }
          }
        } else {
          user := Some(data);
        }
      }
      isLoading := false;
    }
  }
}

=== FILE: jwt_auth.dfy ===
/** `CustomJWTAuthentication.authenticate`: pick the raw token from the
    Authorization header when there is one, otherwise from the auth cookie,
    validate it and resolve its user; every exception means anonymous. The
    library steps (parsing the header, validating the token, loading the
    user) are function parameters that either return or raise. */
module JwtAuth {
  import opened Common

  /** A library call that returns a value or raises. */
  datatype Try<+T> = Returned(value: T) | Raised

  /** The raw token the request carries: from the header when one is
      present (even if it yields none), else the cookie. */
  function RawToken(header: Option<string>, cookies: map<string, string>, cookieName: string,
                    parseHeader: string -> Try<Option<string>>): (t: Try<Option<string>>)
    ensures header.Some? ==> t == parseHeader(header.value)
    ensures header.None? ==> t == Returned(if cookieName in cookies then Some(cookies[cookieName]) else None)
  {
    match header
    case Some(h) => parseHeader(h)
    case None => Returned(if cookieName in cookies then Some(cookies[cookieName]) else None)
  }

  /** `authenticate(request)`: `(user, validated_token)` or `None`. */
  function Authenticate<Token, User>(header: Option<string>, cookies: map<string, string>, cookieName: string,
                                     parseHeader: string -> Try<Option<string>>,
                                     validate: string -> Try<Token>,
                                     getUser: Token -> Try<User>): (r: Option<(User, Token)>)
    // authenticated exactly when a token was found, validated and its user loaded
    ensures r.Some? <==>
      RawToken(header, cookies, cookieName, parseHeader).Returned?
      && RawToken(header, cookies, cookieName, parseHeader).value.Some?
      && validate(RawToken(header, cookies, cookieName, parseHeader).value.value).Returned?
      && getUser(validate(RawToken(header, cookies, cookieName, parseHeader).value.value).value).Returned?
    // and then the pair is that user with that validated token
    ensures r.Some? ==>
      var token := validate(RawToken(header, cookies, cookieName, parseHeader).value.value).value;
      r.value == (getUser(token).value, token)
  {
    match RawToken(header, cookies, cookieName, parseHeader)
    case Raised => None
    case Returned(raw) =>
      if raw.None? then None
      else
        match validate(raw.value)
        case Raised => None
        case Returned(token) =>
          match getUser(token)
          case Raised => None
          case Returned(user) => Some((user, token))
  }

  /** With an Authorization header the cookie is never consulted: two
      requests that differ only in their cookies authenticate alike, even
      when the header carries no usable token. */
  lemma HeaderShadowsCookie<Token, User>(header: string, cookies1: map<string, string>,
                                         cookies2: map<string, string>, cookieName: string,
                                         parseHeader: string -> Try<Option<string>>,
                                         validate: string -> Try<Token>, getUser: Token -> Try<User>)
    ensures Authenticate(Some(header), cookies1, cookieName, parseHeader, validate, getUser)
         == Authenticate(Some(header), cookies2, cookieName, parseHeader, validate, getUser)
  {
  }

  /** No header and no auth cookie is anonymous, whatever the library does. */
  lemma NoTokenIsAnonymous<Token, User>(cookies: map<string, string>, cookieName: string,
                                        parseHeader: string -> Try<Option<string>>,
                                        validate: string -> Try<Token>, getUser: Token -> Try<User>)
    requires cookieName !in cookies
    ensures Authenticate(None, cookies, cookieName, parseHeader, validate, getUser).None?
  {
  }

  /** Without a header, a cookie whose token validates and whose user loads
      authenticates as that user. */
  lemma CookieAuthenticates<Token, User>(cookies: map<string, string>, cookieName: string,
                                         parseHeader: string -> Try<Option<string>>,
                                         validate: string -> Try<Token>, getUser: Token -> Try<User>)
    requires cookieName in cookies && validate(cookies[cookieName]).Returned?
    requires getUser(validate(cookies[cookieName]).value).Returned?
    ensures Authenticate(None, cookies, cookieName, parseHeader, validate, getUser)
         == Some((getUser(validate(cookies[cookieName]).value).value, validate(cookies[cookieName]).value))
  {
  }
}

=== FILE: object_order.dfy ===
/** The order in which JavaScript's `Object.values` lists the properties of
    an object that `JSON.parse` built: the keys that are array indices first,
    in ascending numeric order, then the other keys in the order they were
    first written; a repeated key keeps its first place and its last value. */
module ObjectOrder {
  import opened Common
  /** The distinct keys of a parsed object, in the order each first appears
      in the text; `JSON.parse` keeps a repeated key in its first place (and
      gives it its last value, as `Lookup` does). */
  function KeysInOrder(members: seq<(string, Json)>): (keys: seq<string>)
    ensures forall k :: k in keys <==> exists i :: 0 <= i < |members| && members[i].0 == k
    ensures Distinct(keys)
    ensures members != [] ==> keys != [] && keys[0] == members[0].0
  {
    if members == [] then []
    else
      var init := members[..|members| - 1];
      var keys := KeysInOrder(init);
      var k := members[|members| - 1].0;
      assert forall i :: 0 <= i < |init| ==> init[i] == members[i];
      if k in keys then keys else keys + [k]
  }

  predicate Distinct(s: seq<string>) {
    forall i, j :: 0 <= i < j < |s| ==> s[i] != s[j]
  }

  const MAX_ARRAY_INDEX := 0xFFFF_FFFE

  /** An array index in the sense of ECMAScript: the canonical numeral of an
      integer below 2^32 - 1. */
  predicate IsArrayIndex(k: string) {
    CanonicalNumeral(k) && DigitsValue(k) <= MAX_ARRAY_INDEX
  }

  function IndexValue(k: string): nat
    requires IsArrayIndex(k)
  {
    DigitsValue(k)
  }

  predicate AllIndices(s: seq<string>) {
    forall i :: 0 <= i < |s| ==> IsArrayIndex(s[i])
  }

  predicate Ascending(s: seq<string>)
    requires AllIndices(s)
  {
    forall i, j :: 0 <= i < j < |s| ==> IndexValue(s[i]) <= IndexValue(s[j])
  }

  /** The keys of `keys` that are array indices (`index`) or that are not,
      in their order. */
  function Select(keys: seq<string>, index: bool): (r: seq<string>)
    ensures forall k :: k in r <==> k in keys && IsArrayIndex(k) == index
    ensures forall i :: 0 <= i < |r| ==> IsArrayIndex(r[i]) == index
    ensures Distinct(keys) ==> Distinct(r)
  {
    if keys == [] then []
    else
      var rest := Select(keys[1..], index);
      assert forall k :: k in keys <==> k == keys[0] || k in keys[1..];
      if IsArrayIndex(keys[0]) == index then [keys[0]] + rest else rest
  }

  /** `k` put into an ascending list of array indices before the first one
      that is not smaller. */
  function InsertIndex(k: string, sorted: seq<string>): (r: seq<string>)
    requires IsArrayIndex(k) && AllIndices(sorted) && Ascending(sorted)
    ensures AllIndices(r)
    ensures multiset(r) == multiset(sorted) + multiset{k}
  {
    if sorted == [] || IndexValue(k) <= IndexValue(sorted[0]) then [k] + sorted
    else
      assert sorted == [sorted[0]] + sorted[1..];
      [sorted[0]] + InsertIndex(k, sorted[1..])
  }

  /** Everything inserted after the head of an ascending list is at least
      the head. */
  lemma HeadIsLeast(k: string, sorted: seq<string>, rest: seq<string>)
    requires IsArrayIndex(k) && AllIndices(sorted) && Ascending(sorted) && sorted != []
    requires IndexValue(sorted[0]) < IndexValue(k)
    requires AllIndices(rest) && multiset(rest) == multiset(sorted[1..]) + multiset{k}
    ensures forall i :: 0 <= i < |rest| ==> IndexValue(sorted[0]) <= IndexValue(rest[i])
  {
    forall i | 0 <= i < |rest| ensures IndexValue(sorted[0]) <= IndexValue(rest[i]) {
      var x := rest[i];
      assert x in multiset(rest);
      if x != k {
        assert x in multiset(sorted[1..]);
        var j :| 0 <= j < |sorted[1..]| && sorted[1..][j] == x;
        assert sorted[j + 1] == x;
      }
    }
  }

  lemma {:induction false} InsertAscending(k: string, sorted: seq<string>)
    requires IsArrayIndex(k) && AllIndices(sorted) && Ascending(sorted)
    ensures Ascending(InsertIndex(k, sorted))
  {
    if sorted != [] && IndexValue(sorted[0]) < IndexValue(k) {
      var rest := InsertIndex(k, sorted[1..]);
      InsertAscending(k, sorted[1..]);
      assert sorted == [sorted[0]] + sorted[1..];
      HeadIsLeast(k, sorted, rest);
    }
  }

  /** The array-index keys in ascending numeric order (an insertion sort). */
  function SortIndices(keys: seq<string>): (r: seq<string>)
    requires AllIndices(keys)
    ensures AllIndices(r) && Ascending(r)
    ensures multiset(r) == multiset(keys)
  {
    if keys == [] then []
    else
      assert keys == [keys[0]] + keys[1..];
      var rest := SortIndices(keys[1..]);
      InsertAscending(keys[0], rest);
      InsertIndex(keys[0], rest)
  }

  /** Sorting keeps distinct keys distinct. */
  lemma {:induction false} SortDistinct(keys: seq<string>)
    requires AllIndices(keys) && Distinct(keys)
    ensures Distinct(SortIndices(keys))
  {
    if keys != [] {
      assert keys == [keys[0]] + keys[1..];
      var rest := SortIndices(keys[1..]);
      SortDistinct(keys[1..]);
      assert keys[0] !in multiset(rest);
      InsertDistinct(keys[0], rest);
    }
  }

  lemma {:induction false} InsertDistinct(k: string, sorted: seq<string>)
    requires IsArrayIndex(k) && AllIndices(sorted) && Ascending(sorted)
    requires k !in sorted && Distinct(sorted)
    ensures Distinct(InsertIndex(k, sorted))
  {
    if sorted != [] && IndexValue(sorted[0]) < IndexValue(k) {
      assert sorted == [sorted[0]] + sorted[1..];
      var rest := InsertIndex(k, sorted[1..]);
      InsertDistinct(k, sorted[1..]);
      assert sorted[0] !in multiset(rest);
      var r := [sorted[0]] + rest;
      forall i, j | 0 <= i < j < |r| ensures r[i] != r[j] {
        if i == 0 {
          assert r[j] == rest[j - 1];
          assert rest[j - 1] in multiset(rest);
        }
      }
    }
  }

  /** The order in which `Object.values` lists an object's properties:
      the array-index keys first, in ascending numeric order, then the other
      keys in the order they were first created. */
  function PropertyKeys(members: seq<(string, Json)>): seq<string> {
    var keys := KeysInOrder(members);
    SortIndices(Select(keys, true)) + Select(keys, false)
  }

  /** Each key of the object appears once among the property keys, array
      indices all come before the other keys, and array indices ascend. */
  lemma PropertyKeysOrder(members: seq<(string, Json)>)
    ensures var ks := PropertyKeys(members);
      (forall k :: k in ks <==> exists i :: 0 <= i < |members| && members[i].0 == k)
      && Distinct(ks)
      && (forall i, j :: 0 <= i < j < |ks| && IsArrayIndex(ks[j]) ==> IsArrayIndex(ks[i]))
      && (forall i, j :: 0 <= i < j < |ks| && IsArrayIndex(ks[i]) && IsArrayIndex(ks[j]) ==>
            IndexValue(ks[i]) <= IndexValue(ks[j]))
  {
    PropertyKeysPresent(members);
    PropertyKeysDistinct(members);
    PropertyKeysIndicesFirst(members);
  }

  /** The property keys are exactly the object's keys. */
  lemma PropertyKeysPresent(members: seq<(string, Json)>)
    ensures forall k :: k in PropertyKeys(members) <==> exists i :: 0 <= i < |members| && members[i].0 == k
  {
    var keys := KeysInOrder(members);
    var indices := SortIndices(Select(keys, true));
    assert forall k :: k in indices <==> k in multiset(Select(keys, true));
  }

  lemma PropertyKeysDistinct(members: seq<(string, Json)>)
    ensures Distinct(PropertyKeys(members))
  {
    var keys := KeysInOrder(members);
    SortDistinct(Select(keys, true));
    IndicesThenOthers(SortIndices(Select(keys, true)), Select(keys, false));
  }

  lemma PropertyKeysIndicesFirst(members: seq<(string, Json)>)
    ensures var ks := PropertyKeys(members);
      (forall i, j :: 0 <= i < j < |ks| && IsArrayIndex(ks[j]) ==> IsArrayIndex(ks[i]))
      && (forall i, j :: 0 <= i < j < |ks| && IsArrayIndex(ks[i]) && IsArrayIndex(ks[j]) ==>
            IndexValue(ks[i]) <= IndexValue(ks[j]))
  {
    var keys := KeysInOrder(members);
    IndicesThenOthers(SortIndices(Select(keys, true)), Select(keys, false));
  }

  /** Ascending array indices followed by keys that are not array indices:
      the indices come first and ascend, and the whole is distinct when both
      parts are. */
  lemma IndicesThenOthers(indices: seq<string>, others: seq<string>)
    requires AllIndices(indices) && Ascending(indices)
    requires forall i :: 0 <= i < |others| ==> !IsArrayIndex(others[i])
    ensures var ks := indices + others;
      (forall i, j :: 0 <= i < j < |ks| && IsArrayIndex(ks[j]) ==> IsArrayIndex(ks[i]))
      && (forall i, j :: 0 <= i < j < |ks| && IsArrayIndex(ks[i]) && IsArrayIndex(ks[j]) ==>
            IndexValue(ks[i]) <= IndexValue(ks[j]))
    ensures Distinct(indices) && Distinct(others) ==> Distinct(indices + others)
  {
    var ks := indices + others;
    forall j | |indices| <= j < |ks| ensures !IsArrayIndex(ks[j]) {
      assert ks[j] == others[j - |indices|];
    }
    forall i | 0 <= i < |indices| ensures ks[i] == indices[i] { }
    if Distinct(indices) && Distinct(others) {
      forall i, j | 0 <= i < j < |ks| ensures ks[i] != ks[j] {
        if j < |indices| {
          assert ks[j] == indices[j];
        } else if |indices| <= i {
          assert ks[i] == others[i - |indices|] && ks[j] == others[j - |indices|];
        }
      }
    }
  }

  /** The values stored under `keys`, in that order. */
  function ValuesAt(members: seq<(string, Json)>, keys: seq<string>): (r: seq<Json>)
    requires forall k :: k in keys ==> Lookup(members, k).Some?
    ensures |r| == |keys| && forall i :: 0 <= i < |keys| ==> Lookup(members, keys[i]) == Some(r[i])
  {
    if keys == [] then [] else [Lookup(members, keys[0]).value] + ValuesAt(members, keys[1..])
  }

  /** `Object.values(v)`: `None` is the TypeError on `null`. An object gives
      the value of each of its keys in property order (a repeated key its
      last value); an array its elements; a string its characters. */
  function ObjectValues(v: Json): (r: Option<seq<Json>>)
    ensures r.None? <==> v.JNull?
    ensures v.JObj? ==> var ks := PropertyKeys(v.members);
      |r.value| == |ks| && forall i :: 0 <= i < |ks| ==> Lookup(v.members, ks[i]) == Some(r.value[i])
  {
    match v
    case JNull => None
    case JObj(members) =>
      PropertyKeysPresent(members);
      Some(ValuesAt(members, PropertyKeys(members)))
    case JArr(items) => Some(items)
    case JStr(s) => Some(seq(|s|, i requires 0 <= i < |s| => JStr([s[i]])))
    case _ => Some([])
  }

  lemma {:induction false} SelectAll(keys: seq<string>)
    requires forall i :: 0 <= i < |keys| ==> !IsArrayIndex(keys[i])
    ensures Select(keys, false) == keys
  {
    if keys != [] {
      SelectAll(keys[1..]);
    }
  }

  lemma LeastIndexFirst(members: seq<(string, Json)>, k: string)
    requires IsArrayIndex(k) && exists i :: 0 <= i < |members| && members[i].0 == k
    requires forall i :: 0 <= i < |members| && IsArrayIndex(members[i].0) ==> IndexValue(k) <= IndexValue(members[i].0)
    ensures PropertyKeys(members) != [] && PropertyKeys(members)[0] == k
  {
    PropertyKeysPresent(members);
    PropertyKeysIndicesFirst(members);
    var ks := PropertyKeys(members);
    assert k in ks;
    var p :| 0 <= p < |ks| && ks[p] == k;
    if p != 0 {
      assert IsArrayIndex(ks[0]) && IndexValue(ks[0]) <= IndexValue(k);
      assert ks[0] in ks;
      var i :| 0 <= i < |members| && members[i].0 == ks[0];
      CanonicalNumeralPrinted(k);
      CanonicalNumeralPrinted(ks[0]);
    }
  }
}

=== FILE: onboarding_page.dfy ===
/** The onboarding wizard: five list editors (skills, experiences,
    educations, certifications, achievements), each an add-or-edit form in
    front of a list; the merge of a parsed resume into the drafts; the resume
    parse request; and the multipart form that submits everything. List
    entries and drafts are JSON objects as the page holds them. */
module OnboardingPage {
  import opened Common
  import opened ApiGateway
  import opened PageCommon

  /** A field the save guard reads is filled when it holds text that is not
      blank after `trim()`. Anything else (blank text, or a value without a
      `trim` method, which throws in the click handler) leaves the list alone. */
  predicate Filled(draft: Json, key: string) {
    var v := Member(draft, key);
    v.Some? && v.value.JStr? && !JsBlank(v.value.s)
  }

  /** One list with its add-or-edit form: `items` is the list, `draft` the
      form, `editing` the index being edited (`null` while adding). */
  class ListEditor {
    /** The fields the save button requires (`name`, `company` and `title`,
        `school`, ...). */
    const required: seq<string>
    /** The form's reset value (`emptySkill`, `emptyExperience`, ...). */
    const empty: Json
    var items: seq<Json>
    var draft: Json
    var editing: Option<int>

    constructor (required: seq<string>, empty: Json)
      ensures this.required == required && this.empty == empty
      ensures items == [] && draft == empty && editing.None?
    {
      this.required := required;
      this.empty := empty;
      items := [];
      draft := empty;
      editing := None;
    }

    /** Every required field is filled. */
    predicate Ready()
      reads this
    {
      forall i :: 0 <= i < |required| ==> Filled(draft, required[i])
    }

    /** `saveSkill` and its siblings: without every required field nothing
        changes; otherwise the draft is appended (while adding) or replaces
        the edited entry, and the form resets to adding an empty entry. */
    method Save()
      modifies this
      ensures !old(Ready()) ==> items == old(items) && draft == old(draft) && editing == old(editing)
      ensures old(Ready()) && old(editing).None? ==> items == old(items) + [old(draft)]
      ensures old(Ready()) && old(editing).Some? ==> items == MapAt(old(items), old(editing).value, _ => old(draft))
      ensures old(Ready()) ==> draft == empty && editing.None?
    {
      var k := 0;
      while k < |required|
        invariant 0 <= k <= |required|
        invariant forall i :: 0 <= i < k ==> Filled(draft, required[i])
      {
        if !Filled(draft, required[k]) {
          return;
        }
        k := k + 1;
      }
      if editing.None? {
        items := items + [draft];
      } else {
        var d := draft;
        items := MapAt(items, editing.value, _ => d);
      }
      draft := empty;
      editing := None;
    }

    /** The Edit button of entry `index`: the form loads that entry. */
    method StartEdit(index: int)
      requires 0 <= index < |items|
      modifies this
      ensures items == old(items) && editing == Some(index) && draft == items[index]
    {
      editing := Some(index);
      draft := items[index];
    }

    /** `setSkills(list)` and its siblings when parsed data brings an array:
        the list is replaced, the form stays. */
    method Replace(list: Option<seq<Json>>)
      modifies this
      ensures items == list.GetOr(old(items))
      ensures draft == old(draft) && editing == old(editing)
    {
      if list.Some? {
        items := list.value;
      }
    }

    /** The Remove button of entry `index`. The form is left as it is, so an
        edit in progress keeps its index even though entries after the
        removed one have moved up. */
    method Remove(index: int)
      modifies this
      ensures items == RemoveAt(old(items), index)
      ensures draft == old(draft) && editing == old(editing)
    {
      items := RemoveAt(items, index);
    }
  }

  /** Saving a draft one has just added and then removing it restores the
      list; saving an entry loaded by Edit without changing it leaves the
      list as it was. */
  lemma SaveEditRoundTrips(items: seq<Json>, draft: Json, index: int)
    ensures RemoveAt(items + [draft], |items|) == items
    ensures 0 <= index < |items| ==> MapAt(items, index, _ => items[index]) == items
  {
    AppendThenRemove(items, draft);
    if 0 <= index < |items| {
      MapAtUnchanged(items, index, _ => items[index]);
    }
  }

  function Entry(pairs: seq<(string, Json)>): Json { JObj(pairs) }

  const EMPTY_SKILL := Entry([("name", JStr("")), ("proficiency", JStr("")), ("order", JNum(0))])
  const EMPTY_EXPERIENCE := Entry([("company", JStr("")), ("title", JStr("")), ("location", JStr("")),
    ("start_date", JStr("")), ("end_date", JNull), ("is_current", JBool(false)),
    ("description", JStr("")), ("order", JNum(0))])
  const EMPTY_EDUCATION := Entry([("school", JStr("")), ("degree", JStr("")), ("field_of_study", JStr("")),
    ("start_date", JNull), ("end_date", JNull), ("description", JStr("")), ("order", JNum(0))])
  const EMPTY_CERTIFICATION := Entry([("name", JStr("")), ("issuer", JStr("")), ("issue_date", JNull),
    ("expiration_date", JNull), ("credential_url", JStr("")), ("order", JNum(0))])
  const EMPTY_ACHIEVEMENT := Entry([("title", JStr("")), ("description", JStr("")), ("date", JNull),
    ("order", JNum(0))])

  const EMPTY_PROFILE: seq<(string, Json)> :=
    [("headline", JStr("")), ("summary", JStr("")), ("location", JStr("")), ("phone", JStr(""))]

  const PARSE_FAILED := "Unable to parse resume. Please try again."
  const PARSED := "Resume parsed. Review and edit the details below."
  const SUBMITTED := "Onboarding completed! Redirecting..."
  const SUBMIT_FAILED := "Unable to complete onboarding. Please try again."

  /** One part of the submitted multipart form: a JSON text (the value is
      the one `JSON.stringify` writes out) or the chosen file. */
  datatype Part = JsonPart(value: Json) | FilePart(file: FileRef)

  /** `Array.isArray(data[key])`: the new list, if the parsed data has one. */
  function ParsedList(data: Json, key: string): (r: Option<seq<Json>>)
    ensures r.Some? <==> Member(data, key).Some? && Member(data, key).value.JArr?
    ensures r.Some? ==> r.value == Member(data, key).value.items
  {
    match Member(data, key)
    case Some(JArr(items)) => Some(items)
    case _ => None
  }

  /** The resume link of a loaded profile: none for an empty or missing
      `resume_file`, otherwise the path resolved like `apiFetch` resolves one. */
  function ResumeLink(base: string, resumeFile: Option<string>): (url: Option<string>)
    ensures url.None? <==> !TextTruthy(resumeFile)
    ensures url.Some? ==> url.value == BuildUrl(base, resumeFile.value)
  {
    if TextTruthy(resumeFile) then Some(BuildUrl(base, resumeFile.value)) else None
  }

  /** The draft after `applyParsedData(data)`: a truthy `profile` of the
      parsed data is spread over it key by key; otherwise it stays. */
  function MergedProfile(draft: seq<(string, Json)>, data: Json): (r: seq<(string, Json)>)
    ensures var p := Member(data, "profile");
      !(p.Some? && JsTruthy(p.value)) ==> r == draft
    ensures var p := Member(data, "profile");
      forall k :: Lookup(r, k) == if p.Some? && JsTruthy(p.value) && Lookup(JsSpread(p.value), k).Some?
                                  then Lookup(JsSpread(p.value), k) else Lookup(draft, k)
  {
    var p := Member(data, "profile");
    if p.Some? && JsTruthy(p.value) then Overlay(draft, JsSpread(p.value)) else draft
  }

  /** Whether `parseResume` applies an answer: an ok status whose body
      parses as JSON that is not `null`. */
  predicate Applies(answer: Answer, parse: string -> Option<Json>) {
    answer.Answered? && Ok(answer.status) && JsonOf(answer, parse).Some? && !JsonOf(answer, parse).value.JNull?
  }

  class Onboarding {
    var profileDraft: seq<(string, Json)>
    const skills: ListEditor
    const experiences: ListEditor
    const educations: ListEditor
    const certifications: ListEditor
    const achievements: ListEditor
    var resumeFile: Option<FileRef>
    var isParsing: bool
    var statusMessage: string

    /** The five editors are five different objects. */
    predicate Valid()
      reads this
    {
      skills != experiences && skills != educations && skills != certifications && skills != achievements
      && experiences != educations && experiences != certifications && experiences != achievements
      && educations != certifications && educations != achievements
      && certifications != achievements
    }

    constructor ()
      ensures Valid() && fresh(skills) && fresh(experiences) && fresh(educations)
      ensures fresh(certifications) && fresh(achievements)
      ensures profileDraft == EMPTY_PROFILE && resumeFile.None? && !isParsing && statusMessage == ""
      ensures skills.items == [] && skills.required == ["name"]
      ensures skills.draft == EMPTY_SKILL && skills.editing.None?
      ensures experiences.items == [] && experiences.required == ["company", "title"]
      ensures experiences.draft == EMPTY_EXPERIENCE && experiences.editing.None?
      ensures educations.items == [] && educations.required == ["school"]
      ensures educations.draft == EMPTY_EDUCATION && educations.editing.None?
      ensures certifications.items == [] && certifications.required == ["name"]
      ensures certifications.draft == EMPTY_CERTIFICATION && certifications.editing.None?
      ensures achievements.items == [] && achievements.required == ["title"]
      ensures achievements.draft == EMPTY_ACHIEVEMENT && achievements.editing.None?
    {
      profileDraft := EMPTY_PROFILE;
      skills := new ListEditor(["name"], EMPTY_SKILL);
      experiences := new ListEditor(["company", "title"], EMPTY_EXPERIENCE);
      educations := new ListEditor(["school"], EMPTY_EDUCATION);
      certifications := new ListEditor(["name"], EMPTY_CERTIFICATION);
      achievements := new ListEditor(["title"], EMPTY_ACHIEVEMENT);
      resumeFile := None;
      isParsing := false;
      statusMessage := "";
    }

    /** `applyParsedData(data)` on data that is not `null` (reading
        `data.profile` of `null` throws before anything changes). A truthy
        `profile` is spread over the profile draft; each list is replaced
        only when the parsed value is an array. Drafts and edit indices stay. */
    method ApplyParsedData(data: Json)
      requires Valid() && !data.JNull?
      modifies this, skills, experiences, educations, certifications, achievements
      ensures profileDraft == MergedProfile(old(profileDraft), data)
      ensures skills.items == ParsedList(data, "skills").GetOr(old(skills.items))
      ensures experiences.items == ParsedList(data, "experiences").GetOr(old(experiences.items))
      ensures educations.items == ParsedList(data, "educations").GetOr(old(educations.items))
      ensures certifications.items == ParsedList(data, "certifications").GetOr(old(certifications.items))
      ensures achievements.items == ParsedList(data, "achievements").GetOr(old(achievements.items))
      ensures skills.draft == old(skills.draft) && skills.editing == old(skills.editing)
      ensures experiences.draft == old(experiences.draft) && experiences.editing == old(experiences.editing)
      ensures educations.draft == old(educations.draft) && educations.editing == old(educations.editing)
      ensures certifications.draft == old(certifications.draft) && certifications.editing == old(certifications.editing)
      ensures achievements.draft == old(achievements.draft) && achievements.editing == old(achievements.editing)
      ensures resumeFile == old(resumeFile) && isParsing == old(isParsing) && statusMessage == old(statusMessage)
    {
      var p := Member(data, "profile");
      if p.Some? && JsTruthy(p.value) {
        profileDraft := Overlay(profileDraft, JsSpread(p.value));
      }
      skills.Replace(ParsedList(data, "skills"));
      experiences.Replace(ParsedList(data, "experiences"));
      educations.Replace(ParsedList(data, "educations"));
      certifications.Replace(ParsedList(data, "certifications"));
      achievements.Replace(ParsedList(data, "achievements"));
    }

    /** `parseResume()`: nothing without a chosen file or while a parse is
        running. Otherwise the file goes to the parse endpoint; an ok answer
        whose JSON is not `null` is merged in; every failure shows the
        answer's text or the fallback; `isParsing` is cleared at the end. */
    method ParseResume(answer: Answer, parse: string -> Option<Json>)
      returns (request: Option<(string, Body)>)
      requires Valid()
      modifies this, skills, experiences, educations, certifications, achievements
      ensures old(resumeFile).None? || old(isParsing) ==>
        request.None? && isParsing == old(isParsing) && statusMessage == old(statusMessage)
      ensures var data := JsonOf(answer, parse);
        if old(resumeFile).Some? && !old(isParsing) && Applies(answer, parse) then
          profileDraft == MergedProfile(old(profileDraft), data.value)
          && skills.items == ParsedList(data.value, "skills").GetOr(old(skills.items))
          && experiences.items == ParsedList(data.value, "experiences").GetOr(old(experiences.items))
          && educations.items == ParsedList(data.value, "educations").GetOr(old(educations.items))
          && certifications.items == ParsedList(data.value, "certifications").GetOr(old(certifications.items))
          && achievements.items == ParsedList(data.value, "achievements").GetOr(old(achievements.items))
        else
          profileDraft == old(profileDraft) && skills.items == old(skills.items)
          && experiences.items == old(experiences.items) && educations.items == old(educations.items)
          && certifications.items == old(certifications.items) && achievements.items == old(achievements.items)
      ensures skills.draft == old(skills.draft) && skills.editing == old(skills.editing)
      ensures experiences.draft == old(experiences.draft) && experiences.editing == old(experiences.editing)
      ensures educations.draft == old(educations.draft) && educations.editing == old(educations.editing)
      ensures certifications.draft == old(certifications.draft) && certifications.editing == old(certifications.editing)
      ensures achievements.draft == old(achievements.draft) && achievements.editing == old(achievements.editing)
      ensures old(resumeFile).Some? && !old(isParsing) ==>
        request == Some(("/profiles/profile/parse_resume/", Form([("resume_file", Upload(old(resumeFile).value))])))
        && !isParsing
        && (answer.Rejected? ==> statusMessage == PARSE_FAILED)
        && (answer.Answered? && !Ok(answer.status) ==>
              statusMessage == if answer.body.Some? && answer.body.value != "" then answer.body.value else PARSE_FAILED)
        && (answer.Answered? && Ok(answer.status) ==>
              statusMessage == if Applies(answer, parse) then PARSED else PARSE_FAILED)
      ensures resumeFile == old(resumeFile)
      ensures Valid()
    {
      request := None;
      if resumeFile.None? || isParsing {
        return;
      }
      isParsing := true;
      statusMessage := "";
      request := Some(("/profiles/profile/parse_resume/", Form([("resume_file", Upload(resumeFile.value))])));
      if answer.Rejected? {
        statusMessage := PARSE_FAILED;
      } else if !Ok(answer.status) {
        statusMessage := if answer.body.Some? && answer.body.value != "" then answer.body.value else PARSE_FAILED;
      } else {
        var data := JsonOf(answer, parse);
        if data.None? || data.value.JNull? {
          statusMessage := PARSE_FAILED;
        } else {
          ApplyParsedData(data.value);
          statusMessage := PARSED;
        }
      }
      isParsing := false;
    }

    /** The multipart form `submitOnboarding` posts: the profile draft and
        the five lists as JSON, in this order, and the chosen file last when
        there is one. */
    function SubmitForm(): (form: seq<(string, Part)>)
      reads this, skills, experiences, educations, certifications, achievements
      ensures |form| == if resumeFile.Some? then 7 else 6
      ensures form[..6] == [("profile", JsonPart(JObj(profileDraft))), ("skills", JsonPart(JArr(skills.items))),
        ("experiences", JsonPart(JArr(experiences.items))), ("educations", JsonPart(JArr(educations.items))),
        ("certifications", JsonPart(JArr(certifications.items))), ("achievements", JsonPart(JArr(achievements.items)))]
      ensures (exists i :: 0 <= i < |form| && form[i].0 == "resume_file") <==> resumeFile.Some?
      ensures resumeFile.Some? ==> form[6] == ("resume_file", FilePart(resumeFile.value))
    {
      var parts := [("profile", JsonPart(JObj(profileDraft))), ("skills", JsonPart(JArr(skills.items))),
        ("experiences", JsonPart(JArr(experiences.items))), ("educations", JsonPart(JArr(educations.items))),
        ("certifications", JsonPart(JArr(certifications.items))), ("achievements", JsonPart(JArr(achievements.items)))];
      assert forall i :: 0 <= i < 6 ==> parts[i].0[0] != 'r';
      if resumeFile.Some? then
        var form := parts + [("resume_file", FilePart(resumeFile.value))];
        assert form[6].0 == "resume_file";
        form
      else parts
    }

    /** `submitOnboarding()`: clears the message, posts `SubmitForm()`, and
        reports the outcome; an ok answer also sends the browser home (after
        a short delay). A rejected request leaves the message cleared. */
    method Submit(answer: Answer) returns (form: seq<(string, Part)>, redirect: Option<string>)
      modifies this
      ensures form == old(SubmitForm())
      ensures answer.Rejected? ==> statusMessage == "" && redirect.None?
      ensures answer.Answered? && Ok(answer.status) ==> statusMessage == SUBMITTED && redirect == Some("/")
      ensures answer.Answered? && !Ok(answer.status) ==> statusMessage == SUBMIT_FAILED && redirect.None?
      ensures profileDraft == old(profileDraft) && resumeFile == old(resumeFile) && isParsing == old(isParsing)
    {
      statusMessage := "";
      form := SubmitForm();
      redirect := None;
      if answer.Rejected? {
        return;
      }
      if Ok(answer.status) {
        statusMessage := SUBMITTED;
        redirect := Some("/");
      } else {
        statusMessage := SUBMIT_FAILED;
      }
    }
  }
}

=== FILE: page_common.dfy ===
/** What the pages see of an awaited `apiFetch` call: either the promise
    rejected (network error, timeout, a rejected refresh), or a response
    arrived with a status, and reading its body with `response.json()`
    either yields a value or rejects. */
module PageCommon {
  import opened Common
  import opened ApiGateway

  datatype Reply<+T> = Thrown | Replied(status: int, json: Option<T>)

  /** `response.ok` of a response that arrived. */
  predicate IsOk<T>(r: Reply<T>) { r.Replied? && Ok(r.status) }

  /** An ok response whose body parsed. */
  predicate OkWithBody<T>(r: Reply<T>) { IsOk(r) && r.json.Some? }

  /** What a page that calls `fetch` directly sees: the promise rejected,
      or a response arrived; `body` is what `response.text()` resolves to,
      `None` when reading it rejects. `response.json()` is `parse` of that
      text. */
  datatype Answer = Rejected | Answered(status: int, body: Option<string>)

  /** `await response.json()`: `None` when it rejects. */
  function JsonOf(a: Answer, parse: string -> Option<Json>): (r: Option<Json>)
    ensures r.Some? ==> a.Answered? && a.body.Some? && parse(a.body.value) == r
  {
    if a.Answered? && a.body.Some? then parse(a.body.value) else None
  }

  /** A form's status banner. Server-provided error messages are whatever
      JSON value the server put there. */
  datatype FormStatus = Idle | ErrorStatus(message: Json) | SuccessStatus(text: string)

  // ---------------------------------------------------------------------------
  // Object spread

  /** The own enumerable properties `{...v}` copies from a parsed JSON value:
      an object's members, an array's or a string's elements under their
      indices, and nothing from `null`, a boolean or a number. */
  function JsSpread(v: Json): seq<(string, Json)> {
    match v
    case JObj(members) => members
    case JArr(items) => seq(|items|, i requires 0 <= i < |items| => (NatToString(i), items[i]))
    case JStr(s) => seq(|s|, i requires 0 <= i < |s| => (NatToString(i), JStr([s[i]])))
    case _ => []
  }

  /** Two member lists that agree wherever either holds `key` look `key` up
      alike. */
  lemma {:induction false} LookupAgrees(a: seq<(string, Json)>, b: seq<(string, Json)>, key: string)
    requires |a| == |b|
    requires forall i :: 0 <= i < |a| && (a[i].0 == key || b[i].0 == key) ==> a[i] == b[i]
    ensures Lookup(a, key) == Lookup(b, key)
    decreases |a|
  {
    if |a| > 0 {
      var n := |a| - 1;
      LookupAgrees(a[..n], b[..n], key);
    }
  }

  /** Every member named `key` now holds `v`, in place. */
  function Overwrite(members: seq<(string, Json)>, key: string, v: Json): (r: seq<(string, Json)>)
    ensures |r| == |members|
    ensures forall i :: 0 <= i < |r| ==> r[i] == (if members[i].0 == key then (key, v) else members[i])
  {
    if members == [] then []
    else
      var n := |members| - 1;
      Overwrite(members[..n], key, v) + [if members[n].0 == key then (key, v) else members[n]]
  }

  /** `{ ...obj, [key]: v }` on a member list: an existing property keeps its
      place and takes the new value; a new one goes at the end. Only `key`
      reads differently afterwards. */
  function SetMember(members: seq<(string, Json)>, key: string, v: Json): (r: seq<(string, Json)>)
    ensures Lookup(r, key) == Some(v)
    ensures forall k :: k != key ==> Lookup(r, k) == Lookup(members, k)
  {
    if Lookup(members, key).Some? then
      var r := Overwrite(members, key, v);
      var i :| 0 <= i < |members| && members[i] == (key, Lookup(members, key).value);
      assert r[i] == (key, v);
      forall k | k != key ensures Lookup(r, k) == Lookup(members, k) {
        LookupAgrees(r, members, k);
      }
      r
    else
      var r := members + [(key, v)];
      assert r[..|members|] == members;
      r
  }

  /** `{ ...prev, ...overlay }`: the overlay's members are set one after the
      other, so each key reads as in the overlay when it is there and as in
      `prev` otherwise. */
  function Overlay(prev: seq<(string, Json)>, overlay: seq<(string, Json)>): (r: seq<(string, Json)>)
    ensures forall k :: Lookup(r, k) == if Lookup(overlay, k).Some? then Lookup(overlay, k) else Lookup(prev, k)
    decreases |overlay|
  {
    if overlay == [] then prev
    else
      var n := |overlay| - 1;
      SetMember(Overlay(prev, overlay[..n]), overlay[n].0, overlay[n].1)
  }

  /** `{ ...v, [key]: x }` on a parsed JSON value. */
  function WithMember(v: Json, key: string, x: Json): (r: Json)
    ensures r.JObj? && Lookup(r.members, key) == Some(x)
    ensures forall k :: k != key ==> Lookup(r.members, k) == Lookup(JsSpread(v), k)
  {
    JObj(SetMember(JsSpread(v), key, x))
  }

  // ---------------------------------------------------------------------------
  // Array updates by index

  /** `items.map((item, i) => i === index ? f(item) : item)`: the element at
      `index` (if there is one) becomes `f` of itself; the rest and the
      length stay. */
  function MapAt<T>(items: seq<T>, index: int, f: T -> T): (r: seq<T>)
    ensures |r| == |items|
    ensures forall i :: 0 <= i < |items| && i != index ==> r[i] == items[i]
    ensures 0 <= index < |items| ==> r[index] == f(items[index])
  {
    if items == [] then []
    else [if index == 0 then f(items[0]) else items[0]] + MapAt(items[1..], index - 1, f)
  }

  /** `items.filter((_, i) => i !== index)`: exactly the element at `index`
      goes, the rest keep their order; an index outside the list removes
      nothing. */
  function RemoveAt<T>(items: seq<T>, index: int): (r: seq<T>)
    ensures 0 <= index < |items| ==> r == items[..index] + items[index + 1..]
    ensures !(0 <= index < |items|) ==> r == items
  {
    if items == [] then []
    else
      var rest := RemoveAt(items[1..], index - 1);
      if index == 0 then rest
      else
        assert 0 < index < |items| ==> items[1..][..index - 1] == items[1..index];
        [items[0]] + rest
  }

  /** Removing what was just appended gives the list back. */
  lemma AppendThenRemove<T>(items: seq<T>, x: T)
    ensures RemoveAt(items + [x], |items|) == items
  {
    assert (items + [x])[..|items|] == items;
  }

  /** Writing an element back unchanged leaves the list as it was. */
  lemma MapAtUnchanged<T>(items: seq<T>, index: int, f: T -> T)
    requires 0 <= index < |items| && f(items[index]) == items[index]
    ensures MapAt(items, index, f) == items
  {
  }
}

=== FILE: pricing.dfy ===
/** The pricing page: the call to action chosen by the sign-in state, and the
    effect that learns that state. Its avatar initials are
    `AuthProvider.BuildInitials` of the loaded user. */
module Pricing {
  import opened Common
  import opened PageCommon
  import opened AuthProvider

  /** `isAuthenticated === true`: the unknown state counts as signed out. */
  predicate IsLoggedIn(isAuthenticated: Option<bool>) { isAuthenticated == Some(true) }

  /** The button label, its target and the page title. */
  datatype CallToAction = CallToAction(text: string, href: string, title: string)

  const UPGRADE := CallToAction("Upgrade", "/upgrade", "Upgrade your plan")
  const START := CallToAction("Start free", "/signup", "Simple pricing")

  function CallToActionFor(isAuthenticated: Option<bool>): (cta: CallToAction)
    ensures cta == UPGRADE <==> IsLoggedIn(isAuthenticated)
    ensures cta == START <==> !IsLoggedIn(isAuthenticated)
  {
    if IsLoggedIn(isAuthenticated) then UPGRADE else START
  }

  class PricingPage {
    var isAuthenticated: Option<bool>
    var user: Option<CurrentUser>

    constructor ()
      ensures isAuthenticated.None? && user.None?
    {
      isAuthenticated := None;
      user := None;
    }

    /** The load effect: signed in exactly when `/auth/users/me/` answers ok
        with a readable body, and then the user is that body; a rejected
        fetch or unreadable body means signed out. Nothing changes after
        unmount. */
    method Load(me: Reply<CurrentUser>, mounted: bool)
      modifies this
      ensures !mounted ==> isAuthenticated == old(isAuthenticated) && user == old(user)
      ensures mounted ==> isAuthenticated == Some(OkWithBody(me))
      ensures mounted ==> user == (if OkWithBody(me) then me.json else None)
      ensures mounted ==> (CallToActionFor(isAuthenticated) == UPGRADE <==> OkWithBody(me))
    {
      if me.Thrown? {
        if mounted {
          isAuthenticated := Some(false);
          user := None;
        }
        return;
      }
      if !mounted {
        return;
      }
      isAuthenticated := Some(IsOk(me));
      if IsOk(me) {
        if me.json.None? {
          // `response.json()` rejected: the catch block runs
          isAuthenticated := Some(false);
          user := None;
        } else {
          user := me.json;
        }
      } else {
        user := None;
      }
    }
  }
}

=== FILE: profile_models.dfy ===
/** The profiles app's data: one `UserProfile` per user and five kinds of
    child rows (skills, experiences, educations, certifications,
    achievements), the resume-size validator, the weighted completeness score
    and the default ordering of each child table. The tables themselves live in
    `ProfileViews.ProfileStore`. */
module ProfileModels {
  import opened Common

  type UserId = nat
  type ProfileId = nat
  type RowId = nat

  /** A calendar date, as its day number. */
  type Date = int

  /** A stored upload. A `FieldFile` is truthy exactly when it has a name. */
  datatype StoredFile = StoredFile(name: string, size: nat)

  predicate FileTruthy(f: Option<StoredFile>) { f.Some? && f.value.name != "" }

  const MAX_RESUME_SIZE: nat := 5 * 1024 * 1024

  /** `validate_resume_size`: the error message when the upload is rejected. */
  function ValidateResumeSize(file: Option<StoredFile>): (error: Option<string>)
    ensures error.Some? <==> FileTruthy(file) && file.value.size > MAX_RESUME_SIZE
  {
    if FileTruthy(file) && file.value.size > MAX_RESUME_SIZE
    then Some("Resume file size must be 5MB or less.")
    else None
  }

  /** A `UserProfile` row. `completeness` is `profile_completeness`, which is
      nullable in the schema. */
  datatype Profile = Profile(
    owner: Option<UserId>,
    headline: Option<string>,
    summary: Option<string>,
    location: Option<string>,
    phone: Option<string>,
    completeness: Option<nat>,
    resumeFile: Option<StoredFile>)

  datatype Kind = Skills | Experiences | Educations | Certifications | Achievements

  datatype Proficiency = Beginner | Intermediate | Advanced | Expert

  /** The kind-specific columns of a child row. */
  datatype ChildData =
    | SkillData(name: Option<string>, proficiency: Option<Proficiency>)
    | ExperienceData(company: Option<string>, title: Option<string>, location: Option<string>,
                     startDate: Option<Date>, endDate: Option<Date>, isCurrent: Option<bool>,
                     description: Option<string>)
    | EducationData(school: Option<string>, degree: Option<string>, fieldOfStudy: Option<string>,
                    startDate: Option<Date>, endDate: Option<Date>, description: Option<string>)
    | CertificationData(name: Option<string>, issuer: Option<string>, issueDate: Option<Date>,
                        expirationDate: Option<Date>, credentialUrl: Option<string>)
    | AchievementData(title: Option<string>, description: Option<string>, date: Option<Date>)

  function KindOf(d: ChildData): Kind {
    match d
    case SkillData(_, _) => Skills
    case ExperienceData(_, _, _, _, _, _, _) => Experiences
    case EducationData(_, _, _, _, _, _) => Educations
    case CertificationData(_, _, _, _, _) => Certifications
    case AchievementData(_, _, _) => Achievements
  }

  /** A child row: its primary key, its nullable profile foreign key, its
      `order` column and the rest. */
  datatype Row = Row(id: RowId, profile: Option<ProfileId>, order: Option<nat>, data: ChildData)

  predicate BelongsTo(r: Row, pid: ProfileId, kind: Kind) {
    r.profile == Some(pid) && KindOf(r.data) == kind
  }

  /** `Kind.objects.filter(profile=profile)`, in storage order. */
  function RowsOf(rows: seq<Row>, pid: ProfileId, kind: Kind): (r: seq<Row>)
    ensures |r| <= |rows|
    ensures forall x :: x in r <==> x in rows && BelongsTo(x, pid, kind)
  {
    if rows == [] then []
    else (if BelongsTo(rows[0], pid, kind) then [rows[0]] else []) + RowsOf(rows[1..], pid, kind)
  }

  // ---------------------------------------------------------------------------
  // Completeness score

  /** The eight checks of `update_profile_completeness`. */
  datatype Criteria = Criteria(
    headline: bool, summary: bool, location: bool, resume: bool,
    skills: bool, experiences: bool, educations: bool, certificationsOrAchievements: bool)

  function Points(met: bool, weight: nat): nat { if met then weight else 0 }

  /** The uncapped sum: 10 each for headline, summary and location, 15 for a
      resume, 15 for skills, 20 for experiences, 10 for educations and 10 for
      certifications-or-achievements. */
  function RawScore(c: Criteria): nat {
    Points(c.headline, 10) + Points(c.summary, 10) + Points(c.location, 10)
    + Points(c.resume, 15) + Points(c.skills, 15) + Points(c.experiences, 20)
    + Points(c.educations, 10) + Points(c.certificationsOrAchievements, 10)
  }

  /** `min(score, 100)`. */
  function CompletenessScore(c: Criteria): nat {
    var s := RawScore(c);
    if s < 100 then s else 100
  }

  /** The weights add up to exactly 100, so the cap never changes the score,
      which always lies in [0, 100]. */
  lemma CapNeverBinds(c: Criteria)
    ensures RawScore(Criteria(true, true, true, true, true, true, true, true)) == 100
    ensures CompletenessScore(c) == RawScore(c) <= 100
  {
  }

  /** Only a profile that meets no check scores 0, and only one that meets
      every check scores 100. */
  lemma ScoreExtremes(c: Criteria)
    ensures CompletenessScore(c) == 0 <==> c == Criteria(false, false, false, false, false, false, false, false)
    ensures CompletenessScore(c) == 100 <==> c == Criteria(true, true, true, true, true, true, true, true)
  {
  }

  /** Every check met by `a` is met by `b`. */
  predicate AtLeast(b: Criteria, a: Criteria) {
    (a.headline ==> b.headline) && (a.summary ==> b.summary) && (a.location ==> b.location)
    && (a.resume ==> b.resume) && (a.skills ==> b.skills) && (a.experiences ==> b.experiences)
    && (a.educations ==> b.educations)
    && (a.certificationsOrAchievements ==> b.certificationsOrAchievements)
  }

  /** Meeting more checks never lowers the score. */
  lemma ScoreMonotone(a: Criteria, b: Criteria)
    requires AtLeast(b, a)
    ensures CompletenessScore(a) <= CompletenessScore(b)
  {
    CapNeverBinds(a);
    CapNeverBinds(b);
    assert Points(a.headline, 10) <= Points(b.headline, 10);
    assert Points(a.summary, 10) <= Points(b.summary, 10);
    assert Points(a.location, 10) <= Points(b.location, 10);
    assert Points(a.resume, 15) <= Points(b.resume, 15);
    assert Points(a.skills, 15) <= Points(b.skills, 15);
    assert Points(a.experiences, 20) <= Points(b.experiences, 20);
    assert Points(a.educations, 10) <= Points(b.educations, 10);
    assert Points(a.certificationsOrAchievements, 10) <= Points(b.certificationsOrAchievements, 10);
  }

  /** Filtering distributes over concatenation. */
  lemma {:induction false} RowsOfAppend(a: seq<Row>, b: seq<Row>, pid: ProfileId, kind: Kind)
    ensures RowsOf(a + b, pid, kind) == RowsOf(a, pid, kind) + RowsOf(b, pid, kind)
  {
    if a == [] {
      assert a + b == b;
    } else {
      assert (a + b)[1..] == a[1..] + b;
      RowsOfAppend(a[1..], b, pid, kind);
    }
  }

  /** Filtering distributes over appending one row. */
  lemma {:induction false} RowsOfSnoc(rows: seq<Row>, x: Row, pid: ProfileId, kind: Kind)
    ensures RowsOf(rows + [x], pid, kind)
         == RowsOf(rows, pid, kind) + (if BelongsTo(x, pid, kind) then [x] else [])
  {
    var t := rows + [x];
    if rows == [] {
      assert t == [x];
    } else {
      assert t[0] == rows[0] && t[1..] == rows[1..] + [x];
      RowsOfSnoc(rows[1..], x, pid, kind);
      var head := if BelongsTo(rows[0], pid, kind) then [rows[0]] else [];
      assert RowsOf(t, pid, kind) == head + RowsOf(rows[1..] + [x], pid, kind);
      assert RowsOf(rows, pid, kind) == head + RowsOf(rows[1..], pid, kind);
    }
  }

  /** The criteria of a stored profile, read from its columns and from which
      of its child collections have rows. Certifications and achievements
      share one check. */
  function CriteriaOf(p: Profile, rows: seq<Row>, pid: ProfileId): Criteria {
    Criteria(
      TextTruthy(p.headline), TextTruthy(p.summary), TextTruthy(p.location),
      FileTruthy(p.resumeFile),
      RowsOf(rows, pid, Skills) != [], RowsOf(rows, pid, Experiences) != [],
      RowsOf(rows, pid, Educations) != [],
      RowsOf(rows, pid, Certifications) != [] || RowsOf(rows, pid, Achievements) != [])
  }

  /** Adding a certification or an achievement meets the shared check and
      leaves every other check as it was. */
  lemma SnocSharedKind(p: Profile, pid: ProfileId, rows: seq<Row>, x: Row)
    requires BelongsTo(x, pid, Certifications) || BelongsTo(x, pid, Achievements)
    ensures CriteriaOf(p, rows + [x], pid) == CriteriaOf(p, rows, pid).(certificationsOrAchievements := true)
  {
    RowsOfSnoc(rows, x, pid, Skills);
    RowsOfSnoc(rows, x, pid, Experiences);
    RowsOfSnoc(rows, x, pid, Educations);
    RowsOfSnoc(rows, x, pid, Certifications);
    RowsOfSnoc(rows, x, pid, Achievements);
  }

  /** Certifications and achievements share one 10-point slot: a profile
      with both scores the same as one with either. */
  lemma SharedSlot(p: Profile, pid: ProfileId, rows: seq<Row>, cert: Row, ach: Row)
    requires BelongsTo(cert, pid, Certifications) && BelongsTo(ach, pid, Achievements)
    ensures CompletenessScore(CriteriaOf(p, rows + [cert], pid))
         == CompletenessScore(CriteriaOf(p, rows + [ach], pid))
         == CompletenessScore(CriteriaOf(p, rows + [cert, ach], pid))
  {
    var r1 := rows + [cert];
    assert rows + [cert, ach] == r1 + [ach];
    SnocSharedKind(p, pid, rows, cert);
    SnocSharedKind(p, pid, rows, ach);
    SnocSharedKind(p, pid, r1, ach);
  }

  // ---------------------------------------------------------------------------
  // Default ordering (`Meta.ordering`)

  /** The sort key of a row: `order`, then the kind's date column
      (descending), then `id`. Skills have no date column in their key. */
  datatype SortKey = SortKey(order: Option<int>, date: Option<int>, id: nat)

  function KeyDate(d: ChildData): Option<Date> {
    match d
    case SkillData(_, _) => None
    case ExperienceData(_, _, _, start, _, _, _) => start
    case EducationData(_, _, _, start, _, _) => start
    case CertificationData(_, _, issued, _, _) => issued
    case AchievementData(_, _, date) => date
  }

  function KeyOf(r: Row): SortKey {
    SortKey(if r.order.Some? then Some(r.order.value) else None, KeyDate(r.data), r.id)
  }

  /** Ascending comparison of nullable columns. Where NULL goes depends on the
      database: `nullsLargest` is PostgreSQL's rule, its negation SQLite's. */
  predicate OptLess(x: Option<int>, y: Option<int>, nullsLargest: bool) {
    match (x, y)
    case (Some(a), Some(b)) => a < b
    case (None, Some(_)) => !nullsLargest
    case (Some(_), None) => nullsLargest
    case (None, None) => false
  }

  /** `ordering = ['order', '-<date>', 'id']`, lexicographically. */
  predicate KeyLess(a: SortKey, b: SortKey, nullsLargest: bool) {
    OptLess(a.order, b.order, nullsLargest)
    || (a.order == b.order
        && (OptLess(b.date, a.date, nullsLargest) || (a.date == b.date && a.id < b.id)))
  }

  /** The ordering is a strict total order on rows with distinct ids, so every
      listing has exactly one order. */
  lemma KeyLessStrictTotal(a: SortKey, b: SortKey, c: SortKey, nl: bool)
    ensures !KeyLess(a, a, nl)
    ensures KeyLess(a, b, nl) ==> !KeyLess(b, a, nl)
    ensures KeyLess(a, b, nl) && KeyLess(b, c, nl) ==> KeyLess(a, c, nl)
    ensures a.id != b.id ==> KeyLess(a, b, nl) || KeyLess(b, a, nl)
  {
  }

  predicate Sorted(s: seq<Row>, nl: bool) {
    forall i, j :: 0 <= i < j < |s| ==> KeyLess(KeyOf(s[i]), KeyOf(s[j]), nl)
  }

  predicate DistinctIds(s: seq<Row>) {
    forall i, j :: 0 <= i < j < |s| ==> s[i].id != s[j].id
  }

  function Insert(x: Row, s: seq<Row>, nl: bool): seq<Row> {
    if s == [] then [x]
    else if KeyLess(KeyOf(x), KeyOf(s[0]), nl) then [x] + s
    else [s[0]] + Insert(x, s[1..], nl)
  }

  /** The rows of a queryset in their default order. */
  function OrderRows(s: seq<Row>, nl: bool): seq<Row> {
    if s == [] then [] else Insert(s[0], OrderRows(s[1..], nl), nl)
  }

  /** Inserting adds `x` and nothing else. */
  lemma {:induction false} InsertMembers(x: Row, s: seq<Row>, nl: bool)
    ensures forall y :: y in Insert(x, s, nl) ==> y == x || y in s
  {
    if s != [] && !KeyLess(KeyOf(x), KeyOf(s[0]), nl) {
      InsertMembers(x, s[1..], nl);
    }
  }

  lemma {:induction false} InsertCount(x: Row, s: seq<Row>, nl: bool)
    ensures multiset(Insert(x, s, nl)) == multiset(s) + multiset{x}
  {
    if s != [] && !KeyLess(KeyOf(x), KeyOf(s[0]), nl) {
      InsertCount(x, s[1..], nl);
      assert s == [s[0]] + s[1..];
    }
  }

  /** A row below every row of a sorted list can go in front of it. */
  lemma SortedCons(h: Row, s: seq<Row>, nl: bool)
    requires Sorted(s, nl)
    requires forall j :: 0 <= j < |s| ==> KeyLess(KeyOf(h), KeyOf(s[j]), nl)
    ensures Sorted([h] + s, nl)
  {
    var r := [h] + s;
    forall i, j | 0 <= i < j < |r| ensures KeyLess(KeyOf(r[i]), KeyOf(r[j]), nl) {
      assert r[j] == s[j - 1];
      if i > 0 { assert r[i] == s[i - 1]; }
    }
  }

  /** A row below the head of a sorted list is below all of it. */
  lemma InsertFront(x: Row, s: seq<Row>, nl: bool)
    requires Sorted(s, nl) && s != [] && KeyLess(KeyOf(x), KeyOf(s[0]), nl)
    ensures Sorted([x] + s, nl)
  {
    forall j | 0 <= j < |s| ensures KeyLess(KeyOf(x), KeyOf(s[j]), nl) {
      if j > 0 { KeyLessStrictTotal(KeyOf(x), KeyOf(s[0]), KeyOf(s[j]), nl); }
    }
    SortedCons(x, s, nl);
  }

  /** The head stays first when `x` goes behind it. */
  lemma InsertBehind(x: Row, s: seq<Row>, nl: bool)
    requires Sorted(s, nl) && s != [] && s[0].id != x.id && !KeyLess(KeyOf(x), KeyOf(s[0]), nl)
    requires Sorted(Insert(x, s[1..], nl), nl)
    ensures Sorted([s[0]] + Insert(x, s[1..], nl), nl)
  {
    var rest := Insert(x, s[1..], nl);
    InsertMembers(x, s[1..], nl);
    KeyLessStrictTotal(KeyOf(s[0]), KeyOf(x), KeyOf(x), nl);
    forall j | 0 <= j < |rest| ensures KeyLess(KeyOf(s[0]), KeyOf(rest[j]), nl) {
      var y := rest[j];
      assert y in rest;
      if y != x {
        var k :| 0 <= k < |s[1..]| && s[1..][k] == y;
        assert s[k + 1] == y;
      }
    }
    SortedCons(s[0], rest, nl);
  }

  /** Inserting into a sorted list keeps it sorted and adds exactly `x`. */
  lemma {:induction false} InsertOrdered(x: Row, s: seq<Row>, nl: bool)
    requires Sorted(s, nl)
    requires forall i :: 0 <= i < |s| ==> s[i].id != x.id
    ensures multiset(Insert(x, s, nl)) == multiset(s) + multiset{x}
    ensures Sorted(Insert(x, s, nl), nl)
  {
    InsertCount(x, s, nl);
    if s != [] {
      if KeyLess(KeyOf(x), KeyOf(s[0]), nl) {
        InsertFront(x, s, nl);
      } else {
        InsertOrdered(x, s[1..], nl);
        InsertBehind(x, s, nl);
      }
    }
  }

  /** Dropping the head keeps the ids distinct. */
  lemma DistinctIdsTail(s: seq<Row>)
    requires DistinctIds(s) && s != []
    ensures DistinctIds(s[1..])
  {
    var rest := s[1..];
    forall i, j | 0 <= i < j < |rest| ensures rest[i].id != rest[j].id {
      assert rest[i] == s[i + 1] && rest[j] == s[j + 1];
    }
  }

  lemma HeadIdFresh(s: seq<Row>, x: Row)
    requires DistinctIds(s) && s != [] && x in s[1..]
    ensures x.id != s[0].id
  {
    var j :| 0 <= j < |s[1..]| && s[1..][j] == x;
    assert s[j + 1] == x;
  }

  /** Listing a collection yields the same rows, each once, in ascending key
      order. */
  lemma {:induction false} OrderRowsCorrect(s: seq<Row>, nl: bool)
    requires DistinctIds(s)
    ensures multiset(OrderRows(s, nl)) == multiset(s)
    ensures Sorted(OrderRows(s, nl), nl)
  {
    if s != [] {
      var head, rest := s[0], s[1..];
      DistinctIdsTail(s);
      OrderRowsCorrect(rest, nl);
      var tail := OrderRows(rest, nl);
      forall i | 0 <= i < |tail| ensures tail[i].id != head.id {
        assert tail[i] in multiset(rest);
        HeadIdFresh(s, tail[i]);
      }
      InsertOrdered(head, tail, nl);
      assert s == [head] + rest;
    }
  }
}

=== FILE: profile_page.dfy ===
/** The profile page: the profile header with its draft, the resume upload,
    and one add-or-edit form per child collection that saves through the
    collection or detail endpoint and then reloads the page's data. Each
    awaited `apiFetch` is an outcome passed in; a rejected one ends the
    handler before any state changes (the handlers have no `catch`). */
module ProfilePage {
  import opened Common
  import opened ApiGateway
  import opened PageCommon
  import opened UriEncoding
  import ProfileModels

  type Kind = ProfileModels.Kind

  /** A JavaScript number as the forms hold it: `Number(input)` of a text box
      is a number or `NaN`. */
  datatype Num = Finite(n: int) | NaN

  /** One entry of a collection as the form edits it. `id` is 0 for a new
      entry. */
  datatype Entry =
    | SkillEntry(id: int, name: string, proficiency: string, order: Num)
    | ExperienceEntry(id: int, company: string, title: string, location: string,
                      startedOn: string, endDate: Option<string>, isCurrent: bool,
                      description: string, order: Num)
    | EducationEntry(id: int, school: string, degree: string, fieldOfStudy: string,
                     startDate: Option<string>, endDate: Option<string>, description: string, order: Num)
    | CertificationEntry(id: int, name: string, issuer: string, issueDate: Option<string>,
                         expirationDate: Option<string>, credentialUrl: string, order: Num)
    | AchievementEntry(id: int, title: string, description: string, date: Option<string>, order: Num)

  function KindOf(e: Entry): Kind {
    match e
    case SkillEntry(_, _, _, _) => ProfileModels.Skills
    case ExperienceEntry(_, _, _, _, _, _, _, _, _) => ProfileModels.Experiences
    case EducationEntry(_, _, _, _, _, _, _, _) => ProfileModels.Educations
    case CertificationEntry(_, _, _, _, _, _, _) => ProfileModels.Certifications
    case AchievementEntry(_, _, _, _, _) => ProfileModels.Achievements
  }

  /** `emptySkill`, `emptyExperience`, ...: id 0, blank text, null dates. */
  function EmptyEntry(k: Kind): (e: Entry)
    ensures KindOf(e) == k && e.id == 0 && e.order == Finite(0)
  {
    match k
    case Skills => SkillEntry(0, "", "", Finite(0))
    case Experiences => ExperienceEntry(0, "", "", "", "", None, false, "", Finite(0))
    case Educations => EducationEntry(0, "", "", "", None, None, "", Finite(0))
    case Certifications => CertificationEntry(0, "", "", None, None, "", Finite(0))
    case Achievements => AchievementEntry(0, "", "", None, Finite(0))
  }

  function Segment(k: Kind): string {
    match k
    case Skills => "skills"
    case Experiences => "experiences"
    case Educations => "educations"
    case Certifications => "certifications"
    case Achievements => "achievements"
  }

  function CollectionPath(k: Kind): string { "/profiles/" + Segment(k) + "/" }

  function DetailPath(k: Kind, id: int): string { CollectionPath(k) + IntToString(id) + "/" }

  /** The detail path extends the collection path, so the two never
      coincide. */
  lemma DetailExtendsCollection(k: Kind, id: int)
    ensures StartsWith(DetailPath(k, id), CollectionPath(k))
    ensures |DetailPath(k, id)| > |CollectionPath(k)|
    ensures DetailPath(k, id) != CollectionPath(k)
  {
    assert DetailPath(k, id)[..|CollectionPath(k)|] == CollectionPath(k);
  }

  /** The save URL: the detail path when the edited id is truthy and
      positive, the collection path otherwise. */
  function SaveUrl(k: Kind, editingId: Option<int>): (url: string)
    ensures editingId.Some? && editingId.value > 0 ==> url == DetailPath(k, editingId.value)
    ensures !(editingId.Some? && editingId.value > 0) ==> url == CollectionPath(k)
  {
    if editingId.Some? && editingId.value != 0 && editingId.value > 0 then DetailPath(k, editingId.value)
    else CollectionPath(k)
  }

  /** The save method: PATCH when the edited id is truthy (not null, not 0). */
  function SaveMethod(editingId: Option<int>): (m: HttpMethod)
    ensures m == PATCH <==> editingId.Some? && editingId.value != 0
    ensures m != PATCH ==> m == POST
  {
    if editingId.Some? && editingId.value != 0 then PATCH else POST
  }

  /** For the ids the server hands out (positive) and for a new entry
      (null, or the empty entry's 0), the URL and the method agree: PATCH
      goes to the detail path and POST to the collection. */
  lemma SaveTargetAgrees(k: Kind, editingId: Option<int>)
    requires editingId.None? || editingId.value >= 0
    ensures SaveMethod(editingId) == PATCH <==>
      (editingId.Some? && SaveUrl(k, editingId) == DetailPath(k, editingId.value))
    ensures SaveMethod(editingId) == POST <==> SaveUrl(k, editingId) == CollectionPath(k)
  {
    if editingId.Some? {
      DetailExtendsCollection(k, editingId.value);
    }
  }

  /** A negative id is truthy but not positive: the page then sends PATCH to
      the collection path. */
  lemma NegativeIdPatchesCollection(k: Kind, id: int)
    requires id < 0
    ensures SaveMethod(Some(id)) == PATCH && SaveUrl(k, Some(id)) == CollectionPath(k)
  {
  }

  /** `Number(order) || 0`: `NaN` and 0 both become 0. */
  function OrderValue(o: Num): (v: int)
    ensures v == 0 <==> o.NaN? || o.n == 0
    ensures o.Finite? ==> v == o.n
  {
    match o
    case NaN => 0
    case Finite(n) => if n != 0 then n else 0
  }

  function Nullable(s: Option<string>): Json {
    if s.Some? then JStr(s.value) else JNull
  }

  /** The JSON body of a save: the entry's own fields, the normalised order,
      never the id; an experience marked current is sent without an end date. */
  function Payload(e: Entry): (p: seq<(string, Json)>)
    ensures Lookup(p, "order") == Some(JNum(OrderValue(e.order)))
    ensures Lookup(p, "id").None?
    ensures e.ExperienceEntry? ==>
      Lookup(p, "end_date") == Some(if e.isCurrent then JNull else Nullable(e.endDate))
      && Lookup(p, "is_current") == Some(JBool(e.isCurrent))
  {
    var fields := EntryFields(e);
    var p := fields + [("order", JNum(OrderValue(e.order)))];
    assert p[..|p| - 1] == fields;
    if e.ExperienceEntry? then
      LookupSingle(p, 4);
      LookupSingle(p, 5);
      p
    else p
  }

  /** The entry's own fields, by kind, without `id` and `order`. */
  function EntryFields(e: Entry): (fields: seq<(string, Json)>)
    ensures forall i :: 0 <= i < |fields| ==> fields[i].0 != "id" && fields[i].0 != "order"
    ensures e.ExperienceEntry? ==>
      |fields| == 7 && fields[4] == ("end_date", if e.isCurrent then JNull else Nullable(e.endDate))
      && fields[5] == ("is_current", JBool(e.isCurrent))
      && (forall i :: 0 <= i < 7 && i != 4 ==> fields[i].0 != "end_date")
      && (forall i :: 0 <= i < 7 && i != 5 ==> fields[i].0 != "is_current")
  {
    match e
    case SkillEntry(_, name, proficiency, _) =>
      [("name", JStr(name)), ("proficiency", JStr(proficiency))]
    case ExperienceEntry(_, company, title, location, startedOn, endDate, isCurrent, description, _) =>
      [("company", JStr(company)), ("title", JStr(title)), ("location", JStr(location)),
       ("start_date", JStr(startedOn)), ("end_date", if isCurrent then JNull else Nullable(endDate)),
       ("is_current", JBool(isCurrent)), ("description", JStr(description))]
    case EducationEntry(_, school, degree, fieldOfStudy, startDate, endDate, description, _) =>
      [("school", JStr(school)), ("degree", JStr(degree)), ("field_of_study", JStr(fieldOfStudy)),
       ("start_date", Nullable(startDate)), ("end_date", Nullable(endDate)),
       ("description", JStr(description))]
    case CertificationEntry(_, name, issuer, issueDate, expirationDate, credentialUrl, _) =>
      [("name", JStr(name)), ("issuer", JStr(issuer)), ("issue_date", Nullable(issueDate)),
       ("expiration_date", Nullable(expirationDate)), ("credential_url", JStr(credentialUrl))]
    case AchievementEntry(_, title, description, date, _) =>
      [("title", JStr(title)), ("description", JStr(description)), ("date", Nullable(date))]
  }

  /** `?v=<updated_at>` when there is a timestamp. */
  function CacheBuster(updatedAt: string): string {
    if updatedAt != "" then "?v=" + EncodeURIComponent(updatedAt) else ""
  }

  /** `resumeUrl`: nothing without a resume file; otherwise the file's URL
      (absolute as given, or under the API base) with the cache buster. */
  function ResumeUrl(base: string, resumeFile: Option<string>, updatedAt: string): (url: Option<string>)
    ensures url.None? <==> !TextTruthy(resumeFile)
    ensures url.Some? ==> url.value == BuildUrl(base, resumeFile.value) + CacheBuster(updatedAt)
  {
    if !TextTruthy(resumeFile) then None
    else Some(BuildUrl(base, resumeFile.value) + CacheBuster(updatedAt))
  }

  /** The cache buster carries the timestamp intact: it is empty exactly for
      an empty timestamp, otherwise its value has no '&' or '#' to cut it
      short and decodes to the timestamp's UTF-8 bytes. */
  lemma CacheBusterCarriesTimestamp(updatedAt: string)
    ensures CacheBuster(updatedAt) == "" <==> updatedAt == ""
    ensures updatedAt != "" ==>
      var v := CacheBuster(updatedAt)[3..];
      CacheBuster(updatedAt)[..3] == "?v=" && '&' !in v && '#' !in v && DecodeBytes(v) == Some(Utf8String(updatedAt))
  {
    if updatedAt != "" {
      var v := EncodeURIComponent(updatedAt);
      assert CacheBuster(updatedAt)[3..] == v;
      EncodedHasNoDelimiters(updatedAt);
      EncodeDecodeRoundTrip(updatedAt);
    }
  }

  /** `x ?? ""` on a member of the loaded profile. */
  function OrEmpty(v: Option<Json>): Json {
    if v.None? || v.value.JNull? then JStr("") else v.value
  }

  /** The header draft taken from a loaded profile. */
  function HeaderDraft(data: Json): seq<(string, Json)> {
    [("headline", OrEmpty(Member(data, "headline"))), ("summary", OrEmpty(Member(data, "summary"))),
     ("location", OrEmpty(Member(data, "location"))), ("phone", OrEmpty(Member(data, "phone")))]
  }

  /** What `loadProfile` leaves behind: the user, the profile and its header
      draft, and whether it threw part-way. */
  datatype Loaded = Loaded(user: Json, profile: Json, profileDraft: seq<(string, Json)>, threw: bool)

  /** `loadProfile()`: both requests go out together, so either rejecting
      changes nothing. Then an ok user response sets the user (an unreadable
      body throws before anything is set) and an ok profile response sets
      the profile and the header draft (an unreadable body throws after the
      user was set; a `null` body is stored and then throws). */
  function AfterLoad(before: Loaded, userRes: Reply<Json>, profileRes: Reply<Json>): (r: Loaded)
    ensures userRes.Thrown? || profileRes.Thrown? ==> r == before.(threw := true)
    ensures r.threw <==>
      userRes.Thrown? || profileRes.Thrown? || (IsOk(userRes) && userRes.json.None?)
      || (IsOk(profileRes) && (profileRes.json.None? || profileRes.json.value.JNull?))
    ensures !r.threw ==>
      r.user == (if IsOk(userRes) then userRes.json.value else before.user)
      && (IsOk(profileRes) ==> r.profile == profileRes.json.value && r.profileDraft == HeaderDraft(r.profile))
      && (!IsOk(profileRes) ==> r.profile == before.profile && r.profileDraft == before.profileDraft)
  {
    if userRes.Thrown? || profileRes.Thrown? then before.(threw := true)
    else if IsOk(userRes) && userRes.json.None? then before.(threw := true)
    else
      var user := if IsOk(userRes) then userRes.json.value else before.user;
      if !IsOk(profileRes) then Loaded(user, before.profile, before.profileDraft, false)
      else if profileRes.json.None? then Loaded(user, before.profile, before.profileDraft, true)
      else if profileRes.json.value.JNull? then Loaded(user, JNull, before.profileDraft, true)
      else Loaded(user, profileRes.json.value, HeaderDraft(profileRes.json.value), false)
  }

  /** The state of one collection's form. */
  datatype EntryForm = EntryForm(editingId: Option<int>, draft: Entry, shown: bool)

  const PROFILE_UPDATED := "Profile updated."
  const PROFILE_UPDATE_FAILED := "Unable to update profile."
  const RESUME_UPDATED := "Resume updated."
  const RESUME_UPDATE_FAILED := "Unable to upload resume."
  const UPDATE_ME_PATH := "/profiles/profile/update_me/"

  class ProfileScreen {
    var user: Json
    var profile: Json
    var profileDraft: seq<(string, Json)>
    var isProfileEditing: bool
    var resumeFile: Option<FileRef>
    var statusMessage: string
    var forms: map<Kind, EntryForm>

    /** Every collection has its form. */
    predicate Valid()
      reads this
    {
      forall k: Kind :: k in forms
    }

    function Snapshot(): Loaded
      reads this
    {
      Loaded(user, profile, profileDraft, false)
    }

    constructor ()
      ensures Valid() && user == JNull && profile == JNull && !isProfileEditing && resumeFile.None?
      ensures statusMessage == ""
      ensures forall k: Kind :: forms[k] == EntryForm(None, EmptyEntry(k), false)
    {
      user, profile, isProfileEditing, resumeFile, statusMessage := JNull, JNull, false, None, "";
      profileDraft := [("headline", JStr("")), ("summary", JStr("")), ("location", JStr("")), ("phone", JStr(""))];
      forms := map k: Kind :: EntryForm(None, EmptyEntry(k), false);
    }

    /** `loadProfile()`; `threw` tells the caller that it rejected. */
    method LoadProfile(userRes: Reply<Json>, profileRes: Reply<Json>) returns (threw: bool)
      modifies this
      ensures Loaded(user, profile, profileDraft, threw) == AfterLoad(old(Snapshot()), userRes, profileRes)
      ensures forms == old(forms) && isProfileEditing == old(isProfileEditing)
      ensures resumeFile == old(resumeFile) && statusMessage == old(statusMessage)
    {
      var r := AfterLoad(Snapshot(), userRes, profileRes);
      user, profile, profileDraft, threw := r.user, r.profile, r.profileDraft, r.threw;
    }

    /** The Edit button of an entry: the form opens on it, editing its id. */
    method StartEdit(entry: Entry)
      requires Valid()
      modifies this
      ensures Valid() && forms == old(forms)[KindOf(entry) := EntryForm(Some(entry.id), entry, true)]
    {
      forms := forms[KindOf(entry) := EntryForm(Some(entry.id), entry, true)];
    }

    /** The Add / Close button: toggles the form; opening it starts a new
        entry. */
    method ToggleForm(k: Kind)
      requires Valid()
      modifies this
      ensures Valid()
      ensures old(forms[k].shown) ==> forms == old(forms)[k := old(forms[k]).(shown := false)]
      ensures !old(forms[k].shown) ==> forms == old(forms)[k := EntryForm(None, EmptyEntry(k), true)]
    {
      if forms[k].shown {
        forms := forms[k := forms[k].(shown := false)];
      } else {
        forms := forms[k := EntryForm(None, EmptyEntry(k), true)];
      }
    }

    /** `saveSkill` and its siblings: the request goes to `SaveUrl` with
        `SaveMethod` and the normalised payload. Only an ok answer reloads,
        and only a reload that completes resets the form and hides it; any
        other outcome leaves the form as it was. */
    method Save(k: Kind, saved: FetchOutcome, userRes: Reply<Json>, profileRes: Reply<Json>)
      returns (url: string, verb: HttpMethod, payload: seq<(string, Json)>)
      requires Valid()
      modifies this
      ensures Valid()
      ensures url == SaveUrl(k, old(forms[k].editingId)) && verb == SaveMethod(old(forms[k].editingId))
      ensures payload == Payload(old(forms[k].draft))
      ensures !(saved.Resp? && Ok(saved.status)) ==>
        forms == old(forms) && Snapshot() == old(Snapshot())
      ensures saved.Resp? && Ok(saved.status) ==>
        var r := AfterLoad(old(Snapshot()), userRes, profileRes);
        Snapshot() == r.(threw := false)
        && forms == if r.threw then old(forms) else old(forms)[k := EntryForm(None, EmptyEntry(k), false)]
      ensures isProfileEditing == old(isProfileEditing) && resumeFile == old(resumeFile)
      ensures statusMessage == old(statusMessage)
    {
      var form := forms[k];
      url, verb, payload := SaveUrl(k, form.editingId), SaveMethod(form.editingId), Payload(form.draft);
      if saved.Fail? || !Ok(saved.status) {
        return;
      }
      var threw := LoadProfile(userRes, profileRes);
      if threw {
        return;
      }
      forms := forms[k := EntryForm(None, EmptyEntry(k), false)];
    }

    /** `deleteSkill(id)` and its siblings: a DELETE to the detail path of
        `id`, then a reload whatever the status; the forms are untouched. */
    method Delete(k: Kind, id: int, deleted: FetchOutcome, userRes: Reply<Json>, profileRes: Reply<Json>)
      returns (url: string)
      modifies this
      ensures url == DetailPath(k, id)
      ensures deleted.Fail? ==> Snapshot() == old(Snapshot())
      ensures deleted.Resp? ==> Snapshot() == AfterLoad(old(Snapshot()), userRes, profileRes).(threw := false)
      ensures forms == old(forms) && isProfileEditing == old(isProfileEditing)
      ensures resumeFile == old(resumeFile) && statusMessage == old(statusMessage)
    {
      url := DetailPath(k, id);
      if deleted.Fail? {
        return;
      }
      var _ := LoadProfile(userRes, profileRes);
    }

    /** `updateProfile()`: nothing without a loaded profile. Otherwise the
        header draft is PATCHed; an ok answer reports success, reloads and
        (if the reload completes) closes the header editor; a failed one
        reports the failure. */
    method UpdateProfile(outcome: FetchOutcome, userRes: Reply<Json>, profileRes: Reply<Json>)
      returns (request: Option<(string, HttpMethod, Body)>)
      modifies this
      ensures !JsTruthy(old(profile)) ==>
        request.None? && Snapshot() == old(Snapshot()) && statusMessage == old(statusMessage)
        && isProfileEditing == old(isProfileEditing)
      ensures JsTruthy(old(profile)) ==>
        request == Some((UPDATE_ME_PATH, PATCH, JsonBody(JObj(old(profileDraft)))))
      ensures JsTruthy(old(profile)) && outcome.Fail? ==>
        Snapshot() == old(Snapshot()) && statusMessage == old(statusMessage) && isProfileEditing == old(isProfileEditing)
      ensures JsTruthy(old(profile)) && outcome.Resp? && !Ok(outcome.status) ==>
        Snapshot() == old(Snapshot()) && statusMessage == PROFILE_UPDATE_FAILED && isProfileEditing == old(isProfileEditing)
      ensures JsTruthy(old(profile)) && outcome.Resp? && Ok(outcome.status) ==>
        var r := AfterLoad(old(Snapshot()), userRes, profileRes);
        statusMessage == PROFILE_UPDATED && Snapshot() == r.(threw := false)
        && isProfileEditing == (old(isProfileEditing) && r.threw)
      ensures forms == old(forms) && resumeFile == old(resumeFile)
    {
      request := None;
      if !JsTruthy(profile) {
        return;
      }
      request := Some((UPDATE_ME_PATH, PATCH, JsonBody(JObj(profileDraft))));
      if outcome.Fail? {
        return;
      }
      if Ok(outcome.status) {
        statusMessage := PROFILE_UPDATED;
        var threw := LoadProfile(userRes, profileRes);
        if !threw {
          isProfileEditing := false;
        }
      } else {
        statusMessage := PROFILE_UPDATE_FAILED;
      }
    }

    /** `updateResume()`: nothing without a chosen file. Otherwise the file
        is PATCHed as a form; an ok answer reports success, clears the chosen
        file and reloads; a failed one reports the failure. */
    method UpdateResume(outcome: FetchOutcome, userRes: Reply<Json>, profileRes: Reply<Json>)
      returns (request: Option<(string, HttpMethod, Body)>)
      modifies this
      ensures old(resumeFile).None? ==>
        request.None? && Snapshot() == old(Snapshot()) && statusMessage == old(statusMessage) && resumeFile.None?
      ensures old(resumeFile).Some? ==>
        request == Some((UPDATE_ME_PATH, PATCH, Form([("resume_file", Upload(old(resumeFile).value))])))
      ensures old(resumeFile).Some? && outcome.Fail? ==>
        Snapshot() == old(Snapshot()) && statusMessage == old(statusMessage) && resumeFile == old(resumeFile)
      ensures old(resumeFile).Some? && outcome.Resp? && !Ok(outcome.status) ==>
        Snapshot() == old(Snapshot()) && statusMessage == RESUME_UPDATE_FAILED && resumeFile == old(resumeFile)
      ensures old(resumeFile).Some? && outcome.Resp? && Ok(outcome.status) ==>
        statusMessage == RESUME_UPDATED && resumeFile.None?
        && Snapshot() == AfterLoad(old(Snapshot()), userRes, profileRes).(threw := false)
      ensures forms == old(forms) && isProfileEditing == old(isProfileEditing)
    {
      request := None;
      if resumeFile.None? {
        return;
      }
      request := Some((UPDATE_ME_PATH, PATCH, Form([("resume_file", Upload(resumeFile.value))])));
      if outcome.Fail? {
        return;
      }
      if Ok(outcome.status) {
        statusMessage := RESUME_UPDATED;
        resumeFile := None;
        var _ := LoadProfile(userRes, profileRes);
      } else {
        statusMessage := RESUME_UPDATE_FAILED;
      }
    }
  }
}

=== FILE: profile_views.dfy ===
/** The profile API: the `UserProfileViewSet` endpoints (`me`, `update_me`,
    `onboarding`, `onboarding_submit`, `parse_resume`, and the generic
    update), and the five child viewsets (list/retrieve scoped to the
    requesting user, create, update, destroy, `bulk`). Serializer validation
    and JSON decoding are oracles passed in as parameters; the database is the
    class `ProfileStore`. */
module ProfileViews {
  import opened Common
  import opened ProfileModels

  /** A snapshot of the profile tables. A profile's primary key is its index
      in `profiles`. */
  datatype DbState = DbState(profiles: seq<Profile>, rows: seq<Row>, nextRowId: nat)

  /** Primary keys of child rows are unique and below the next key. */
  ghost predicate ValidState(st: DbState) {
    (forall i :: 0 <= i < |st.rows| ==> st.rows[i].id < st.nextRowId) && DistinctIds(st.rows)
  }

  datatype Body =
    | Message(detail: string)
    | ValidationError
    | ServerError
    | ProfileBody(profile: Profile)
    | DetailBody(profile: Profile, collections: seq<seq<Row>>)
    | OnboardingBody(completeness: nat, needsOnboarding: bool)
    | SubmitBody(profile: Profile, counts: seq<nat>)
    | RowsBody(rows: seq<Row>)
    | RowBody(row: Row)
    | NoContent
    | JsonBody(value: Json)
    | UpstreamError(detail: string, statusCode: int, response: string)
    | InvalidModelOutput(detail: string, rawOutput: string)

  /** An HTTP reply. `ValidationError` stands for a raised serializer error
      (400) and `ServerError` for an unhandled exception (500). */
  datatype Reply = Reply(status: int, body: Body)

  const NotFound := Reply(404, Message("Profile not found."))

  const KINDS := [Skills, Experiences, Educations, Certifications, Achievements]

  // ---------------------------------------------------------------------------
  // Lookups

  function ProfileFrom(profiles: seq<Profile>, user: UserId, k: nat): (r: Option<ProfileId>)
    requires k <= |profiles|
    ensures r.Some? ==> k <= r.value < |profiles| && profiles[r.value].owner == Some(user)
    ensures r.Some? ==> forall j :: k <= j < r.value ==> profiles[j].owner != Some(user)
    ensures r.None? ==> forall j :: k <= j < |profiles| ==> profiles[j].owner != Some(user)
    decreases |profiles| - k
  {
    if k == |profiles| then None
    else if profiles[k].owner == Some(user) then Some(k)
    else ProfileFrom(profiles, user, k + 1)
  }

  /** `UserProfile.objects.filter(user=user).first()`, which is also what
      `user.profile` reaches: the user's profile with the lowest key. */
  function ProfileOf(profiles: seq<Profile>, user: UserId): (r: Option<ProfileId>)
    ensures r.Some? ==> r.value < |profiles| && profiles[r.value].owner == Some(user)
    ensures r.Some? ==> forall j :: 0 <= j < r.value ==> profiles[j].owner != Some(user)
    ensures r.None? <==> forall j :: 0 <= j < |profiles| ==> profiles[j].owner != Some(user)
  {
    ProfileFrom(profiles, user, 0)
  }

  /** A child row is visible to a user when its profile belongs to that user
      (`filter(profile__user=user)`). */
  predicate Visible(profiles: seq<Profile>, user: UserId, r: Row) {
    r.profile.Some? && r.profile.value < |profiles| && profiles[r.profile.value].owner == Some(user)
  }

  function VisibleRows(rows: seq<Row>, profiles: seq<Profile>, user: UserId, kind: Kind): (r: seq<Row>)
    ensures forall x :: x in r <==> x in rows && KindOf(x.data) == kind && Visible(profiles, user, x)
  {
    if rows == [] then []
    else
      (if KindOf(rows[0].data) == kind && Visible(profiles, user, rows[0]) then [rows[0]] else [])
      + VisibleRows(rows[1..], profiles, user, kind)
  }

  /** The visible row of this kind with this primary key (`get_object`). */
  function FindVisible(rows: seq<Row>, profiles: seq<Profile>, user: UserId, kind: Kind, id: RowId)
    : (r: Option<Row>)
    ensures r.Some? ==> r.value in rows && r.value.id == id && KindOf(r.value.data) == kind
    ensures r.Some? ==> Visible(profiles, user, r.value)
    ensures r.None? ==> forall x :: x in rows && x.id == id && KindOf(x.data) == kind ==> !Visible(profiles, user, x)
  {
    if rows == [] then None
    else if rows[0].id == id && KindOf(rows[0].data) == kind && Visible(profiles, user, rows[0]) then Some(rows[0])
    else FindVisible(rows[1..], profiles, user, kind, id)
  }

  // ---------------------------------------------------------------------------
  // Completeness tally

  /** One `if check: score += weight` of `update_profile_completeness`. */
  method AddWhen(score: int, met: bool, weight: int) returns (r: int)
    ensures r == score + (if met then weight else 0)
  {
    r := score;
    if met { r := r + weight; }
  }

  /** The eight checks of `update_profile_completeness`, in order, each
      adding its weight to the running score. */
  method TallyCriteria(c: Criteria) returns (score: int)
    ensures score == RawScore(c)
  {
    score := 0;
    score := AddWhen(score, c.headline, 10);
    score := AddWhen(score, c.summary, 10);
    score := AddWhen(score, c.location, 10);
    score := AddWhen(score, c.resume, 15);
    score := AddWhen(score, c.skills, 15);
    score := AddWhen(score, c.experiences, 20);
    score := AddWhen(score, c.educations, 10);
    score := AddWhen(score, c.certificationsOrAchievements, 10);
  }

  // ---------------------------------------------------------------------------
  // State transitions

  /** `update_profile_completeness` on profile `pid`. */
  function Recompute(st: DbState, pid: ProfileId): DbState
    requires pid < |st.profiles|
  {
    var p := st.profiles[pid];
    st.(profiles := st.profiles[pid := p.(completeness := Some(CompletenessScore(CriteriaOf(p, st.rows, pid))))])
  }

  /** A validated child item, before it has a primary key. */
  datatype NewChild = NewChild(order: Option<nat>, data: ChildData)

  predicate OfKind(items: seq<NewChild>, kind: Kind) {
    forall i :: 0 <= i < |items| ==> KindOf(items[i].data) == kind
  }

  /** The rows `serializer.save(profile=profile)` creates, with consecutive
      fresh keys. */
  function Fresh(items: seq<NewChild>, pid: ProfileId, firstId: nat): (r: seq<Row>)
    ensures |r| == |items|
    ensures forall i :: 0 <= i < |items| ==> r[i] == Row(firstId + i, Some(pid), items[i].order, items[i].data)
  {
    seq(|items|, i requires 0 <= i < |items| => Row(firstId + i, Some(pid), items[i].order, items[i].data))
  }

  /** What a stored row says, without its keys. */
  function Strip(rows: seq<Row>): (r: seq<NewChild>)
    ensures |r| == |rows| && forall i :: 0 <= i < |rows| ==> r[i] == NewChild(rows[i].order, rows[i].data)
  {
    seq(|rows|, i requires 0 <= i < |rows| => NewChild(rows[i].order, rows[i].data))
  }

  /** `Kind.objects.filter(profile=profile).delete()`. */
  function RemoveRows(rows: seq<Row>, pid: ProfileId, kind: Kind): (r: seq<Row>)
    ensures forall x :: x in r <==> x in rows && !BelongsTo(x, pid, kind)
  {
    if rows == [] then []
    else (if BelongsTo(rows[0], pid, kind) then [] else [rows[0]]) + RemoveRows(rows[1..], pid, kind)
  }

  /** Delete the profile's collection of `kind`, then insert `items`. */
  function ReplaceRows(st: DbState, pid: ProfileId, kind: Kind, items: seq<NewChild>): DbState {
    st.(rows := RemoveRows(st.rows, pid, kind) + Fresh(items, pid, st.nextRowId),
        nextRowId := st.nextRowId + |items|)
  }

  /** Deleting a collection empties it and leaves every other one as it was. */
  lemma {:induction false} RowsOfRemove(rows: seq<Row>, pid: ProfileId, kind: Kind, p: ProfileId, k: Kind)
    ensures RowsOf(RemoveRows(rows, pid, kind), p, k) == if p == pid && k == kind then [] else RowsOf(rows, p, k)
  {
    if rows != [] {
      RowsOfRemove(rows[1..], pid, kind, p, k);
      var t := RemoveRows(rows[1..], pid, kind);
      assert RowsOf(rows, p, k) == (if BelongsTo(rows[0], p, k) then [rows[0]] else []) + RowsOf(rows[1..], p, k);
      if !BelongsTo(rows[0], pid, kind) {
        var r := [rows[0]] + t;
        assert r[0] == rows[0] && r[1..] == t;
        assert RowsOf(r, p, k) == (if BelongsTo(rows[0], p, k) then [rows[0]] else []) + RowsOf(t, p, k);
      } else {
        assert RemoveRows(rows, pid, kind) == t;
      }
    }
  }

  lemma {:induction false} RowsOfFresh(items: seq<NewChild>, pid: ProfileId, firstId: nat, p: ProfileId, k: Kind,
                                       kind: Kind)
    requires OfKind(items, kind)
    ensures RowsOf(Fresh(items, pid, firstId), p, k) == if p == pid && k == kind then Fresh(items, pid, firstId) else []
  {
    if items != [] {
      var f := Fresh(items, pid, firstId);
      assert f[1..] == Fresh(items[1..], pid, firstId + 1);
      RowsOfFresh(items[1..], pid, firstId + 1, p, k, kind);
      assert f == [f[0]] + f[1..];
    }
  }

  /** After a replacement the collection holds exactly the submitted items. */
  lemma ReplaceExact(st: DbState, pid: ProfileId, kind: Kind, items: seq<NewChild>)
    requires OfKind(items, kind)
    ensures RowsOf(ReplaceRows(st, pid, kind, items).rows, pid, kind) == Fresh(items, pid, st.nextRowId)
    ensures Strip(RowsOf(ReplaceRows(st, pid, kind, items).rows, pid, kind)) == items
  {
    var removed := RemoveRows(st.rows, pid, kind);
    var added := Fresh(items, pid, st.nextRowId);
    RowsOfAppend(removed, added, pid, kind);
    RowsOfFresh(items, pid, st.nextRowId, pid, kind, kind);
    RowsOfRemove(st.rows, pid, kind, pid, kind);
    assert RowsOf(removed + added, pid, kind) == added;
  }

  /** A replacement touches no other collection and no profile. */
  lemma ReplaceFrame(st: DbState, pid: ProfileId, kind: Kind, items: seq<NewChild>, p: ProfileId, k: Kind)
    requires OfKind(items, kind)
    requires p != pid || k != kind
    ensures RowsOf(ReplaceRows(st, pid, kind, items).rows, p, k) == RowsOf(st.rows, p, k)
    ensures ReplaceRows(st, pid, kind, items).profiles == st.profiles
  {
    var removed := RemoveRows(st.rows, pid, kind);
    RowsOfAppend(removed, Fresh(items, pid, st.nextRowId), p, k);
    RowsOfFresh(items, pid, st.nextRowId, p, k, kind);
    RowsOfRemove(st.rows, pid, kind, p, k);
  }

  lemma {:induction false} RemoveRowsKeepsKeys(rows: seq<Row>, pid: ProfileId, kind: Kind)
    requires DistinctIds(rows)
    ensures DistinctIds(RemoveRows(rows, pid, kind))
  {
    if rows != [] {
      var rest := rows[1..];
      assert DistinctIds(rest) by {
        forall i, j | 0 <= i < j < |rest| ensures rest[i].id != rest[j].id {
          assert rest[i] == rows[i + 1] && rest[j] == rows[j + 1];
        }
      }
      RemoveRowsKeepsKeys(rest, pid, kind);
      var r := RemoveRows(rest, pid, kind);
      forall x | x in r ensures x.id != rows[0].id {
        HeadIdFresh(rows, x);
      }
    }
  }

  /** Replacing a collection keeps primary keys unique. */
  lemma ReplaceKeepsValid(st: DbState, pid: ProfileId, kind: Kind, items: seq<NewChild>)
    requires ValidState(st)
    ensures ValidState(ReplaceRows(st, pid, kind, items))
  {
    var removed := RemoveRows(st.rows, pid, kind);
    var added := Fresh(items, pid, st.nextRowId);
    RemoveRowsKeepsKeys(st.rows, pid, kind);
    var all := removed + added;
    forall i | 0 <= i < |removed| ensures removed[i].id < st.nextRowId {
      assert removed[i] in st.rows;
    }
    forall i, j | 0 <= i < j < |all| ensures all[i].id != all[j].id {
      if j < |removed| {
      } else if i >= |removed| {
        assert all[i] == added[i - |removed|] && all[j] == added[j - |removed|];
      } else {
        assert all[j] == added[j - |removed|];
      }
    }
  }

  // ---------------------------------------------------------------------------
  // onboarding_submit

  /** `parse_payload`: a missing or null value gives the fallback, a string is
      decoded as JSON (falling back when it is not JSON), and any other value
      is used as it is. */
  function ParsePayload(value: Option<Json>, fallback: Json, decode: string -> Option<Json>): (r: Json)
    ensures value.None? || value == Some(JNull) ==> r == fallback
    ensures (value.Some? && value.value.JStr?) ==>
      r == (if decode(value.value.s).Some? then decode(value.value.s).value else fallback)
    ensures (value.Some? && value.value != JNull && !value.value.JStr?) ==> r == value.value
  {
    match value
    case None => fallback
    case Some(JNull) => fallback
    case Some(JStr(text)) =>
      (match decode(text)
       case Some(v) => v
       case None => fallback)
    case Some(v) => v
  }

  /** What the onboarding page sends (a JSON text per field) comes back as the
      value that was encoded, whatever the fallback. */
  lemma ParsePayloadOfEncoded(x: Json, fallback: Json, encode: Json -> string, decode: string -> Option<Json>)
    requires decode(encode(x)) == Some(x)
    ensures ParsePayload(Some(JStr(encode(x))), fallback, decode) == x
  {
  }

  /** The five collection payloads of a submission, in the order the view
      processes them. */
  function SubmitPayloads(data: seq<(string, Json)>, decode: string -> Option<Json>): (r: seq<(Kind, Json)>)
    ensures |r| == 5 && forall i :: 0 <= i < 5 ==> r[i].0 == KINDS[i]
  {
    [(Skills, ParsePayload(Lookup(data, "skills"), JArr([]), decode)),
     (Experiences, ParsePayload(Lookup(data, "experiences"), JArr([]), decode)),
     (Educations, ParsePayload(Lookup(data, "educations"), JArr([]), decode)),
     (Certifications, ParsePayload(Lookup(data, "certifications"), JArr([]), decode)),
     (Achievements, ParsePayload(Lookup(data, "achievements"), JArr([]), decode))]
  }

  /** A partial update of the writable profile fields: `Some(v)` means the
      field was submitted with value `v`. `profile_completeness` is read-only
      and cannot be submitted. */
  datatype ProfilePatch = ProfilePatch(
    headline: Option<Option<string>>,
    summary: Option<Option<string>>,
    location: Option<Option<string>>,
    phone: Option<Option<string>>,
    resumeFile: Option<Option<StoredFile>>)

  function Pick<T>(given: Option<T>, current: T): T {
    if given.Some? then given.value else current
  }

  function ApplyPatch(p: Profile, patch: ProfilePatch): (q: Profile)
    ensures q.owner == p.owner && q.completeness == p.completeness
  {
    p.(headline := Pick(patch.headline, p.headline),
       summary := Pick(patch.summary, p.summary),
       location := Pick(patch.location, p.location),
       phone := Pick(patch.phone, p.phone),
       resumeFile := Pick(patch.resumeFile, p.resumeFile))
  }

  /** Profile serializer validation: the field parser is an oracle, an
      uploaded file overrides any `resume_file` in the payload, and the
      resume-size validator runs on the result. */
  function CheckProfile(payload: Json, file: Option<StoredFile>, validateProfile: Json -> Option<ProfilePatch>)
    : (r: Option<ProfilePatch>)
    ensures r.Some? ==> validateProfile(payload).Some?
    ensures r.Some? && FileTruthy(file) ==> r.value.resumeFile == Some(file)
    ensures r.Some? && r.value.resumeFile.Some? ==> ValidateResumeSize(r.value.resumeFile.value).None?
  {
    match validateProfile(payload)
    case None => None
    case Some(patch) =>
      var patched := if FileTruthy(file) then patch.(resumeFile := Some(file)) else patch;
      if patched.resumeFile.Some? && ValidateResumeSize(patched.resumeFile.value).Some? then None
      else Some(patched)
  }

  /** The collection blocks of `onboarding_submit`, run in order: a falsy
      payload is skipped; a truthy one is validated and, only if valid,
      replaces the collection. The first invalid payload stops the run and
      its index is reported; replacements made before it stay. */
  function ReplaceAll(st: DbState, pid: ProfileId, payloads: seq<(Kind, Json)>,
                      validateRows: (Kind, Json) -> Option<seq<NewChild>>): (r: (DbState, Option<nat>))
    ensures r.0.profiles == st.profiles
    ensures r.1.Some? ==> r.1.value < |payloads|
    decreases |payloads|
  {
    if payloads == [] then (st, None)
    else
      var (kind, payload) := payloads[0];
      if !PyTruthy(payload) then
        var (fin, failed) := ReplaceAll(st, pid, payloads[1..], validateRows);
        (fin, Shift(failed, 1))
      else match validateRows(kind, payload)
        case None => (st, Some(0))
        case Some(items) =>
          var (fin, failed) := ReplaceAll(ReplaceRows(st, pid, kind, items), pid, payloads[1..], validateRows);
          (fin, Shift(failed, 1))
  }

  /** An index into a suffix, as an index into the whole list. */
  function Shift(i: Option<nat>, offset: nat): (r: Option<nat>)
    ensures r.Some? <==> i.Some?
    ensures r.Some? ==> r.value == i.value + offset
  {
    if i.Some? then Some(i.value + offset) else None
  }

  /** Validated rows are of the kind they were validated for. */
  ghost predicate WellKinded(validateRows: (Kind, Json) -> Option<seq<NewChild>>) {
    forall k: Kind, j: Json :: validateRows(k, j).Some? ==> OfKind(validateRows(k, j).value, k)
  }

  predicate DistinctKinds(payloads: seq<(Kind, Json)>) {
    forall i, j :: 0 <= i < j < |payloads| ==> payloads[i].0 != payloads[j].0
  }

  /** The tail of a list with distinct kinds has distinct kinds, none of
      them the head's. */
  lemma DistinctTail(payloads: seq<(Kind, Json)>)
    requires DistinctKinds(payloads) && payloads != []
    ensures DistinctKinds(payloads[1..])
    ensures forall a :: 0 <= a < |payloads| - 1 ==> payloads[1..][a].0 != payloads[0].0
  {
    var rest := payloads[1..];
    forall a, b | 0 <= a < b < |rest| ensures rest[a].0 != rest[b].0 {
      assert rest[a] == payloads[a + 1] && rest[b] == payloads[b + 1];
    }
    forall a | 0 <= a < |rest| ensures rest[a].0 != payloads[0].0 {
      assert rest[a] == payloads[a + 1];
    }
  }

  /** The run leaves profiles alone, and every collection it does not name
      (or that belongs to another profile) keeps its rows. */
  lemma {:induction false} ReplaceAllFrame(st: DbState, pid: ProfileId, payloads: seq<(Kind, Json)>,
                                           validateRows: (Kind, Json) -> Option<seq<NewChild>>, p: ProfileId, k: Kind)
    requires WellKinded(validateRows)
    requires p != pid || forall i :: 0 <= i < |payloads| ==> payloads[i].0 != k
    ensures RowsOf(ReplaceAll(st, pid, payloads, validateRows).0.rows, p, k) == RowsOf(st.rows, p, k)
    decreases |payloads|
  {
    if payloads != [] {
      var (kind, payload) := payloads[0];
      if !PyTruthy(payload) {
        ReplaceAllFrame(st, pid, payloads[1..], validateRows, p, k);
      } else if validateRows(kind, payload).Some? {
        var items := validateRows(kind, payload).value;
        ReplaceFrame(st, pid, kind, items, p, k);
        ReplaceAllFrame(ReplaceRows(st, pid, kind, items), pid, payloads[1..], validateRows, p, k);
      }
    }
  }

  /** A reported failure points at a truthy payload that did not validate. */
  lemma {:induction false} ReplaceAllFailure(st: DbState, pid: ProfileId, payloads: seq<(Kind, Json)>,
                                             validateRows: (Kind, Json) -> Option<seq<NewChild>>)
    ensures var failed := ReplaceAll(st, pid, payloads, validateRows).1;
      failed.Some? ==>
        failed.value < |payloads| && PyTruthy(payloads[failed.value].1)
        && validateRows(payloads[failed.value].0, payloads[failed.value].1).None?
    decreases |payloads|
  {
    if payloads != [] {
      var (kind, payload) := payloads[0];
      if !PyTruthy(payload) {
        ReplaceAllFailure(st, pid, payloads[1..], validateRows);
      } else if validateRows(kind, payload).Some? {
        var items := validateRows(kind, payload).value;
        ReplaceAllFailure(ReplaceRows(st, pid, kind, items), pid, payloads[1..], validateRows);
      }
    }
  }

  /** The run reports no failure exactly when every truthy payload
      validates. */
  lemma {:induction false} ReplaceAllSucceeds(st: DbState, pid: ProfileId, payloads: seq<(Kind, Json)>,
                                              validateRows: (Kind, Json) -> Option<seq<NewChild>>)
    ensures ReplaceAll(st, pid, payloads, validateRows).1.None? <==>
      forall j :: 0 <= j < |payloads| && PyTruthy(payloads[j].1) ==> validateRows(payloads[j].0, payloads[j].1).Some?
    decreases |payloads|
  {
    ReplaceAllFailure(st, pid, payloads, validateRows);
    if payloads != [] {
      var (kind, payload) := payloads[0];
      var rest := payloads[1..];
      assert forall j :: 1 <= j < |payloads| ==> payloads[j] == rest[j - 1];
      if !PyTruthy(payload) {
        ReplaceAllSucceeds(st, pid, rest, validateRows);
      } else if validateRows(kind, payload).Some? {
        ReplaceAllSucceeds(ReplaceRows(st, pid, kind, validateRows(kind, payload).value), pid, rest, validateRows);
      }
    }
  }

  /** The outcome for each named collection: if its payload is truthy and the
      run got past it, it now holds exactly its validated items; otherwise
      (falsy payload, the failing one, or after the failure) it keeps its old
      rows. A reported failure is a truthy payload that did not validate. */
  lemma {:induction false} ReplaceAllEffect(st: DbState, pid: ProfileId, payloads: seq<(Kind, Json)>,
                                            validateRows: (Kind, Json) -> Option<seq<NewChild>>, i: nat)
    requires WellKinded(validateRows) && DistinctKinds(payloads) && i < |payloads|
    ensures var (fin, failed) := ReplaceAll(st, pid, payloads, validateRows);
      (failed.Some? ==>
         failed.value < |payloads| && PyTruthy(payloads[failed.value].1)
         && validateRows(payloads[failed.value].0, payloads[failed.value].1).None?)
      && (if PyTruthy(payloads[i].1) && (failed.None? || i < failed.value)
          then validateRows(payloads[i].0, payloads[i].1).Some?
            && Strip(RowsOf(fin.rows, pid, payloads[i].0)) == validateRows(payloads[i].0, payloads[i].1).value
          else RowsOf(fin.rows, pid, payloads[i].0) == RowsOf(st.rows, pid, payloads[i].0))
    decreases |payloads|
  {
    var (kind, payload) := payloads[0];
    var rest := payloads[1..];
    DistinctTail(payloads);
    ReplaceAllFailure(st, pid, payloads, validateRows);
    if !PyTruthy(payload) {
      var tail := ReplaceAll(st, pid, rest, validateRows);
      assert ReplaceAll(st, pid, payloads, validateRows) == (tail.0, Shift(tail.1, 1));
      if i == 0 {
        ReplaceAllFrame(st, pid, rest, validateRows, pid, kind);
      } else {
        ReplaceAllEffect(st, pid, rest, validateRows, i - 1);
        assert rest[i - 1] == payloads[i];
      }
    } else if validateRows(kind, payload).None? {
    } else {
      var items := validateRows(kind, payload).value;
      var st1 := ReplaceRows(st, pid, kind, items);
      var tail := ReplaceAll(st1, pid, rest, validateRows);
      assert ReplaceAll(st, pid, payloads, validateRows) == (tail.0, Shift(tail.1, 1));
      if i == 0 {
        ReplaceAllFrame(st1, pid, rest, validateRows, pid, kind);
        ReplaceExact(st, pid, kind, items);
      } else {
        ReplaceAllEffect(st1, pid, rest, validateRows, i - 1);
        assert rest[i - 1] == payloads[i];
        ReplaceFrame(st, pid, kind, items, pid, payloads[i].0);
      }
    }
  }

  /** `onboarding_submit` as a function of the tables before the request. */
  function Submit(st: DbState, user: UserId, data: seq<(string, Json)>, file: Option<StoredFile>,
                  decode: string -> Option<Json>, validateProfile: Json -> Option<ProfilePatch>,
                  validateRows: (Kind, Json) -> Option<seq<NewChild>>): (DbState, Reply)
  {
    match ProfileOf(st.profiles, user)
    case None => (st, NotFound)
    case Some(pid) =>
      SubmitFor(st, pid, ParsePayload(Lookup(data, "profile"), JObj([]), decode), file,
                SubmitPayloads(data, decode), validateProfile, validateRows)
  }

  /** The body of `onboarding_submit` once the profile is found and the
      payloads are parsed. */
  function SubmitFor(st: DbState, pid: ProfileId, profilePayload: Json, file: Option<StoredFile>,
                     payloads: seq<(Kind, Json)>, validateProfile: Json -> Option<ProfilePatch>,
                     validateRows: (Kind, Json) -> Option<seq<NewChild>>): (DbState, Reply)
    requires pid < |st.profiles|
  {
    if FileTruthy(file) && !profilePayload.JObj? then (st, Reply(500, ServerError))
    else match CheckProfile(profilePayload, if FileTruthy(file) then file else None, validateProfile)
      case None => (st, Reply(400, ValidationError))
      case Some(patch) =>
        var st1 := st.(profiles := st.profiles[pid := ApplyPatch(st.profiles[pid], patch)]);
        var (st2, failed) := ReplaceAll(st1, pid, payloads, validateRows);
        if failed.Some? then (st2, Reply(400, ValidationError))
        else
          var st3 := Recompute(st2, pid);
          (st3, Reply(200, SubmitBody(st3.profiles[pid], Counts(st3.rows, pid))))
  }

  /** The `<kind>_count` values of the reply, in the order of `KINDS`. */
  function Counts(rows: seq<Row>, pid: ProfileId): (r: seq<nat>)
    ensures |r| == 5 && forall i :: 0 <= i < 5 ==> r[i] == |RowsOf(rows, pid, KINDS[i])|
  {
    [|RowsOf(rows, pid, Skills)|, |RowsOf(rows, pid, Experiences)|, |RowsOf(rows, pid, Educations)|,
     |RowsOf(rows, pid, Certifications)|, |RowsOf(rows, pid, Achievements)|]
  }

  /** The submission contract for one named collection: an empty or missing
      payload never touches it; a 200 means a truthy payload now holds exactly
      its validated items, the counts are the final sizes and the completeness
      is freshly computed; a 400 or 500 leaves the collection as it was unless
      its own replacement came before the failing one. */
  lemma {:induction false} SubmitForContract(st: DbState, pid: ProfileId, profilePayload: Json,
                                             file: Option<StoredFile>, payloads: seq<(Kind, Json)>,
                                             validateProfile: Json -> Option<ProfilePatch>,
                                             validateRows: (Kind, Json) -> Option<seq<NewChild>>, i: nat)
    requires pid < |st.profiles| && WellKinded(validateRows) && DistinctKinds(payloads) && i < |payloads|
    ensures var (fin, reply) := SubmitFor(st, pid, profilePayload, file, payloads, validateProfile, validateRows);
      var (kind, payload) := payloads[i];
      (!PyTruthy(payload) ==> RowsOf(fin.rows, pid, kind) == RowsOf(st.rows, pid, kind))
      && (reply.status == 200 ==>
            fin.profiles[pid].completeness == Some(CompletenessScore(CriteriaOf(fin.profiles[pid], fin.rows, pid)))
            && reply.body == SubmitBody(fin.profiles[pid], Counts(fin.rows, pid))
            && (PyTruthy(payload) ==>
                  validateRows(kind, payload).Some?
                  && Strip(RowsOf(fin.rows, pid, kind)) == validateRows(kind, payload).value))
  {
    var patch := CheckProfile(profilePayload, if FileTruthy(file) then file else None, validateProfile);
    if !(FileTruthy(file) && !profilePayload.JObj?) && patch.Some? {
      var st1 := st.(profiles := st.profiles[pid := ApplyPatch(st.profiles[pid], patch.value)]);
      ReplaceAllEffect(st1, pid, payloads, validateRows, i);
      var (st2, failed) := ReplaceAll(st1, pid, payloads, validateRows);
      if failed.None? {
        RecomputeSettles(st2, pid);
      }
    }
  }

  /** The reply of `onboarding_submit` for a found profile: 500 when a file
      comes with a profile payload that is not an object (the assignment
      into it raises), 400 when the profile data or some truthy collection
      payload fails validation, 200 otherwise. The profile row is saved with
      the validated fields before any collection is touched, so it stays
      saved on a later 400; a 500 or a profile 400 changes nothing. Only a
      200 recomputes the completeness, after the five collections, and
      reports the saved profile and the final size of each collection. */
  lemma SubmitForOutcome(st: DbState, pid: ProfileId, profilePayload: Json, file: Option<StoredFile>,
                         payloads: seq<(Kind, Json)>, validateProfile: Json -> Option<ProfilePatch>,
                         validateRows: (Kind, Json) -> Option<seq<NewChild>>)
    requires pid < |st.profiles|
    ensures var (fin, reply) := SubmitFor(st, pid, profilePayload, file, payloads, validateProfile, validateRows);
      var patch := CheckProfile(profilePayload, if FileTruthy(file) then file else None, validateProfile);
      var broken := FileTruthy(file) && !profilePayload.JObj?;
      var invalid := exists j :: 0 <= j < |payloads| && PyTruthy(payloads[j].1)
                                 && validateRows(payloads[j].0, payloads[j].1).None?;
      (reply.status == 500 <==> broken)
      && (reply.status == 400 <==> !broken && (patch.None? || invalid))
      && (reply.status == 200 <==> !broken && patch.Some? && !invalid)
      && (broken || patch.None? ==> fin == st)
      && |fin.profiles| == |st.profiles|
      && (forall q :: 0 <= q < |st.profiles| && q != pid ==> fin.profiles[q] == st.profiles[q])
      && (!broken && patch.Some? ==>
            fin.profiles[pid] == ApplyPatch(st.profiles[pid], patch.value).(completeness := fin.profiles[pid].completeness))
      && (reply.status == 200 ==> reply.body == SubmitBody(fin.profiles[pid], Counts(fin.rows, pid)))
  {
    var patch := CheckProfile(profilePayload, if FileTruthy(file) then file else None, validateProfile);
    if !(FileTruthy(file) && !profilePayload.JObj?) && patch.Some? {
      var st1 := st.(profiles := st.profiles[pid := ApplyPatch(st.profiles[pid], patch.value)]);
      ReplaceAllSucceeds(st1, pid, payloads, validateRows);
    }
  }

  /** After `Recompute` the profile's stored completeness is the score of its
      own checks, and no row has moved. */
  lemma RecomputeSettles(st: DbState, pid: ProfileId)
    requires pid < |st.profiles|
    ensures var st3 := Recompute(st, pid);
      st3.rows == st.rows && |st3.profiles| == |st.profiles|
      && st3.profiles[pid].completeness == Some(CompletenessScore(CriteriaOf(st3.profiles[pid], st3.rows, pid)))
  {
    var p := st.profiles[pid];
    var q := p.(completeness := Some(CompletenessScore(CriteriaOf(p, st.rows, pid))));
    assert CriteriaOf(q, st.rows, pid) == CriteriaOf(p, st.rows, pid);
  }

  /** `onboarding_submit` end to end: a user without a profile gets 404 and
      nothing changes; otherwise `SubmitForContract` holds for each of the
      five collections. */
  lemma SubmitContract(st: DbState, user: UserId, data: seq<(string, Json)>, file: Option<StoredFile>,
                       decode: string -> Option<Json>, validateProfile: Json -> Option<ProfilePatch>,
                       validateRows: (Kind, Json) -> Option<seq<NewChild>>, i: nat)
    requires WellKinded(validateRows) && i < 5
    ensures var (fin, reply) := Submit(st, user, data, file, decode, validateProfile, validateRows);
      var payload := SubmitPayloads(data, decode)[i].1;
      var pid := ProfileOf(st.profiles, user);
      (pid.None? ==> fin == st && reply == NotFound)
      && (pid.Some? && !PyTruthy(payload) ==>
            RowsOf(fin.rows, pid.value, KINDS[i]) == RowsOf(st.rows, pid.value, KINDS[i]))
      && (pid.Some? && reply.status == 200 && PyTruthy(payload) ==>
            validateRows(KINDS[i], payload).Some?
            && Strip(RowsOf(fin.rows, pid.value, KINDS[i])) == validateRows(KINDS[i], payload).value)
  {
    var pid := ProfileOf(st.profiles, user);
    if pid.Some? {
      var payloads := SubmitPayloads(data, decode);
      assert DistinctKinds(payloads);
      SubmitForContract(st, pid.value, ParsePayload(Lookup(data, "profile"), JObj([]), decode), file,
                        payloads, validateProfile, validateRows, i);
    }
  }

  /** `onboarding_submit`'s reply for a user with a profile: 400 exactly when
      the profile data or one of the five truthy collection payloads fails
      validation, 500 when a file comes with a non-object profile payload,
      200 otherwise, with the patched profile and the five counts. */
  lemma SubmitReply(st: DbState, user: UserId, data: seq<(string, Json)>, file: Option<StoredFile>,
                    decode: string -> Option<Json>, validateProfile: Json -> Option<ProfilePatch>,
                    validateRows: (Kind, Json) -> Option<seq<NewChild>>)
    requires ProfileOf(st.profiles, user).Some?
    ensures var (fin, reply) := Submit(st, user, data, file, decode, validateProfile, validateRows);
      var pid := ProfileOf(st.profiles, user).value;
      var profilePayload := ParsePayload(Lookup(data, "profile"), JObj([]), decode);
      var payloads := SubmitPayloads(data, decode);
      var patch := CheckProfile(profilePayload, if FileTruthy(file) then file else None, validateProfile);
      var broken := FileTruthy(file) && !profilePayload.JObj?;
      var invalid := exists j :: 0 <= j < 5 && PyTruthy(payloads[j].1) && validateRows(KINDS[j], payloads[j].1).None?;
      (reply.status == 500 <==> broken)
      && (reply.status == 400 <==> !broken && (patch.None? || invalid))
      && (reply.status == 200 <==> !broken && patch.Some? && !invalid)
      && (reply.status == 200 ==>
            fin.profiles[pid] == ApplyPatch(st.profiles[pid], patch.value).(completeness := fin.profiles[pid].completeness)
            && reply.body == SubmitBody(fin.profiles[pid], Counts(fin.rows, pid)))
  {
    var pid := ProfileOf(st.profiles, user).value;
    var profilePayload := ParsePayload(Lookup(data, "profile"), JObj([]), decode);
    var payloads := SubmitPayloads(data, decode);
    SubmitForOutcome(st, pid, profilePayload, file, payloads, validateProfile, validateRows);
  }

  // ---------------------------------------------------------------------------
  // parse_resume

  const MAX_INLINE_RESUME_SIZE: nat := 20 * 1024 * 1024

  /** What the Gemini call did: raised, or answered with a status and body. */
  datatype GeminiOutcome = Raised(error: string) | Answered(statusCode: int, text: string)

  /** `data.get("candidates", [{}])[0].get("content", {}).get("parts", [{}])[0].get("text", "")`. */
  function CandidateText(data: Json): Option<Json> {
    var c := PyGet(data, "candidates", JArr([JObj([])]));
    if c.None? then None else
    var c0 := PyFirst(c.value);
    if c0.None? then None else
    var content := PyGet(c0.value, "content", JObj([]));
    if content.None? then None else
    var parts := PyGet(content.value, "parts", JArr([JObj([])]));
    if parts.None? then None else
    var p0 := PyFirst(parts.value);
    if p0.None? then None else
    PyGet(p0.value, "text", JStr(""))
  }

  /** `parse_resume`. The preconditions are checked in a fixed order: file,
      then API key, then size; only then is the model called. */
  function ParseResume(file: Option<StoredFile>, apiKey: Option<string>, gemini: GeminiOutcome,
                       decode: string -> Option<Json>): (r: Reply)
    ensures !FileTruthy(file) ==> r == Reply(400, Message("resume_file is required."))
    ensures FileTruthy(file) && !TextTruthy(apiKey) ==> r.status == 501
    ensures FileTruthy(file) && TextTruthy(apiKey) && file.value.size > MAX_INLINE_RESUME_SIZE ==> r.status == 400
    ensures r.status == 200 ==> FileTruthy(file) && TextTruthy(apiKey) && file.value.size <= MAX_INLINE_RESUME_SIZE
    ensures r.status == 200 ==> gemini.Answered? && gemini.statusCode < 400
    ensures r.status == 200 ==> r.body.JsonBody?
    ensures gemini.Raised? || gemini.statusCode >= 400 ==> r.status != 200
  {
    if !FileTruthy(file) then Reply(400, Message("resume_file is required."))
    else if !TextTruthy(apiKey) then Reply(501, Message("GEMINI_API_KEY is not configured."))
    else if file.value.size > MAX_INLINE_RESUME_SIZE then
      Reply(400, Message("Resume file exceeds 20MB limit for inline upload."))
    else match gemini
      case Raised(error) => Reply(502, Message("Gemini request failed: " + error))
      case Answered(code, body) =>
        if code >= 400 then Reply(502, UpstreamError("Gemini API error.", code, body))
        else match decode(body)
          case None => Reply(500, ServerError)
          case Some(data) =>
            match CandidateText(data)
            case None => Reply(500, ServerError)
            case Some(JStr(text)) =>
              (match decode(text)
               case None => Reply(502, InvalidModelOutput("Model output was not valid JSON.", text))
               case Some(parsed) => Reply(200, JsonBody(parsed)))
            case Some(_) => Reply(500, ServerError)
  }

  /** The envelope of a `generateContent` answer with one text part. */
  function Envelope(text: string): Json {
    JObj([("candidates", JArr([JObj([("content", JObj([("parts", JArr([JObj([("text", JStr(text))])]))]))])]))])
  }

  /** A well-formed answer whose text is JSON is returned as that JSON. */
  lemma ParseResumeAnswered(file: Option<StoredFile>, apiKey: Option<string>, body: string, text: string,
                            decode: string -> Option<Json>, parsed: Json)
    requires FileTruthy(file) && TextTruthy(apiKey) && file.value.size <= MAX_INLINE_RESUME_SIZE
    requires decode(body) == Some(Envelope(text)) && decode(text) == Some(parsed)
    ensures ParseResume(file, apiKey, Answered(200, body), decode) == Reply(200, JsonBody(parsed))
  {
    assert CandidateText(Envelope(text)) == Some(JStr(text));
  }

  /** An answer without `candidates` falls through the defaults to the empty
      text, which is not JSON: the caller gets a 502 with an empty raw output. */
  lemma ParseResumeNoCandidates(file: Option<StoredFile>, apiKey: Option<string>, body: string,
                                decode: string -> Option<Json>)
    requires FileTruthy(file) && TextTruthy(apiKey) && file.value.size <= MAX_INLINE_RESUME_SIZE
    requires decode(body) == Some(JObj([])) && decode("") == None
    ensures ParseResume(file, apiKey, Answered(200, body), decode)
      == Reply(502, InvalidModelOutput("Model output was not valid JSON.", ""))
  {
    assert CandidateText(JObj([])) == Some(JStr(""));
  }

  /** An empty `candidates` list is an IndexError, not a default: 500. */
  lemma ParseResumeEmptyCandidates(file: Option<StoredFile>, apiKey: Option<string>, body: string,
                                   decode: string -> Option<Json>)
    requires FileTruthy(file) && TextTruthy(apiKey) && file.value.size <= MAX_INLINE_RESUME_SIZE
    requires decode(body) == Some(JObj([("candidates", JArr([]))]))
    ensures ParseResume(file, apiKey, Answered(200, body), decode) == Reply(500, ServerError)
  {
    assert CandidateText(JObj([("candidates", JArr([]))])).None?;
  }

  // ---------------------------------------------------------------------------
  // The tables and the endpoints that change them

  class ProfileStore {
    var profiles: seq<Profile>
    var rows: seq<Row>
    var nextRowId: nat
    /** Where the database sorts NULL (see `OptLess`). */
    const nullsLargest: bool

    function State(): DbState
      reads this
    {
      DbState(profiles, rows, nextRowId)
    }

    constructor(profiles0: seq<Profile>, nullsLargest0: bool)
      ensures State() == DbState(profiles0, [], 0) && nullsLargest == nullsLargest0
      ensures ValidState(State())
    {
      profiles := profiles0;
      rows := [];
      nextRowId := 0;
      nullsLargest := nullsLargest0;
    }

    /** `UserProfile.update_profile_completeness`: adds up the points check by
        check, caps at 100, and writes only `profile_completeness`. */
    method UpdateProfileCompleteness(pid: ProfileId) returns (score: nat)
      requires pid < |profiles| && ValidState(State())
      modifies this
      ensures ValidState(State())
      ensures score == CompletenessScore(CriteriaOf(old(profiles)[pid], old(rows), pid))
      ensures State() == Recompute(old(State()), pid)
    {
      var p := profiles[pid];
      var c := CriteriaOf(p, rows, pid);
      score := TallyCriteria(c);
      score := if score < 100 then score else 100;
      profiles := profiles[pid := p.(completeness := Some(score))];
    }

    /** Delete the collection, then save each validated item as a new row. */
    method ReplaceCollection(pid: ProfileId, kind: Kind, items: seq<NewChild>) returns (created: seq<Row>)
      requires ValidState(State())
      modifies this
      ensures ValidState(State())
      ensures State() == ReplaceRows(old(State()), pid, kind, items)
      ensures created == Fresh(items, pid, old(nextRowId))
    {
      rows := RemoveRows(rows, pid, kind);
      var base := rows;
      var first := nextRowId;
      created := [];
      var i := 0;
      while i < |items|
        invariant 0 <= i <= |items|
        invariant created == Fresh(items[..i], pid, first)
        invariant rows == base + created && nextRowId == first + i
        invariant profiles == old(profiles)
      {
        var row := Row(nextRowId, Some(pid), items[i].order, items[i].data);
        rows := rows + [row];
        created := created + [row];
        nextRowId := nextRowId + 1;
        i := i + 1;
      }
      assert items[..i] == items;
      ReplaceKeepsValid(old(State()), pid, kind, items);
    }

    /** One collection block of `onboarding_submit`. */
    method ReplaceIfGiven(pid: ProfileId, kind: Kind, payload: Json,
                          validateRows: (Kind, Json) -> Option<seq<NewChild>>) returns (valid: bool)
      requires ValidState(State())
      modifies this
      ensures ValidState(State())
      ensures valid <==> !PyTruthy(payload) || validateRows(kind, payload).Some?
      ensures State() == if PyTruthy(payload) && validateRows(kind, payload).Some?
        then ReplaceRows(old(State()), pid, kind, validateRows(kind, payload).value)
        else old(State())
    {
      valid := true;
      if PyTruthy(payload) {
        var items := validateRows(kind, payload);
        if items.None? {
          return false;
        }
        var _ := ReplaceCollection(pid, kind, items.value);
      }
    }

    /** `me`: the profile with its five collections, each in its default
        order. */
    function Me(user: UserId): (r: Reply)
      reads this
      ensures ProfileOf(profiles, user).None? <==> r == NotFound
      ensures ProfileOf(profiles, user).Some? ==>
        var pid := ProfileOf(profiles, user).value;
        r.status == 200 && r.body.DetailBody? && r.body.profile == profiles[pid] && |r.body.collections| == 5
        && (forall i :: 0 <= i < 5 ==> multiset(r.body.collections[i]) == multiset(RowsOf(rows, pid, KINDS[i])))
        && (ValidState(State()) ==> forall i :: 0 <= i < 5 ==> Sorted(r.body.collections[i], nullsLargest))
    {
      match ProfileOf(profiles, user)
      case None => NotFound
      case Some(pid) => Reply(200, DetailBody(profiles[pid], Collections(rows, pid, nullsLargest)))
    }

    /** `onboarding`: the stored completeness and whether it is below 30. A
        NULL completeness fails the comparison in Python (500). */
    function Onboarding(user: UserId): (r: Reply)
      reads this
      ensures ProfileOf(profiles, user).None? ==> r == NotFound
      ensures r.status == 200 <==>
        ProfileOf(profiles, user).Some? && profiles[ProfileOf(profiles, user).value].completeness.Some?
      ensures r.status == 200 ==>
        r.body.OnboardingBody?
        && Some(r.body.completeness) == profiles[ProfileOf(profiles, user).value].completeness
        && (r.body.needsOnboarding <==> r.body.completeness < 30)
    {
      match ProfileOf(profiles, user)
      case None => NotFound
      case Some(pid) =>
        match profiles[pid].completeness
        case None => Reply(500, ServerError)
        case Some(c) => Reply(200, OnboardingBody(c, c < 30))
    }

    /** A partial update of profile `pid` through the profile serializer:
        validate (400), save, recompute the completeness, reply with the
        saved profile. */
    method SaveProfile(pid: ProfileId, payload: Json, file: Option<StoredFile>,
                       validateProfile: Json -> Option<ProfilePatch>) returns (reply: Reply)
      requires pid < |profiles| && ValidState(State())
      modifies this
      ensures ValidState(State())
      ensures CheckProfile(payload, file, validateProfile).None? ==>
        reply == Reply(400, ValidationError) && State() == old(State())
      ensures CheckProfile(payload, file, validateProfile).Some? ==>
        var patch := CheckProfile(payload, file, validateProfile).value;
        State() == Recompute(old(State()).(profiles := old(profiles)[pid := ApplyPatch(old(profiles)[pid], patch)]), pid)
        && reply == Reply(200, ProfileBody(profiles[pid]))
    {
      var patch := CheckProfile(payload, file, validateProfile);
      if patch.None? {
        return Reply(400, ValidationError);
      }
      profiles := profiles[pid := ApplyPatch(profiles[pid], patch.value)];
      var _ := UpdateProfileCompleteness(pid);
      reply := Reply(200, ProfileBody(profiles[pid]));
    }

    /** `update_me`: the user's profile, or 404. */
    method UpdateMe(user: UserId, payload: Json, file: Option<StoredFile>,
                    validateProfile: Json -> Option<ProfilePatch>) returns (reply: Reply)
      requires ValidState(State())
      modifies this
      ensures ValidState(State())
      ensures ProfileOf(old(profiles), user).None? ==> reply == NotFound && State() == old(State())
      ensures ProfileOf(old(profiles), user).Some? && CheckProfile(payload, file, validateProfile).None? ==>
        reply == Reply(400, ValidationError) && State() == old(State())
      ensures ProfileOf(old(profiles), user).Some? && CheckProfile(payload, file, validateProfile).Some? ==>
        var pid := ProfileOf(old(profiles), user).value;
        var saved := old(State()).(profiles := old(profiles)[pid := ApplyPatch(old(profiles)[pid],
                                     CheckProfile(payload, file, validateProfile).value)]);
        State() == Recompute(saved, pid) && reply == Reply(200, ProfileBody(profiles[pid]))
    {
      var found := ProfileOf(profiles, user);
      if found.None? {
        return NotFound;
      }
      reply := SaveProfile(found.value, payload, file, validateProfile);
    }

    /** The generic `update` of the profile viewset: the key must name a
        profile of the requesting user (`get_queryset`), else 404; then
        `perform_update` saves and recomputes. */
    method UpdateProfile(user: UserId, id: ProfileId, payload: Json, file: Option<StoredFile>,
                         validateProfile: Json -> Option<ProfilePatch>) returns (reply: Reply)
      requires ValidState(State())
      modifies this
      ensures ValidState(State())
      ensures !(id < |old(profiles)| && old(profiles)[id].owner == Some(user)) ==>
        reply == Reply(404, Message("Not found.")) && State() == old(State())
      ensures id < |old(profiles)| && old(profiles)[id].owner == Some(user) ==>
        (CheckProfile(payload, file, validateProfile).None? ==>
           reply == Reply(400, ValidationError) && State() == old(State()))
        && (CheckProfile(payload, file, validateProfile).Some? ==>
              State() == Recompute(old(State()).(profiles := old(profiles)[id := ApplyPatch(old(profiles)[id],
                                     CheckProfile(payload, file, validateProfile).value)]), id)
              && reply == Reply(200, ProfileBody(profiles[id])))
    {
      if !(id < |profiles| && profiles[id].owner == Some(user)) {
        return Reply(404, Message("Not found."));
      }
      reply := SaveProfile(id, payload, file, validateProfile);
    }

    /** The collection blocks of `onboarding_submit`, in order; returns the
        index of the payload that failed validation, if any. */
    method ReplaceCollections(pid: ProfileId, payloads: seq<(Kind, Json)>,
                              validateRows: (Kind, Json) -> Option<seq<NewChild>>) returns (failed: Option<nat>)
      requires ValidState(State())
      modifies this
      ensures ValidState(State())
      ensures (State(), failed) == ReplaceAll(old(State()), pid, payloads, validateRows)
    {
      ghost var goal := ReplaceAll(State(), pid, payloads, validateRows);
      var k := 0;
      while k < |payloads|
        invariant 0 <= k <= |payloads|
        invariant goal.0 == ReplaceAll(State(), pid, payloads[k..], validateRows).0
        invariant goal.1 == Shift(ReplaceAll(State(), pid, payloads[k..], validateRows).1, k)
        invariant ValidState(State())
      {
        var (kind, payload) := payloads[k];
        assert payloads[k..][0] == payloads[k] && payloads[k..][1..] == payloads[k + 1..];
        var valid := ReplaceIfGiven(pid, kind, payload, validateRows);
        if !valid {
          return Some(k);
        }
        k := k + 1;
      }
      assert payloads[k..] == [];
      failed := None;
    }

    /** `onboarding_submit`, step by step. */
    method OnboardingSubmit(user: UserId, data: seq<(string, Json)>, file: Option<StoredFile>,
                            decode: string -> Option<Json>, validateProfile: Json -> Option<ProfilePatch>,
                            validateRows: (Kind, Json) -> Option<seq<NewChild>>) returns (reply: Reply)
      requires ValidState(State())
      modifies this
      ensures ValidState(State())
      ensures (State(), reply) == Submit(old(State()), user, data, file, decode, validateProfile, validateRows)
    {
      var found := ProfileOf(profiles, user);
      if found.None? {
        return NotFound;
      }
      var pid := found.value;
      var profilePayload := ParsePayload(Lookup(data, "profile"), JObj([]), decode);
      var payloads := SubmitPayloads(data, decode);
      if FileTruthy(file) && !profilePayload.JObj? {
        return Reply(500, ServerError);
      }
      var patch := CheckProfile(profilePayload, if FileTruthy(file) then file else None, validateProfile);
      if patch.None? {
        return Reply(400, ValidationError);
      }
      profiles := profiles[pid := ApplyPatch(profiles[pid], patch.value)];
      var failed := ReplaceCollections(pid, payloads, validateRows);
      if failed.Some? {
        return Reply(400, ValidationError);
      }
      var _ := UpdateProfileCompleteness(pid);
      reply := Reply(200, SubmitBody(profiles[pid], Counts(rows, pid)));
    }

    /** `get_queryset` of a child viewset, in the table's default order. */
    function List(user: UserId, kind: Kind): (r: seq<Row>)
      reads this
      ensures forall x :: x in r <==> x in rows && KindOf(x.data) == kind && Visible(profiles, user, x)
      ensures multiset(r) == multiset(VisibleRows(rows, profiles, user, kind))
      ensures ValidState(State()) ==> Sorted(r, nullsLargest)
    {
      VisibleListing(rows, profiles, user, kind, nullsLargest);
      OrderRows(VisibleRows(rows, profiles, user, kind), nullsLargest)
    }

    /** `create` on a child viewset: validation first (400), then
        `perform_create` attaches the row to `user.profile` (500 when the user
        has none) and recomputes that profile's completeness. */
    method CreateRow(user: UserId, kind: Kind, item: Option<NewChild>) returns (reply: Reply)
      requires ValidState(State())
      modifies this
      ensures ValidState(State())
      ensures item.None? ==> reply == Reply(400, ValidationError) && State() == old(State())
      ensures item.Some? && ProfileOf(old(profiles), user).None? ==>
        reply == Reply(500, ServerError) && State() == old(State())
      ensures item.Some? && ProfileOf(old(profiles), user).Some? ==>
        var pid := ProfileOf(old(profiles), user).value;
        var row := Row(old(nextRowId), Some(pid), item.value.order, item.value.data);
        reply == Reply(201, RowBody(row))
        && State() == Recompute(old(State()).(rows := old(rows) + [row], nextRowId := old(nextRowId) + 1), pid)
    {
      if item.None? {
        return Reply(400, ValidationError);
      }
      var found := ProfileOf(profiles, user);
      if found.None? {
        return Reply(500, ServerError);
      }
      var pid := found.value;
      var row := Row(nextRowId, Some(pid), item.value.order, item.value.data);
      AppendKeepsValid(State(), row);
      rows := rows + [row];
      nextRowId := nextRowId + 1;
      var _ := UpdateProfileCompleteness(pid);
      reply := Reply(201, RowBody(row));
    }

    /** `update` on a child viewset: the row must be visible (404), the data
        valid (400); the row keeps its key and profile, and that profile's
        completeness is recomputed. */
    method UpdateRow(user: UserId, kind: Kind, id: RowId, item: Option<NewChild>) returns (reply: Reply)
      requires ValidState(State())
      modifies this
      ensures ValidState(State())
      ensures FindVisible(old(rows), old(profiles), user, kind, id).None? ==>
        reply.status == 404 && State() == old(State())
      ensures FindVisible(old(rows), old(profiles), user, kind, id).Some? && item.None? ==>
        reply == Reply(400, ValidationError) && State() == old(State())
      ensures FindVisible(old(rows), old(profiles), user, kind, id).Some? && item.Some? ==>
        var row := FindVisible(old(rows), old(profiles), user, kind, id).value;
        var updated := Row(row.id, row.profile, item.value.order, item.value.data);
        reply == Reply(200, RowBody(updated))
        && State() == Recompute(old(State()).(rows := ReplaceRow(old(rows), id, updated)), row.profile.value)
    {
      var found := FindVisible(rows, profiles, user, kind, id);
      if found.None? {
        return Reply(404, Message("Not found."));
      }
      if item.None? {
        return Reply(400, ValidationError);
      }
      var row := found.value;
      var updated := Row(row.id, row.profile, item.value.order, item.value.data);
      ReplaceRowKeepsValid(State(), id, updated);
      rows := ReplaceRow(rows, id, updated);
      var _ := UpdateProfileCompleteness(row.profile.value);
      reply := Reply(200, RowBody(updated));
    }

    /** `destroy` on a child viewset: delete the visible row (404 otherwise)
        and recompute its profile's completeness. */
    method DestroyRow(user: UserId, kind: Kind, id: RowId) returns (reply: Reply)
      requires ValidState(State())
      modifies this
      ensures ValidState(State())
      ensures FindVisible(old(rows), old(profiles), user, kind, id).None? ==>
        reply.status == 404 && State() == old(State())
      ensures FindVisible(old(rows), old(profiles), user, kind, id).Some? ==>
        var row := FindVisible(old(rows), old(profiles), user, kind, id).value;
        reply == Reply(204, NoContent)
        && State() == Recompute(old(State()).(rows := DeleteRow(old(rows), id)), row.profile.value)
    {
      var found := FindVisible(rows, profiles, user, kind, id);
      if found.None? {
        return Reply(404, Message("Not found."));
      }
      var pid := found.value.profile.value;
      DeleteRowKeepsValid(State(), id);
      rows := DeleteRow(rows, id);
      var _ := UpdateProfileCompleteness(pid);
      reply := Reply(204, NoContent);
    }

    /** `bulk`: validate the whole list (400), delete the collection, save
        the list, recompute, 201. Unlike `onboarding_submit`, an empty list
        empties the collection. */
    method Bulk(user: UserId, kind: Kind, items: Option<seq<NewChild>>) returns (reply: Reply)
      requires ValidState(State())
      modifies this
      ensures ValidState(State())
      ensures ProfileOf(old(profiles), user).None? ==> reply == Reply(500, ServerError) && State() == old(State())
      ensures ProfileOf(old(profiles), user).Some? && items.None? ==>
        reply == Reply(400, ValidationError) && State() == old(State())
      ensures ProfileOf(old(profiles), user).Some? && items.Some? ==>
        var pid := ProfileOf(old(profiles), user).value;
        State() == Recompute(ReplaceRows(old(State()), pid, kind, items.value), pid)
        && reply == Reply(201, RowsBody(Fresh(items.value, pid, old(nextRowId))))
    {
      var found := ProfileOf(profiles, user);
      if found.None? {
        return Reply(500, ServerError);
      }
      var pid := found.value;
      if items.None? {
        return Reply(400, ValidationError);
      }
      var created := ReplaceCollection(pid, kind, items.value);
      var _ := UpdateProfileCompleteness(pid);
      reply := Reply(201, RowsBody(created));
    }
  }

  /** Ordering a listing neither adds nor drops a row. */
  lemma {:induction false} OrderRowsPermutes(s: seq<Row>, nl: bool)
    ensures multiset(OrderRows(s, nl)) == multiset(s)
  {
    if s != [] {
      OrderRowsPermutes(s[1..], nl);
      InsertCount(s[0], OrderRows(s[1..], nl), nl);
      assert s == [s[0]] + s[1..];
    }
  }

  /** A row whose key is new can go in front of rows with distinct keys. */
  lemma ConsDistinct(h: Row, t: seq<Row>)
    requires DistinctIds(t) && forall x :: x in t ==> x.id != h.id
    ensures DistinctIds([h] + t)
  {
    var r := [h] + t;
    forall i, j | 0 <= i < j < |r| ensures r[i].id != r[j].id {
      assert r[j] == t[j - 1];
      if i > 0 { assert r[i] == t[i - 1]; }
    }
  }

  lemma {:induction false} VisibleRowsDistinct(rows: seq<Row>, profiles: seq<Profile>, user: UserId, kind: Kind)
    requires DistinctIds(rows)
    ensures DistinctIds(VisibleRows(rows, profiles, user, kind))
  {
    if rows != [] {
      DistinctIdsTail(rows);
      VisibleRowsDistinct(rows[1..], profiles, user, kind);
      var t := VisibleRows(rows[1..], profiles, user, kind);
      forall x | x in t ensures x.id != rows[0].id {
        HeadIdFresh(rows, x);
      }
      ConsDistinct(rows[0], t);
    }
  }

  lemma {:induction false} RowsOfDistinct(rows: seq<Row>, pid: ProfileId, kind: Kind)
    requires DistinctIds(rows)
    ensures DistinctIds(RowsOf(rows, pid, kind))
  {
    if rows != [] {
      DistinctIdsTail(rows);
      RowsOfDistinct(rows[1..], pid, kind);
      var t := RowsOf(rows[1..], pid, kind);
      forall x | x in t ensures x.id != rows[0].id {
        HeadIdFresh(rows, x);
      }
      ConsDistinct(rows[0], t);
    }
  }

  /** The five collections of a profile, in the order of `KINDS`, each in
      the table's default order: the same rows as stored, sorted when keys
      are unique. */
  function Collections(rows: seq<Row>, pid: ProfileId, nl: bool): (c: seq<seq<Row>>)
    ensures |c| == 5
    ensures forall i :: 0 <= i < 5 ==> multiset(c[i]) == multiset(RowsOf(rows, pid, KINDS[i]))
    ensures DistinctIds(rows) ==> forall i :: 0 <= i < 5 ==> Sorted(c[i], nl)
  {
    ListingsCorrect(rows, pid, nl);
    seq(5, i requires 0 <= i < 5 => OrderRows(RowsOf(rows, pid, KINDS[i]), nl))
  }

  /** A listing holds the visible rows of its kind, each once, sorted when
      keys are unique. */
  lemma VisibleListing(rows: seq<Row>, profiles: seq<Profile>, user: UserId, kind: Kind, nl: bool)
    ensures var r := OrderRows(VisibleRows(rows, profiles, user, kind), nl);
      multiset(r) == multiset(VisibleRows(rows, profiles, user, kind))
      && (forall x :: x in r <==> x in rows && KindOf(x.data) == kind && Visible(profiles, user, x))
      && (DistinctIds(rows) ==> Sorted(r, nl))
  {
    var visible := VisibleRows(rows, profiles, user, kind);
    var r := OrderRows(visible, nl);
    OrderRowsPermutes(visible, nl);
    assert forall x :: x in r <==> x in multiset(r);
    assert forall x :: x in visible <==> x in multiset(visible);
    if DistinctIds(rows) {
      VisibleRowsDistinct(rows, profiles, user, kind);
      OrderRowsCorrect(visible, nl);
    }
  }

  /** Each collection of a profile, listed in its default order: the same
      rows, and sorted when keys are unique. */
  lemma ListingsCorrect(rows: seq<Row>, pid: ProfileId, nl: bool)
    ensures forall kind :: multiset(OrderRows(RowsOf(rows, pid, kind), nl)) == multiset(RowsOf(rows, pid, kind))
    ensures DistinctIds(rows) ==> forall kind :: Sorted(OrderRows(RowsOf(rows, pid, kind), nl), nl)
  {
    forall kind ensures multiset(OrderRows(RowsOf(rows, pid, kind), nl)) == multiset(RowsOf(rows, pid, kind)) {
      OrderRowsPermutes(RowsOf(rows, pid, kind), nl);
    }
    if DistinctIds(rows) {
      forall kind ensures Sorted(OrderRows(RowsOf(rows, pid, kind), nl), nl) {
        RowsOfDistinct(rows, pid, kind);
        OrderRowsCorrect(RowsOf(rows, pid, kind), nl);
      }
    }
  }

  /** Saving a row under the next key keeps keys unique. */
  lemma AppendKeepsValid(st: DbState, row: Row)
    requires ValidState(st) && row.id == st.nextRowId
    ensures ValidState(st.(rows := st.rows + [row], nextRowId := st.nextRowId + 1))
  {
    var r := st.rows + [row];
    forall i, j | 0 <= i < j < |r| ensures r[i].id != r[j].id {
      if j == |st.rows| { assert r[i] == st.rows[i]; }
    }
  }

  /** Rewriting the row with key `id` under the same key keeps keys unique. */
  lemma ReplaceRowKeepsValid(st: DbState, id: RowId, updated: Row)
    requires ValidState(st) && updated.id == id
    ensures ValidState(st.(rows := ReplaceRow(st.rows, id, updated)))
  {
    var r := ReplaceRow(st.rows, id, updated);
    assert forall i :: 0 <= i < |r| ==> r[i].id == st.rows[i].id;
  }

  lemma {:induction false} DeleteRowKeepsValid(st: DbState, id: RowId)
    requires ValidState(st)
    ensures ValidState(st.(rows := DeleteRow(st.rows, id)))
    decreases |st.rows|
  {
    var rows := st.rows;
    var r := DeleteRow(rows, id);
    forall i | 0 <= i < |r| ensures r[i].id < st.nextRowId {
      assert r[i] in rows;
    }
    if rows != [] {
      DistinctIdsTail(rows);
      var tail := st.(rows := rows[1..]);
      DeleteRowKeepsValid(tail, id);
      var t := DeleteRow(rows[1..], id);
      forall x | x in t ensures x.id != rows[0].id {
        HeadIdFresh(rows, x);
      }
      ConsDistinct(rows[0], t);
    }
  }

  /** `serializer.save()` on an existing row: same key, new contents. */
  function ReplaceRow(rows: seq<Row>, id: RowId, updated: Row): (r: seq<Row>)
    ensures |r| == |rows|
    ensures forall i :: 0 <= i < |rows| ==> r[i] == if rows[i].id == id then updated else rows[i]
  {
    seq(|rows|, i requires 0 <= i < |rows| => if rows[i].id == id then updated else rows[i])
  }

  /** `instance.delete()`. */
  function DeleteRow(rows: seq<Row>, id: RowId): (r: seq<Row>)
    ensures forall x :: x in r <==> x in rows && x.id != id
  {
    if rows == [] then []
    else (if rows[0].id == id then [] else [rows[0]]) + DeleteRow(rows[1..], id)
  }

  /** A user's listing and lookups never reach a row of another user's
      profile. */
  lemma Isolation(st: DbState, user: UserId, other: UserId, kind: Kind, id: RowId, nl: bool)
    requires user != other
    ensures forall x :: x in VisibleRows(st.rows, st.profiles, user, kind) ==> !Visible(st.profiles, other, x)
    ensures var f := FindVisible(st.rows, st.profiles, user, kind, id);
      f.Some? ==> !Visible(st.profiles, other, f.value)
  {
  }

  /** After `bulk`, the collection is exactly the submitted list. */
  lemma BulkExact(st: DbState, pid: ProfileId, kind: Kind, items: seq<NewChild>)
    requires pid < |st.profiles| && OfKind(items, kind)
    ensures Strip(RowsOf(Recompute(ReplaceRows(st, pid, kind, items), pid).rows, pid, kind)) == items
  {
    ReplaceExact(st, pid, kind, items);
  }
}

=== FILE: protected_route.dfy ===
/** The route guard: it asks `/auth/users/me/` once, renders its children
    only when the answer is ok, and otherwise sends the browser to `/login`. */
module ProtectedRoute {
  import opened Common
  import opened PageCommon

  class Guard {
    var isAllowed: bool
    var isChecking: bool
    var redirect: Option<string>

    constructor ()
      ensures !isAllowed && isChecking && redirect.None?
    {
      isAllowed := false;
      isChecking := true;
      redirect := None;
    }

    /** The children are rendered; nothing at all is rendered while checking. */
    predicate RendersChildren()
      reads this
    {
      !isChecking && isAllowed
    }

    /** `verify()` followed by its `finally`. An ok answer allows; a
        response that is not ok, or a rejected fetch, redirects to the login
        page; after unmount nothing changes. */
    method Verify<T>(me: Reply<T>, mounted: bool)
      modifies this
      ensures !mounted ==> isAllowed == old(isAllowed) && isChecking == old(isChecking) && redirect == old(redirect)
      ensures mounted ==> !isChecking
      ensures mounted ==> isAllowed == (IsOk(me) || old(isAllowed))
      ensures mounted ==> redirect == if IsOk(me) then old(redirect) else Some("/login")
      ensures mounted && !old(isAllowed) ==> (RendersChildren() <==> IsOk(me))
    {
      if me.Thrown? {
        if mounted {
          redirect := Some("/login");
        }
      } else if mounted {
        if IsOk(me) {
          isAllowed := true;
        } else {
          redirect := Some("/login");
        }
      }
      if mounted {
        isChecking := false;
      }
    }
  }
}

=== FILE: signup.dfy ===
/** The sign-up page: the form's field rules (as the form library applies
    them before the submit handler runs), the error message picked from a
    failed response, the submit handler, and the Google sign-up start. The
    email rule and the first-error pick are shared with the password-reset
    request page. */
module Signup {
  import opened Common
  import opened ApiGateway
  import opened PageCommon
  import opened UriEncoding
  import opened ObjectOrder

  // ---------------------------------------------------------------------------
  // The email pattern

  predicate NotSpaceOrAt(c: char) { !JsSpace(c) && c != '@' }

  /** `/^[^\s@]+@[^\s@]+\.[^\s@]+$/` matches `s`: some '@' and some later
      '.' split `s` into three non-empty runs, and apart from that '@' no
      character is whitespace or '@'. */
  predicate EmailPattern(s: string) {
    exists i, j :: 0 < i && i + 1 < j < |s| - 1 && s[i] == '@' && s[j] == '.'
      && forall k :: 0 <= k < |s| && k != i ==> NotSpaceOrAt(s[k])
  }

  predicate AllNotSpaceOrAt(t: string) { forall k :: 0 <= k < |t| ==> NotSpaceOrAt(t[k]) }

  /** The position of the first `c` in `s`. */
  function IndexOf(s: string, c: char): (r: Option<nat>)
    ensures r.None? <==> c !in s
    ensures r.Some? ==> r.value < |s| && s[r.value] == c && c !in s[..r.value]
  {
    if s == [] then None
    else if s[0] == c then Some(0)
    else
      var r := IndexOf(s[1..], c);
      if r.None? then None
      else
        assert s[..r.value + 1] == [s[0]] + s[1..][..r.value];
        Some(r.value + 1)
  }

  /** The pattern checked the way a scan does it: split at the first '@';
      the part before it must be non-empty, neither part may hold
      whitespace or another '@', and the domain needs a '.' that is neither
      its first nor its last character. */
  predicate CheckEmail(s: string) {
    match IndexOf(s, '@')
    case None => false
    case Some(i) =>
      var domain := s[i + 1..];
      i > 0 && AllNotSpaceOrAt(s[..i]) && AllNotSpaceOrAt(domain)
      && |domain| >= 3 && IndexOf(domain[1..|domain| - 1], '.').Some?
  }

  /** Every string the scan accepts matches the pattern. */
  lemma CheckEmailSound(s: string)
    requires CheckEmail(s)
    ensures EmailPattern(s)
  {
    var i := IndexOf(s, '@').value;
    var domain := s[i + 1..];
    var inner := domain[1..|domain| - 1];
    var jj := IndexOf(inner, '.').value;
    var j := i + 2 + jj;
    assert s[j] == inner[jj];
    forall k | 0 <= k < |s| && k != i ensures NotSpaceOrAt(s[k]) {
      if k < i {
        assert s[k] == s[..i][k];
      } else {
        assert s[k] == domain[k - i - 1];
      }
    }
    assert 0 < i && i + 1 < j < |s| - 1 && s[i] == '@' && s[j] == '.';
  }

  /** A stretch of clean characters is a clean slice. */
  lemma CleanSlice(s: string, lo: nat, hi: nat)
    requires lo <= hi <= |s| && forall k :: lo <= k < hi ==> NotSpaceOrAt(s[k])
    ensures AllNotSpaceOrAt(s[lo..hi])
  {
    forall k | 0 <= k < hi - lo ensures NotSpaceOrAt(s[lo..hi][k]) {
      assert s[lo..hi][k] == s[lo + k];
    }
  }

  /** Every string that matches the pattern passes the scan. */
  lemma CheckEmailComplete(s: string)
    requires EmailPattern(s)
    ensures CheckEmail(s)
  {
    var i, j :| 0 < i && i + 1 < j < |s| - 1 && s[i] == '@' && s[j] == '.'
      && forall k :: 0 <= k < |s| && k != i ==> NotSpaceOrAt(s[k]);
    assert '@' in s;
    var r := IndexOf(s, '@').value;
    assert s[r] == '@';
    assert r == i;
    CleanSlice(s, 0, i);
    assert s[0..i] == s[..i];
    CleanSlice(s, i + 1, |s|);
    var domain := s[i + 1..];
    assert s[i + 1..|s|] == domain;
    var inner := domain[1..|domain| - 1];
    assert inner[j - i - 2] == s[j];
    assert '.' in inner;
  }

  /** The scan accepts exactly the strings the pattern matches. */
  lemma CheckEmailMatchesPattern(s: string)
    ensures CheckEmail(s) <==> EmailPattern(s)
  {
    if CheckEmail(s) { CheckEmailSound(s); }
    if EmailPattern(s) { CheckEmailComplete(s); }
  }

  // ---------------------------------------------------------------------------
  // Field rules

  datatype SignupForm = SignupForm(firstName: string, lastName: string, email: string,
                                   password: string, rePassword: string)

  /** The form's default values, which `reset()` restores. */
  const EMPTY_FORM := SignupForm("", "", "", "", "")

  const MAX_NAME_LENGTH: nat := 155
  const MIN_PASSWORD_LENGTH: nat := 8

  /** `required` then `maxLength: 155`. */
  function NameError(value: string, requiredMessage: string, tooLongMessage: string): (e: Option<string>)
    ensures e.None? <==> value != "" && |value| <= MAX_NAME_LENGTH
  {
    if value == "" then Some(requiredMessage)
    else if |value| > MAX_NAME_LENGTH then Some(tooLongMessage)
    else None
  }

  /** `required` then the email pattern; the password-reset page uses the
      same rule. */
  function EmailError(value: string): (e: Option<string>)
    ensures e.None? <==> value != "" && EmailPattern(value)
    ensures value == "" ==> e == Some("Email is required.")
  {
    CheckEmailMatchesPattern(value);
    if value == "" then Some("Email is required.")
    else if !CheckEmail(value) then Some("Please enter a valid email address.")
    else None
  }

  /** `required` then `minLength: 8`. */
  function PasswordError(value: string): (e: Option<string>)
    ensures e.None? <==> |value| >= MIN_PASSWORD_LENGTH
  {
    if value == "" then Some("Password is required.")
    else if |value| < MIN_PASSWORD_LENGTH then Some("Password must be at least 8 characters.")
    else None
  }

  /** `required` then equality with the password field. */
  function RePasswordError(value: string, password: string): (e: Option<string>)
    ensures e.None? <==> value != "" && value == password
  {
    if value == "" then Some("Please confirm your password.")
    else if value != password then Some("Passwords do not match.")
    else None
  }

  /** Every rule passes, so the form library calls the submit handler. */
  predicate Valid(f: SignupForm) {
    NameError(f.firstName, "First name is required.", "First name must be under 155 characters.").None?
    && NameError(f.lastName, "Last name is required.", "Last name must be under 155 characters.").None?
    && EmailError(f.email).None?
    && PasswordError(f.password).None?
    && RePasswordError(f.rePassword, f.password).None?
  }

  /** What a submittable form looks like. */
  lemma ValidForm(f: SignupForm)
    ensures Valid(f) <==>
      1 <= |f.firstName| <= 155 && 1 <= |f.lastName| <= 155
      && EmailPattern(f.email)
      && |f.password| >= 8 && f.rePassword == f.password
  {
  }

  // ---------------------------------------------------------------------------
  // The first error of a failed response

  /** `v?.[0]`, with `null` and `undefined` both read as nothing (the `??`
      that follows treats them alike). */
  function Index0(v: Json): Option<Json> {
    var r := match v
      case JArr(items) => if items != [] then Some(items[0]) else None
      case JStr(s) => if s != "" then Some(JStr([s[0]])) else None
      case JObj(members) => Lookup(members, "0")
      case _ => None;
    if r == Some(JNull) then None else r
  }

  /** `Object.values(body)[0]?.[0]`: `None` when it throws; `Some(None)` when
      it yields nothing and the fallback applies. On a field-error body
      such as `{"email": ["..."]}` it is the first message of the first
      field (see `FirstFieldWritten` and `FirstIsLeastIndex`). */
  function FirstListEntry(v: Json): (r: Option<Option<Json>>)
    ensures r.None? <==> v.JNull?
    ensures v.JObj? && v.members == [] ==> r == Some(None)
  {
    match ObjectValues(v)
    case None => None
    case Some(values) => if values == [] then Some(None) else Some(Index0(values[0]))
  }

  /** On a non-empty object the entry is read from the first property. */
  lemma FirstEntryOfObject(members: seq<(string, Json)>)
    requires members != []
    ensures PropertyKeys(members) != [] && Lookup(members, PropertyKeys(members)[0]).Some?
    ensures FirstListEntry(JObj(members)) == Some(Index0(Lookup(members, PropertyKeys(members)[0]).value))
  {
    PropertyKeysPresent(members);
    var ks := PropertyKeys(members);
    assert members[0].0 in ks;
    var values := ValuesAt(members, ks);
    assert ObjectValues(JObj(members)) == Some(values);
    assert Lookup(members, ks[0]) == Some(values[0]);
  }

  /** Without numeric keys the entry comes from the field written first,
      read with the value it was given last. */
  lemma FirstFieldWritten(members: seq<(string, Json)>)
    requires members != [] && forall i :: 0 <= i < |members| ==> !IsArrayIndex(members[i].0)
    ensures FirstListEntry(JObj(members)) == Some(Index0(Lookup(members, members[0].0).value))
  {
    FirstEntryOfObject(members);
    var keys := KeysInOrder(members);
    assert Select(keys, true) == [];
    SelectAll(keys);
  }


  /** With numeric keys present, the entry comes from the smallest of them,
      wherever it stands in the text. */
  lemma FirstIsLeastIndex(members: seq<(string, Json)>, k: string)
    requires IsArrayIndex(k) && exists i :: 0 <= i < |members| && members[i].0 == k
    requires forall i :: 0 <= i < |members| && IsArrayIndex(members[i].0) ==> IndexValue(k) <= IndexValue(members[i].0)
    ensures FirstListEntry(JObj(members)) == Some(Index0(Lookup(members, k).value))
  {
    FirstEntryOfObject(members);
    LeastIndexFirst(members, k);
  }


  /** A numeric key comes first whatever its place in the text. */
  lemma NumericKeyFirst()
    ensures FirstListEntry(JObj([("b", JArr([JStr("c")])), ("1", JArr([JStr("a")]))])) == Some(Some(JStr("a")))
  {
    var m := [("b", JArr([JStr("c")])), ("1", JArr([JStr("a")]))];
    assert DigitsValue("1") == 1;
    assert !IsArrayIndex("b") by { assert !IsDigit('b'); }
    assert m[1].0 == "1";
    FirstIsLeastIndex(m, "1");
  }

  /** A repeated key keeps its first place and takes its last value. */
  lemma RepeatedKeyLastValue()
    ensures FirstListEntry(JObj([("a", JArr([JStr("x")])), ("b", JArr([JStr("y")])), ("a", JArr([JStr("z")]))]))
      == Some(Some(JStr("z")))
  {
    var m := [("a", JArr([JStr("x")])), ("b", JArr([JStr("y")])), ("a", JArr([JStr("z")]))];
    assert !IsArrayIndex("a") by { assert !IsDigit('a'); }
    assert !IsArrayIndex("b") by { assert !IsDigit('b'); }
    FirstFieldWritten(m);
  }

  const SIGNUP_FALLBACK := "Unable to create your account. Please try again."

  /** The sign-up error message: the first field error when the body is JSON
      that has one, the default when it is JSON that has none, and the raw
      body text (or the default, for an empty body) when it is not JSON. */
  function SignupErrorMessage(body: string, parse: string -> Option<Json>): (m: Json)
    ensures parse(body).None? ==> m == JStr(if body != "" then body else SIGNUP_FALLBACK)
    ensures parse(body).Some? && FirstListEntry(parse(body).value) == Some(None) ==> m == JStr(SIGNUP_FALLBACK)
    ensures (parse(body).Some? && FirstListEntry(parse(body).value).Some?
             && FirstListEntry(parse(body).value).value.Some?) ==> m == FirstListEntry(parse(body).value).value.value
  {
    var raw := JStr(if body != "" then body else SIGNUP_FALLBACK);
    match parse(body)
    case None => raw
    case Some(v) =>
      match FirstListEntry(v)
      case None => raw
      case Some(None) => JStr(SIGNUP_FALLBACK)
      case Some(Some(x)) => x
  }

  // ---------------------------------------------------------------------------
  // Google sign-up

  const DEFAULT_GOOGLE_REDIRECT_URI := "http://localhost:3000/auth/google"
  const OAUTH_START_PATH := "/auth/o/google-oauth2/?redirect_uri="

  /** `GOOGLE_OAUTH_URL`: the configured URL, else the backend's start
      endpoint with the encoded redirect URI. */
  function GoogleOAuthUrl(oauthEnv: Option<string>, base: string, redirectEnv: Option<string>): (url: string)
    ensures oauthEnv.Some? ==> url == oauthEnv.value
    ensures oauthEnv.None? ==>
      url == base + OAUTH_START_PATH + EncodeURIComponent(redirectEnv.GetOr(DEFAULT_GOOGLE_REDIRECT_URI))
  {
    oauthEnv.GetOr(base + OAUTH_START_PATH + EncodeURIComponent(redirectEnv.GetOr(DEFAULT_GOOGLE_REDIRECT_URI)))
  }

  /** The default URL carries the redirect URI intact: the query value
      after the start path decodes to its UTF-8 bytes. */
  lemma DefaultOAuthUrlCarriesRedirect(base: string, redirectEnv: Option<string>)
    ensures var url := GoogleOAuthUrl(None, base, redirectEnv);
      var k := |base + OAUTH_START_PATH|;
      k <= |url| && DecodeBytes(url[k..]) == Some(Utf8String(redirectEnv.GetOr(DEFAULT_GOOGLE_REDIRECT_URI)))
  {
    var redirect := redirectEnv.GetOr(DEFAULT_GOOGLE_REDIRECT_URI);
    var url := GoogleOAuthUrl(None, base, redirectEnv);
    assert url[|base + OAUTH_START_PATH|..] == EncodeURIComponent(redirect);
    EncodeDecodeRoundTrip(redirect);
  }

  /** `data.authorization_url`: `None` is the TypeError on a `null` body;
      a body that is not an object has no such property. */
  function AuthorizationUrl(data: Json): (r: Option<Option<Json>>)
    ensures r.None? <==> data.JNull?
    ensures data.JObj? ==> r == Some(Lookup(data.members, "authorization_url"))
  {
    match data
    case JNull => None
    case JObj(members) => Some(Lookup(members, "authorization_url"))
    case _ => Some(None)
  }

  const CREATED_MESSAGE := "Account created! Check your email to activate your account before logging in."
  const SUBMIT_NETWORK_ERROR := "Network error. Please check your connection and try again."
  const GOOGLE_START_FAILED := "Unable to start Google signup. Please try again."
  const NO_AUTHORIZATION_URL := "Google authorization URL was not returned."
  const GOOGLE_NETWORK_ERROR := "Network error. Please try again."

  class SignupPage {
    var form: SignupForm
    var status: FormStatus
    var isSubmitting: bool
    var isGoogleLoading: bool
    /** Where `window.location.href` was sent, if anywhere. */
    var location: Option<Json>

    constructor ()
      ensures form == EMPTY_FORM && status == Idle && !isSubmitting && !isGoogleLoading && location.None?
    {
      form := EMPTY_FORM;
      status := Idle;
      isSubmitting := false;
      isGoogleLoading := false;
      location := None;
    }

    /** `onSubmit(data)`: POSTs the form to `/auth/users/`. Success shows the
        activation notice and resets the form; a failure keeps the form and
        shows the picked error; a rejected request or unreadable error body
        shows the network error. */
    method OnSubmit(base: string, answer: Answer, parse: string -> Option<Json>)
      returns (url: string, sent: SignupForm)
      requires Valid(form)
      modifies this
      ensures url == base + "/auth/users/" && sent == old(form)
      ensures !isSubmitting && isGoogleLoading == old(isGoogleLoading) && location == old(location)
      ensures answer.Answered? && Ok(answer.status) ==>
        status == SuccessStatus(CREATED_MESSAGE) && form == EMPTY_FORM
      ensures answer.Answered? && !Ok(answer.status) && answer.body.Some? ==>
        status == ErrorStatus(SignupErrorMessage(answer.body.value, parse)) && form == old(form)
      ensures answer.Rejected? || (!Ok(answer.status) && answer.body.None?) ==>
        status == ErrorStatus(JStr(SUBMIT_NETWORK_ERROR)) && form == old(form)
    {
      isSubmitting := true;
      status := Idle;
      url, sent := base + "/auth/users/", form;
      if answer.Rejected? {
        status := ErrorStatus(JStr(SUBMIT_NETWORK_ERROR));
      } else if !Ok(answer.status) {
        if answer.body.None? {
          status := ErrorStatus(JStr(SUBMIT_NETWORK_ERROR));
        } else {
          status := ErrorStatus(SignupErrorMessage(answer.body.value, parse));
        }
      } else {
        status := SuccessStatus(CREATED_MESSAGE);
        form := EMPTY_FORM;
      }
      isSubmitting := false;
    }

    /** `handleGoogleSignup()`: a GET of the OAuth start URL; the browser
        navigates only to a truthy `authorization_url` from an ok response. */
    method GoogleSignup(oauthUrl: string, answer: Answer, parse: string -> Option<Json>)
      returns (requested: string)
      modifies this
      ensures requested == oauthUrl
      ensures !isGoogleLoading && form == old(form) && isSubmitting == old(isSubmitting)
      ensures location.Some? && location != old(location) ==>
        answer.Answered? && Ok(answer.status) && JsonOf(answer, parse).Some?
        && AuthorizationUrl(JsonOf(answer, parse).value) == Some(location)
        && JsTruthy(location.value)
      ensures answer.Answered? && !Ok(answer.status) ==>
        status == ErrorStatus(JStr(GOOGLE_START_FAILED)) && location == old(location)
      ensures (answer.Answered? && Ok(answer.status) && JsonOf(answer, parse).Some?
               && AuthorizationUrl(JsonOf(answer, parse).value).Some?) ==>
        var u := AuthorizationUrl(JsonOf(answer, parse).value).value;
        if u.Some? && JsTruthy(u.value) then location == u && status == Idle
        else location == old(location) && status == ErrorStatus(JStr(NO_AUTHORIZATION_URL))
      ensures (answer.Rejected? || (Ok(answer.status)
               && (JsonOf(answer, parse).None? || AuthorizationUrl(JsonOf(answer, parse).value).None?))) ==>
        status == ErrorStatus(JStr(GOOGLE_NETWORK_ERROR)) && location == old(location)
    {
      isGoogleLoading := true;
      status := Idle;
      requested := oauthUrl;
      if answer.Rejected? {
        status := ErrorStatus(JStr(GOOGLE_NETWORK_ERROR));
      } else if !Ok(answer.status) {
        status := ErrorStatus(JStr(GOOGLE_START_FAILED));
      } else {
        var data := JsonOf(answer, parse);
        if data.None? {
          status := ErrorStatus(JStr(GOOGLE_NETWORK_ERROR));
        } else {
          var u := AuthorizationUrl(data.value);
          if u.None? {
            status := ErrorStatus(JStr(GOOGLE_NETWORK_ERROR));
          } else if u.value.None? || !JsTruthy(u.value.value) {
            status := ErrorStatus(JStr(NO_AUTHORIZATION_URL));
          } else {
            location := u.value;
          }
        }
      }
      isGoogleLoading := false;
    }
  }
}

=== FILE: uri_encoding.dfy ===
/** `encodeURIComponent` as the pages use it to put OAuth `state`/`code`
    values, redirect URIs and cache-busting timestamps into query strings.
    Characters outside the unreserved set are written as the percent-escaped
    bytes of their UTF-8 encoding, with upper-case hex digits. */
module UriEncoding {
  import opened Common

  /** The characters `encodeURIComponent` leaves alone. */
  predicate Unreserved(c: char) {
    ('A' <= c <= 'Z') || ('a' <= c <= 'z') || ('0' <= c <= '9')
    || c == '-' || c == '_' || c == '.' || c == '!' || c == '~'
    || c == '*' || c == '\'' || c == '(' || c == ')'
  }

  predicate IsUpperHex(c: char) { ('0' <= c <= '9') || ('A' <= c <= 'F') }

  function HexDigit(d: nat): (c: char)
    requires d < 16
    ensures IsUpperHex(c)
  {
    if d < 10 then (d + '0' as int) as char else (d - 10 + 'A' as int) as char
  }

  function HexValue(c: char): (d: nat)
    requires IsUpperHex(c)
    ensures d < 16
  {
    if c <= '9' then c as int - '0' as int else c as int - 'A' as int + 10
  }

  lemma HexRoundTrip(d: nat)
    requires d < 16
    ensures HexValue(HexDigit(d)) == d
  {
  }

  predicate IsByte(b: int) { 0 <= b < 256 }

  /** The UTF-8 encoding of one Unicode scalar value. */
  function Utf8(c: char): (bs: seq<int>)
    ensures 1 <= |bs| <= 4 && forall i :: 0 <= i < |bs| ==> IsByte(bs[i])
    ensures c as int < 0x80 <==> bs == [c as int]
  {
    var k := c as int;
    if k < 0x80 then [k]
    else if k < 0x800 then [0xC0 + k / 64, 0x80 + k % 64]
    else if k < 0x10000 then [0xE0 + k / 4096, 0x80 + (k / 64) % 64, 0x80 + k % 64]
    else [0xF0 + k / 262144, 0x80 + (k / 4096) % 64, 0x80 + (k / 64) % 64, 0x80 + k % 64]
  }

  function Utf8String(s: string): (bs: seq<int>)
    ensures forall i :: 0 <= i < |bs| ==> IsByte(bs[i])
  {
    if s == [] then [] else Utf8(s[0]) + Utf8String(s[1..])
  }

  function PercentBytes(bs: seq<int>): (r: string)
    requires forall i :: 0 <= i < |bs| ==> IsByte(bs[i])
    ensures |r| == 3 * |bs|
    ensures forall i :: 0 <= i < |r| ==> r[i] == '%' || IsUpperHex(r[i])
  {
    if bs == [] then []
    else
      assert IsByte(bs[0]);
      ['%', HexDigit(bs[0] / 16), HexDigit(bs[0] % 16)] + PercentBytes(bs[1..])
  }

  function EncodeChar(c: char): string {
    if Unreserved(c) then [c] else PercentBytes(Utf8(c))
  }

  /** `encodeURIComponent(s)`. Every output character is unreserved, a `%`,
      or an upper-case hex digit, so the result cannot end a query value. */
  function EncodeURIComponent(s: string): (r: string)
    ensures forall i :: 0 <= i < |r| ==> Unreserved(r[i]) || r[i] == '%' || IsUpperHex(r[i])
    ensures |s| <= |r|
  {
    if s == [] then [] else EncodeChar(s[0]) + EncodeURIComponent(s[1..])
  }

  /** The encoded value never contains a query delimiter, a fragment mark, a
      path separator or a space. */
  lemma EncodedHasNoDelimiters(s: string)
    ensures forall i :: 0 <= i < |EncodeURIComponent(s)| ==>
      EncodeURIComponent(s)[i] !in {'&', '=', '?', '#', '/', ' ', '+'}
  {
  }

  /** A value made only of unreserved characters is passed through unchanged. */
  lemma {:induction false} EncodeUnreservedIdentity(s: string)
    requires forall i :: 0 <= i < |s| ==> Unreserved(s[i])
    ensures EncodeURIComponent(s) == s
  {
    if s != [] {
      EncodeUnreservedIdentity(s[1..]);
    }
  }

  /** Percent-decoding to bytes, the inverse the server applies: `%XY` is one
      byte, any other ASCII character stands for its own byte. */
  function DecodeBytes(s: string): Option<seq<int>> {
    if s == [] then Some([])
    else if s[0] == '%' then
      if |s| >= 3 && IsUpperHex(s[1]) && IsUpperHex(s[2]) then
        match DecodeBytes(s[3..])
        case Some(rest) => Some([HexValue(s[1]) * 16 + HexValue(s[2])] + rest)
        case None => None
      else None
    else if s[0] as int < 0x80 then
      match DecodeBytes(s[1..])
      case Some(rest) => Some([s[0] as int] + rest)
      case None => None
    else None
  }

  lemma {:induction false} DecodePercentBytes(bs: seq<int>, rest: string)
    requires forall i :: 0 <= i < |bs| ==> IsByte(bs[i])
    ensures DecodeBytes(PercentBytes(bs) + rest) ==
      match DecodeBytes(rest)
      case Some(r) => Some(bs + r)
      case None => None
  {
    if bs != [] {
      var b := bs[0];
      HexRoundTrip(b / 16);
      HexRoundTrip(b % 16);
      DecodePercentBytes(bs[1..], rest);
      var s := PercentBytes(bs) + rest;
      assert s[0] == '%' && s[1] == HexDigit(b / 16) && s[2] == HexDigit(b % 16);
      assert s[3..] == PercentBytes(bs[1..]) + rest;
      assert HexValue(s[1]) * 16 + HexValue(s[2]) == b;
      match DecodeBytes(rest)
      case Some(r) =>
        assert DecodeBytes(s) == Some([b] + (bs[1..] + r));
        assert [b] + (bs[1..] + r) == bs + r;
      case None =>
    } else {
      assert PercentBytes(bs) + rest == rest;
      match DecodeBytes(rest)
      case Some(r) => assert bs + r == r;
      case None =>
    }
  }

  /** Decoding an encoded value yields exactly the UTF-8 bytes of the
      original, so no information is lost in the query string. */
  lemma {:induction false} EncodeDecodeRoundTrip(s: string)
    ensures DecodeBytes(EncodeURIComponent(s)) == Some(Utf8String(s))
  {
    if s != [] {
      EncodeDecodeRoundTrip(s[1..]);
      var c := s[0];
      var tail := EncodeURIComponent(s[1..]);
      if Unreserved(c) {
        assert ([c] + tail)[1..] == tail;
      } else {
        DecodePercentBytes(Utf8(c), tail);
      }
    }
  }
}

=== FILE: user_accounts.dfy ===
/** The custom user model's manager: `create_user` and `create_superuser`.
    The user table is a sequence of accounts; `normalize_email` is a function
    parameter and `set_password` is recorded as the raw password it hashed. */
module UserAccounts {
  import opened Common

  /** What `set_password` leaves in the password column: the hash of a raw
      password, or the unusable marker `set_password(None)` writes. Hashing
      itself is not modelled: `HashOf(raw)` stands for the salted hash. */
  datatype Password = Unusable | HashOf(raw: string)

  /** A saved `UserAccount`: its email, its password, and the keyword
      arguments the manager passed through to the model. */
  datatype UserAccount = UserAccount(email: string, password: Password, fields: map<string, Json>)

  /** What a manager call ends in: the saved account, the `ValueError` it
      raised, or the `IntegrityError` that `save` raises when the email is
      already stored (the column is `unique=True`). */
  datatype Creation = Created(user: UserAccount) | ValueError(message: string) | IntegrityError

  const NO_EMAIL := "Users must have an email address"
  const NOT_STAFF := "Superuser must have is_staff=True."
  const NOT_SUPERUSER := "Superuser must have is_superuser=True."

  const TRUE := JBool(true)

  predicate NoUpper(s: string) { forall i :: 0 <= i < |s| ==> !('A' <= s[i] <= 'Z') }

  /** `set_password(password)`. */
  function PasswordFor(password: Option<string>): (p: Password)
    ensures p.Unusable? <==> password.None?
    ensures password.Some? ==> p.raw == password.value
  {
    if password.Some? then HashOf(password.value) else Unusable
  }

  /** `fields.setdefault(key, value)`: a present key keeps its value, an
      absent one is added with `value`, and no other key is touched. */
  function SetDefault(fields: map<string, Json>, key: string, value: Json): (r: map<string, Json>)
    ensures key in r && r[key] == (if key in fields then fields[key] else value)
    ensures forall k :: k != key ==> (k in r <==> k in fields)
    ensures forall k :: k != key && k in fields ==> r[k] == fields[k]
  {
    if key in fields then fields else fields[key := value]
  }

  /** The keyword arguments after the three `setdefault` calls of
      `create_superuser`. */
  function SuperuserFields(extra: map<string, Json>): (r: map<string, Json>)
    ensures "is_staff" in r && r["is_staff"] == (if "is_staff" in extra then extra["is_staff"] else TRUE)
    ensures "is_superuser" in r
      && r["is_superuser"] == (if "is_superuser" in extra then extra["is_superuser"] else TRUE)
    ensures "is_active" in r && r["is_active"] == (if "is_active" in extra then extra["is_active"] else TRUE)
    ensures forall k :: k in extra ==> k in r && r[k] == extra[k]
    ensures forall k :: k in r ==> k in extra || k == "is_staff" || k == "is_superuser" || k == "is_active"
  {
    SetDefault(SetDefault(SetDefault(extra, "is_staff", TRUE), "is_superuser", TRUE), "is_active", TRUE)
  }

  /** `extra.get(flag) is not True` fails to hold: the flag is absent (and so
      defaults to True) or is the boolean True itself. */
  predicate FlagAllowed(extra: map<string, Json>, flag: string) {
    flag !in extra || extra[flag] == TRUE
  }

  /** Some stored account already has the email `e`. */
  predicate EmailTaken(users: seq<UserAccount>, e: string) {
    exists i :: 0 <= i < |users| && users[i].email == e
  }

  /** What the unique constraint keeps true of the table. */
  predicate UniqueEmails(users: seq<UserAccount>) {
    forall i, j :: 0 <= i < j < |users| ==> users[i].email != users[j].email
  }

  /** Lower-casing the stored email again changes nothing. */
  lemma LowerIdempotent(s: string)
    ensures Lower(Lower(s)) == Lower(s)
  {
    assert forall i :: 0 <= i < |s| ==> AsciiLower(AsciiLower(s[i])) == AsciiLower(s[i]);
  }

  /** The user table together with `UserAccountManager`. */
  class UserTable {
    var users: seq<UserAccount>

    constructor (users: seq<UserAccount>)
      ensures this.users == users
    {
      this.users := users;
    }

    /** `create_user`: a falsy email raises before anything is stored;
        otherwise the normalised, lower-cased email and the password are
        saved with the extra fields, unless that email is already stored,
        in which case `save` raises and nothing is stored. */
    method CreateUser(email: Option<string>, password: Option<string>, extra: map<string, Json>,
                      normalize: string -> string)
      returns (r: Creation)
      modifies this
      ensures !TextTruthy(email) ==> r == ValueError(NO_EMAIL) && users == old(users)
      ensures TextTruthy(email) && EmailTaken(old(users), Lower(normalize(email.value))) ==>
        r == IntegrityError && users == old(users)
      ensures TextTruthy(email) && !EmailTaken(old(users), Lower(normalize(email.value))) ==>
        r.Created? && users == old(users) + [r.user]
      ensures r.Created? ==>
        r.user == UserAccount(Lower(normalize(email.value)), PasswordFor(password), extra)
      ensures r.Created? ==> NoUpper(r.user.email)
      ensures UniqueEmails(old(users)) ==> UniqueEmails(users)
    {
      if !TextTruthy(email) {
        return ValueError(NO_EMAIL);
      }
      var normalized := Lower(normalize(email.value));
      if EmailTaken(users, normalized) {
        return IntegrityError;
      }
      var user := UserAccount(normalized, PasswordFor(password), extra);
      users := users + [user];
      r := Created(user);
    }

    /** `create_superuser`: the three flags default to True; an explicit
        `is_staff` and then an explicit `is_superuser` that is not True raise
        before any user is created; `is_active` may be anything. */
    method CreateSuperuser(email: Option<string>, password: Option<string>, extra: map<string, Json>,
                           normalize: string -> string)
      returns (r: Creation)
      modifies this
      ensures !FlagAllowed(extra, "is_staff") ==> r == ValueError(NOT_STAFF) && users == old(users)
      ensures FlagAllowed(extra, "is_staff") && !FlagAllowed(extra, "is_superuser") ==>
        r == ValueError(NOT_SUPERUSER) && users == old(users)
      ensures FlagAllowed(extra, "is_staff") && FlagAllowed(extra, "is_superuser") && !TextTruthy(email) ==>
        r == ValueError(NO_EMAIL) && users == old(users)
      ensures (FlagAllowed(extra, "is_staff") && FlagAllowed(extra, "is_superuser") && TextTruthy(email)
               && EmailTaken(old(users), Lower(normalize(email.value)))) ==>
        r == IntegrityError && users == old(users)
      ensures (FlagAllowed(extra, "is_staff") && FlagAllowed(extra, "is_superuser") && TextTruthy(email)
               && !EmailTaken(old(users), Lower(normalize(email.value)))) ==>
        r.Created? && users == old(users) + [r.user]
      ensures r.Created? ==>
        r.user == UserAccount(Lower(normalize(email.value)), PasswordFor(password), SuperuserFields(extra))
      ensures r.Created? ==>
        r.user.fields["is_staff"] == TRUE && r.user.fields["is_superuser"] == TRUE
        && r.user.fields["is_active"] == (if "is_active" in extra then extra["is_active"] else TRUE)
      ensures UniqueEmails(old(users)) ==> UniqueEmails(users)
    {
      var fields := SetDefault(extra, "is_staff", TRUE);
      fields := SetDefault(fields, "is_superuser", TRUE);
      fields := SetDefault(fields, "is_active", TRUE);
      if fields["is_staff"] != TRUE {
        return ValueError(NOT_STAFF);
      }
      if fields["is_superuser"] != TRUE {
        return ValueError(NOT_SUPERUSER);
      }
      r := CreateUser(email, password, fields, normalize);
    }
  }
}

=== FILE: user_admin.dfy ===
/** The admin's user-creation form: the password confirmation check and the
    save that hashes `password1` and persists only on commit. */
module UserAdmin {
  import opened Common
  import opened UserAccounts

  /** What `clean_password2` ends in: the cleaned value, or the
      `ValidationError` it raised. */
  datatype Cleaned = CleanValue(password2: Option<string>) | ValidationError(message: string)

  const MISMATCH := "Passwords don't match"

  /** `clean_password2`: a mismatch is reported only when both passwords are
      non-empty; otherwise `password2` comes back unchanged. */
  function CleanPassword2(password1: Option<string>, password2: Option<string>): (r: Cleaned)
    ensures r.ValidationError? <==>
      TextTruthy(password1) && TextTruthy(password2) && password1.value != password2.value
    ensures r.ValidationError? ==> r.message == MISMATCH
    ensures r.CleanValue? ==> r.password2 == password2
  {
    if TextTruthy(password1) && TextTruthy(password2) && password1.value != password2.value then
      ValidationError(MISMATCH)
    else
      CleanValue(password2)
  }

  /** When both fields are filled and the form cleans, the confirmation
      agrees with the password that `save` hashes; an empty field on either
      side is never reported as a mismatch. */
  lemma ConfirmationAgrees(password1: Option<string>, password2: Option<string>)
    ensures CleanPassword2(password1, password2).CleanValue? && TextTruthy(password1) && TextTruthy(password2)
      ==> password1 == password2
    ensures !TextTruthy(password1) || !TextTruthy(password2) ==> CleanPassword2(password1, password2).CleanValue?
  {
  }

  /** `UserCreationForm.save(commit)`: the instance built from the form's
      fields gets the hash of `password1`; it is stored only when `commit`
      holds. The email is saved as entered: this path does not go through
      `create_user`, so it is not lower-cased. */
  method Save(table: UserTable, email: string, firstName: string, lastName: string,
              password1: string, commit: bool)
    returns (user: UserAccount)
    modifies table
    ensures user.email == email && user.password == HashOf(password1)
    ensures user.fields == map["first_name" := JStr(firstName), "last_name" := JStr(lastName)]
    ensures table.users == if commit then old(table.users) + [user] else old(table.users)
  {
    user := UserAccount(email, Unusable, map["first_name" := JStr(firstName), "last_name" := JStr(lastName)]);
    user := user.(password := PasswordFor(Some(password1)));
    if commit {
      table.users := table.users + [user];
    }
  }
}

=== FILE: welcome.dfy ===
/** The signed-in landing screen: the greeting name, the completeness
    label, and the effect that loads the completeness from the profile. */
module Welcome {
  import opened Common
  import opened PageCommon
  import opened AuthProvider

  /** `email.split('@')[0]`: everything before the first '@'. */
  function BeforeAt(email: string): (r: string)
    ensures '@' !in r && StartsWith(email, r)
    ensures |r| == |email| || email[|r|] == '@'
  {
    if email == [] || email[0] == '@' then "" else [email[0]] + BeforeAt(email[1..])
  }

  /** `user.first_name || user.email.split('@')[0]`. */
  function FirstName(u: CurrentUser): (r: string)
    ensures TextTruthy(u.firstName) ==> r == u.firstName.value
    ensures !TextTruthy(u.firstName) ==> r == BeforeAt(u.email)
  {
    if TextTruthy(u.firstName) then u.firstName.value else BeforeAt(u.email)
  }

  /** An email without '@' greets with the whole address. */
  lemma {:induction false} NoAtGreetsWithEmail(email: string)
    requires '@' !in email
    ensures BeforeAt(email) == email
  {
    if email != [] {
      assert email[1..] == email[1..];
      assert '@' !in email[1..] by {
        forall i | 0 <= i < |email[1..]| ensures email[1..][i] != '@' {
          assert email[1..][i] == email[i + 1];
        }
      }
      NoAtGreetsWithEmail(email[1..]);
    }
  }

  /** The completeness the effect stores: `profile_completeness` when it is
      a number, null otherwise (including a body that is not an object). */
  function CompletenessOf(body: Json): (c: Option<int>)
    ensures c.Some? <==> Member(body, "profile_completeness").Some? && Member(body, "profile_completeness").value.JNum?
    ensures c.Some? ==> Member(body, "profile_completeness") == Some(JNum(c.value))
  {
    match Member(body, "profile_completeness")
    case Some(JNum(n)) => Some(n)
    case _ => None
  }

  /** `completenessLabel`: "--" while unknown, else the number and "%". */
  function CompletenessLabel(c: Option<int>): (shown: string)
    ensures shown == "--" <==> c.None?
    ensures c.Some? ==> shown == IntToString(c.value) + "%"
  {
    match c
    case None => "--"
    case Some(n) =>
      var shown := IntToString(n) + "%";
      assert shown[|shown| - 1] == '%';
      shown
  }

  /** The label of a known, non-negative completeness reads back as that number. */
  lemma LabelReadsBack(n: nat)
    ensures var shown := CompletenessLabel(Some(n));
      |shown| >= 2 && shown[|shown| - 1] == '%'
      && (forall i :: 0 <= i < |shown| - 1 ==> IsDigit(shown[i]))
      && DigitsValue(shown[..|shown| - 1]) == n
  {
    var shown := CompletenessLabel(Some(n));
    assert shown[..|shown| - 1] == NatToString(n);
    NatToStringRoundTrip(n);
  }

  /** The screen's state. */
  class WelcomeScreen {
    var profileCompleteness: Option<int>

    constructor ()
      ensures profileCompleteness.None?
    {
      profileCompleteness := None;
    }

    /** The load effect. After unmount nothing is written; a response that
        is not ok leaves the value as it was; a rejected fetch or an
        unreadable body resets it to null. */
    method Load(response: Reply<Json>, mounted: bool)
      modifies this
      ensures !mounted ==> profileCompleteness == old(profileCompleteness)
      ensures mounted && response.Replied? && !IsOk(response) ==>
        profileCompleteness == old(profileCompleteness)
      ensures mounted && (response.Thrown? || (IsOk(response) && response.json.None?)) ==>
        profileCompleteness.None?
      ensures mounted && OkWithBody(response) ==>
        profileCompleteness == CompletenessOf(response.json.value)
    {
      if response.Thrown? {
        if mounted {
          profileCompleteness := None;
        }
        return;
      }
      if !mounted {
        return;
      }
      if IsOk(response) {
        match response.json
        case None =>
          profileCompleteness := None;
        case Some(data) =>
          profileCompleteness := CompletenessOf(data);
      }
    }
  }
}
